=== FILE: README.md ===
# DXD Dealer–Installer Manager: a Dafny model of the dashboard's pages

The system is a React single-page application over a Firebase back end.
Dealers browse a product catalogue and file quotations, admins review
and approve them, and installers follow their projects. Users sign up
with an optional referral code that rewards both parties with coupons.
The model covers the page logic of the application:

- the quotation review screen: its filters, search, pagination,
  commission, and the Approve/Reject handlers with their button guard;
- the product catalogue: search, category filter, cart and form state,
  submission of a quotation, and pagination;
- the product details page: the route parameter lookup, the feature
  labels and values, and the quotation form;
- sign-up: referral ids and coupon numbers, referral code validation,
  the writes of a sign-up, and the error messages;
- the notifications page: newest-first order, type filter and search,
  pagination, grouping under day headings, mark-as-read and delete;
- the application shell: the dashboard route per role, the role-gated
  routes, the unread badge and the visible navigation controls;
- the login form: the e-mail pattern, the role check and the redirect;
- the admin dashboard: dealer and installer lists, the order report,
  the quotation statistics, and installer approval;
- the installer dashboard: the installer's projects, the per-status
  counts, the status update and the report lines;
- the rewards page: the sort options, the message search and the
  loading / error / empty / list choice.

Everything is written as pure functions over immutable datatypes, in these modules:

- `Optional` and `Seqs` are generic helpers. `Seqs` holds order-keeping
  filter, paging, and a stable insertion sort that stands for
  `Array.prototype.sort`.
- `Text` holds lower-casing, `includes`, decimal rendering and `parseInt`.
- `Grouping` is the `reduce`-into-an-object idiom.
- `Store` holds the Firestore documents and writes, and `Catalog` the
  products.
- Each page has its own module: `Quotations`, `ProductPage`,
  `ProductDetails`, `Signup`, `Notifications`, `App`, `Login`,
  `AdminDashboard`, `InstallerDashboard`, `RewardPage`.

The environment becomes parameters:

- **Store writes.** A handler's writes are listed in the order the
  handler issues them. `accepted` is how many of them the store accepts
  before it rejects one. The writes that took effect are `Performed(plan, accepted)`,
  and a handler's failure path is the one taken when `accepted` falls
  short of the plan.
- **Randomness.** `Math.random()` is a parameter `random` in [0, 1).
- **Clock.** `Date.now()` is a parameter `now`.
- **Dates.** `toDateString()` is a function parameter `dayOf`.
- **Query results.** A Firestore query's result is a sequence in delivery order.

## Model

| member | source | states |
|---|---|---|
| Quotations.Load | src/pages/Quotations.js:62-83 | A fetched quotation keeps its document's id, order number, status, owner and product. Its payment status is the stored one when the field is present and "Pending" otherwise. Its estimate is blank exactly when none was stored. |
| Quotations.LoadAll | src/pages/Quotations.js:62-83 | The page's list holds one quotation per fetched document, in fetch order. |
| Quotations.ApplyFilters | src/pages/Quotations.js:24-46 | The list keeps exactly the fetched quotations that pass every non-empty filter. Those are a payment status equal to the selected one, a review status equal to the selected one, and an order number containing the search text. |
| Quotations.ApplyFiltersIsOneFilter | src/pages/Quotations.js:24-46 | The three chained stages equal one filter by the conjunction of the three conditions, so the result is an order-preserving subsequence of the fetched list. |
| Quotations.HandleSearch | src/pages/Quotations.js:165-179 | An empty search restores the full list. Otherwise the list is exactly the quotations whose order number contains the typed text ignoring the case of ASCII letters. |
| Quotations.SearchAgreesWithFilters | src/pages/Quotations.js:165-179 | The search handler's list is the filter effect's list with both selects cleared, so typing ignores the selected filters. |
| Quotations.CurrentQuotations | src/pages/Quotations.js:53-55 | Page n is exactly the slice of the filtered list from position 4(n-1) to 4n: four quotations in order, fewer on the last page, none past the end. |
| Quotations.TotalPages | src/pages/Quotations.js:18 | The page count is the fewest pages of four that hold the filtered list. |
| Quotations.Commission | src/pages/Quotations.js:85-87 | The commission is the given percentage of the estimate. It lies between zero and the estimate when the percentage lies between 0 and 100. |
| Quotations.PendingFilterSkipsUndecided | src/pages/Quotations.js:24-46 | A quotation with no status reads "Pending" on its card and still offers Approve and Reject, yet the "Pending" status filter leaves it out. |
| Quotations.FindById | src/pages/Quotations.js:105 | The lookup finds nothing exactly when no quotation has the id. Otherwise it finds the first quotation that has it. |
| Quotations.Approve | src/pages/Quotations.js:89-135 | Missing inputs give only the fill-in alert. Otherwise the first write approves the quotation with the typed estimate, percentage and payment status, and stores a commission that is the percentage of the estimate. It makes no write when the first one is refused, one when only the first is accepted or no entry has the id, and two otherwise. The second write is an unread alert carrying the order number and owner of the first entry with the id, and the message "Your Quotation #<order number> for <product name, or "Unknown Product"> has been approved.". The list changes exactly when both writes and the lookup succeed, and then only the entries with that id change, in only the approval fields. |
| Quotations.Reject | src/pages/Quotations.js:137-162 | Corrected handler: once the status write is accepted, the entries with that id become "Rejected" and nothing else changes. A rejected write leaves the list as it was and alerts. |
| Quotations.RejectAsWritten | src/pages/Quotations.js:137-162 | The handler as written: whatever the store does, the list is never updated and the error alert always shows. |
| Quotations.RejectAsWrittenLeavesQuotationOpen | src/pages/Quotations.js:143-156 | As written, a rejection the store accepted leaves the card undecided with its buttons still shown. The corrected handler closes it. |
| Quotations.Opened | src/pages/Quotations.js:62-83 | On load, both lists hold the fetched quotations, no filter is set, and the first page shows. |
| Quotations.Refiltered | src/pages/Quotations.js:48-59 | Changing a filter recomputes the shown list from the fetched list with all three filters, and returns to page one. |
| Quotations.Search | src/pages/Quotations.js:165-179 | The search box stores the lower-cased query. When the query changed, the shown list is the fetched list under every filter, and the page returns to one. |
| Quotations.EditShown | src/pages/Quotations.js:235-290 | An input's change writes the typed value into that field of the entries with that id. It never touches their status or order number, nor any other entry. |
| Quotations.ApproveStepAsWritten | src/pages/Quotations.js:120-128 | As written, approval never touches the fetched list. |
| Quotations.ApproveStep | src/pages/Quotations.js:89-135 | Corrected approval: the shown list and the writes are those of the handler, and the fetched list's entries with that id receive the same approval. |
| Quotations.RejectStep | src/pages/Quotations.js:137-162 | Corrected rejection: after an accepted write, both lists mark the quotation "Rejected". A rejected write changes nothing and alerts. |
| Quotations.ClickApprove | src/pages/Quotations.js:297-313 | A decided card does nothing. An undecided card reaches the store exactly when its inputs are filled and the store accepts, and it approves that card's quotation. |
| Quotations.ClickReject | src/pages/Quotations.js:297-313 | A decided card does nothing. An undecided card whose write is accepted issues exactly that card's rejection, and a rejected write changes nothing. |
| Quotations.ApprovalSurvivesRefiltering | src/pages/Quotations.js:24-46 | After a corrected approval, every later choice of filters shows the quotation as decided. |
| Quotations.ApprovalLostOnRefilterAsWritten | src/pages/Quotations.js:120-128 | As written, approving and then choosing the "Pending" payment filter shows the same quotation undecided again, with its buttons back. |
| ProductPage.Search | src/pages/ProductPage.js:34-42 | The listing is exactly the products whose name contains the typed text ignoring the case of ASCII letters, in catalogue order, on page one. |
| ProductPage.EmptySearchShowsAll | src/pages/ProductPage.js:34-42 | An empty search lists the whole catalogue. |
| ProductPage.FilterByCategory | src/pages/ProductPage.js:46-53 | "All" lists the whole catalogue. Any other category lists exactly the products in it, in order, on page one. |
| ProductPage.Categories | src/pages/ProductPage.js:32 | The category buttons are distinct, and each is the category of some product. Every product's category has a button. |
| ProductPage.DisplayedProducts | src/pages/ProductPage.js:153-157 | Page n is exactly the slice of the listing from position 8(n-1) to 8n: eight products in order, fewer on the last page, none past the end. |
| ProductPage.TotalPages | src/pages/ProductPage.js:153 | The page count is the fewest pages of eight that hold the listing. |
| ProductPage.AddToCart | src/pages/ProductPage.js:55-56 | The cart gains the product at its end and is otherwise unchanged. |
| ProductPage.RemoveFromCart | src/pages/ProductPage.js:63-70 | Every cart entry with that id leaves. Every other entry keeps its number of copies and its order. That product's form data is dropped, and every other product's is kept unchanged. |
| ProductPage.RemoveUndoesAdd | src/pages/ProductPage.js:55-70 | Adding a product and then removing its id leaves the same cart as removing the id alone. |
| ProductPage.FormChange | src/pages/ProductPage.js:72-80 | The product's form gains the typed value in that field and keeps its other fields. Other products' forms are untouched. |
| ProductPage.CartProductName | src/pages/ProductPage.js:100-116 | The name is that of the first cart entry with the id, or "Unknown" when that name is empty or no entry has the id. It is never empty. |
| ProductPage.AddedProductIsNamed | src/pages/ProductPage.js:55-57 | A product added to a cart that lacked its id is the one named by its id, or "Unknown" when its name is empty. |
| ProductPage.AddKeepsFirstEntryName | src/pages/ProductPage.js:100-116 | Adding a product never changes the name found for an id already in the cart: the first entry still decides. |
| ProductPage.SubmitterId | src/pages/ProductPage.js:93-109 | The quotation's owner is the signed-in user, or "Anonymous" when nobody is signed in. |
| ProductPage.SubmitProductForm | src/pages/ProductPage.js:82-149 | The order number has six digits. The first write stores the quotation under that number's text, marked "Pending" in its product and with no review status. The second write notifies the submitter. Only when both are accepted do the cart and form data become exactly what removing that product gives (unchanged when no product was chosen), and the popup closes when it was the last item. |
| ProductPage.SubmitClicked | src/pages/ProductPage.js:381-382 | The Submit button files a quotation for the active tab. A tab past the end of the cart files one for "Unknown". |
| ProductPage.StaleTabSubmitsUnknown | src/pages/ProductPage.js:133-148 | Submitting the last tab leaves the active tab past the shortened cart, so the next submission names "Unknown". |
| ProductDetails.FirstWithId | src/pages/ProductDetails.js:23-27 | The lookup finds the first product with the id, and nothing exactly when no product has it. |
| ProductDetails.FindProduct | src/pages/ProductDetails.js:23-27 | A parameter that does not parse as an integer finds nothing. Otherwise the page shows a product whose id is the parsed value, whenever one exists. |
| ProductDetails.DetailLinkFindsProduct | src/pages/ProductDetails.js:23-27 | A link built from a product's decimal id, with ids unique, opens that product. |
| ProductDetails.FeatureLabel | src/pages/ProductDetails.js:96 | The label never starts with a capital, and every capital in it follows a space. |
| ProductDetails.UnlabelFeatureLabel | src/pages/ProductDetails.js:96 | Dropping the inserted spaces recovers the feature key, so no two keys share a label. |
| ProductDetails.FeatureLabelWithoutCapitals | src/pages/ProductDetails.js:96 | A key with no capitals is shown as it is. |
| ProductDetails.FeatureText | src/pages/ProductDetails.js:97-103 | A plain value is shown as it is. A list, and an object's entries written as "key: value", are shown item by item in order. Each item sits at its offset, ", " sits between neighbours, and nothing else is shown. An empty list shows nothing. |
| ProductDetails.JoinShowsItems | src/pages/ProductDetails.js:97-103 | `join` places each item after the earlier items and their separators, one separator in each gap, and nothing after the last item. |
| ProductDetails.FeatureLines | src/pages/ProductDetails.js:94-105 | There is one line per feature, in order. Each label gives back its feature's key, and each text is that feature's value text. |
| ProductDetails.SubmitQuotation | src/pages/ProductDetails.js:29-72 | The six-digit order number keys the quotation, which carries the product's name, the typed client and no product status. On success the form clears and the message quotes the order number. A rejected write keeps the form and reports the failure. |
| ProductDetails.DetailQuotationHasNoStatus | src/pages/ProductDetails.js:32-47 | A quotation filed from the detail page has neither a product status nor a review status. On the review screen its missing payment status reads "Pending", so the "Pending" payment filter lists it, while the "Pending" status filter and the admin statistics' pending count skip it. |
| Signup.ReadReferralIdOfReferralId | src/pages/signup.js:21-25 | A referral id reads back as the timestamp and the random number it was made from. |
| Signup.ReferralIdsDifferInTime | src/pages/signup.js:21-25 | Referral ids made at different times differ, whatever the random draws. |
| Signup.CouponNumber | src/pages/signup.js:27-30 | A coupon is "CPN-" and six digits with no leading zero. |
| Signup.FirstWithReferralId | src/pages/signup.js:33-59 | The lookup finds the first user whose referral id equals the code, and nothing exactly when none does. |
| Signup.ValidateReferral | src/pages/signup.js:33-59 | An empty code clears the state without a query. A failed query reports the lookup error. Otherwise the uid, name and e-mail kept are those of the first user whose referral id equals the code, kept exactly when some user has it. The invalid-code error shows when none does. |
| Signup.ReferralIgnoresOtherHolders | src/pages/signup.js:33-59 | Users listed after the first holder of the code, and earlier users holding other codes, do not change which referrer is found. |
| Signup.SignupError | src/pages/signup.js:141-143 | The e-mail-in-use message shows exactly when the error mentions "email-already", and the generic failure message otherwise. |
| Signup.SignupPlan | src/pages/signup.js:62-145 | The user document comes first and the welcome notification last. With a referral, the middle writes add the new account to the referrer's list, notify the referrer, and give both parties an unclaimed referral coupon. |
| Signup.HandleSignup | src/pages/signup.js:62-145 | A failed account creation shows its mapped error and writes nothing. Otherwise the accepted prefix of the plan takes effect. The page moves to login with the success message exactly when the whole plan is accepted, and shows one of the two error messages otherwise. |
| Signup.SignupRecordsReferral | src/pages/signup.js:76-92 | After a referred sign-up, the users collection holds the new account. The referrer's list gains the new account through a union, so it appears there, and no other user changed. |
| Store.SixDigit | src/pages/ProductDetails.js:30 | The drawn order number always has six digits. |
| Store.SixDigitOnto | src/pages/ProductDetails.js:30 | Every six-digit number can be drawn. |
| Store.ArrayUnion | src/pages/signup.js:90-92 | The union keeps the old entries in order and contains the new one. It adds nothing when the value is already present and keeps entries distinct. |
| Store.ArrayUnionIdempotent | src/pages/signup.js:90-92 | Applying the same union twice changes nothing more. |
| Notifications.Load | src/pages/NotificationsPage.js:17-48 | The list holds exactly the user's notifications from the snapshot. |
| Notifications.LoadNewestFirst | src/pages/NotificationsPage.js:33 | The list is ordered newest first, with undated notifications counting as time 0. |
| Notifications.LoadKeepsSnapshotOrderOfEqualDates | src/pages/NotificationsPage.js:33 | The sort is stable: for every date, the user's notifications of that date appear in the order the snapshot delivered them. |
| Notifications.Visible | src/pages/NotificationsPage.js:77-83 | The visible list is exactly the notifications of the chosen type ("all" passes all) whose message contains the search ignoring the case of ASCII letters, in order. |
| Notifications.NothingHiddenByDefault | src/pages/NotificationsPage.js:77-83 | The initial filter and search hide nothing. |
| Notifications.TotalPages | src/pages/NotificationsPage.js:86 | The page count is the fewest pages of five that hold the visible list. |
| Notifications.CurrentNotifications | src/pages/NotificationsPage.js:86-91 | Page n is exactly the slice of the visible list from position 5(n-1) to 5n: five notifications in order, fewer on the last page, none past the end. |
| Notifications.HandlePageChange | src/pages/NotificationsPage.js:93-95 | A request in 1..total moves to exactly that page. Any other request (zero, negative or past the end) leaves the page where it was. |
| Notifications.PageChangeKeepsAFullPage | src/pages/NotificationsPage.js:93-95 | From a page that shows something, no page request leads to an empty page. |
| Notifications.NarrowerFilterCanEmptyThePage | src/pages/NotificationsPage.js:77-91 | With five alerts and one info, page two under "all" shows the info. Under "info" the info is visible, yet page two is empty, because a filter change keeps the page number. |
| Notifications.GroupByDay | src/pages/NotificationsPage.js:98-103 | The headings are distinct, and each holds exactly the page's notifications of that day in order. Undated ones fall under "No Date", every notification is under its day, and none is listed twice. The headings come in order of first appearance: some notification under an earlier heading comes before every notification under a later one. |
| Notifications.NoGroupsIffEmptyPage | src/pages/NotificationsPage.js:136-166 | The "No notifications found." message shows exactly when the current page is empty. |
| Notifications.UnreadStyledAsRead | src/pages/NotificationsPage.js:144-151 | A notification whose button offers "Mark as Read" is styled as read, because the text "false" is truthy. |
| Notifications.MarkAsRead | src/pages/NotificationsPage.js:51-63 | An accepted update marks the entries with that id read, so their button disappears. A rejected update, and every other entry, stays as it was. |
| Notifications.MarkAsReadIdempotent | src/pages/NotificationsPage.js:51-63 | Marking the same notification read twice is the same as once. |
| Notifications.Delete | src/pages/NotificationsPage.js:66-74 | An accepted delete drops exactly the entries with that id and keeps the rest in order. A rejected delete changes nothing. |
| Notifications.DeleteCount | src/pages/NotificationsPage.js:66-74 | The list shrinks by the number of entries with that id. |
| App.DashboardRoute | src/App.js:146-157 | Each of Admin, Dealer and Installer has its own dashboard path, and every other role goes to "/login". |
| App.OnAuthChange | src/App.js:117-137 | Signing out clears the role. A signed-in account takes its document's role, and keeps the previous role when the document is missing or unreadable. |
| App.ReplayKeepsLastDecidedRole | src/App.js:117-137 | After any run of authentication events the shell is ready, with the role of the last sign-out or successful document read (none if there was neither). A missing or unreadable document never changes the role. |
| App.DetailsParam | src/App.js:181 | A path yields a segment only when it is "/product-details/" (in any ASCII letter case) followed by the segment and any number of trailing slashes. The segment is non-empty, free of slashes, and is exactly what follows the prefix. |
| App.DetailsParamOfDetailsPath | src/App.js:181 | Every such path, in any ASCII case of the prefix and with any number of trailing slashes, yields its segment. |
| App.Resolve | src/App.js:164-195 | With a role, "/login" and "/signup" redirect to its dashboard route; without one they show the login and sign-up pages. Each known role's route table is stated path by path, ignoring ASCII letter case and any run of trailing slashes: the admin's three pages, the dealer's six pages and product details, and the installer's two. Every other path, "/" included, redirects to the role's dashboard route, and a missing or unknown role reaches no other page. |
| App.ResolveIgnoresTrailingSlashes | src/App.js:164-195 | Appending any number of slashes to a path never changes what it renders. |
| App.DealerProductsWithSlashes | src/App.js:177 | A dealer at "/Products//" sees the product page. |
| App.DashboardRouteLands | src/App.js:164-195 | For a known role, the dashboard route renders that dashboard, so every redirect ends there in one step. |
| App.SignedOutSeesOnlyPublicPages | src/App.js:164-195 | Without a role, every path shows the login page or the sign-up page, or redirects to "/login". |
| App.UnknownRoleLoopsOnLogin | src/App.js:164-195 | Any non-empty role other than the three redirects every path to "/login", "/login" itself included, so it reaches no page at all. |
| App.UnreadCount | src/App.js:25-39 | The badge is the number of positions holding one of the user's notifications whose read field is the text "false". It is zero exactly when there are none. |
| App.StoreMarkRead | src/pages/NotificationsPage.js:51-63 | Marking a notification read sets the read field to the text "true" on every document with that id. Every other document, and every other field, is unchanged. |
| App.MarkReadLowersBadge | src/App.js:25-39 | Marking one notification read lowers the badge by the number of the user's unread entries with that id. |
| App.Controls | src/App.js:77-101 | Log Out and the bell show exactly for the three known roles, and the badge only when something is unread. Login and Signup show exactly without a role, never together with Log Out. |
| App.UnknownRoleHasNoWayOut | src/App.js:88-101 | Any non-empty role other than the three sees neither Log Out nor Login and Signup. |
| Login.ValidateEmailIff | src/pages/login.js:18-21 | The e-mail pattern accepts exactly the strings of the shape local part, "@", domain, ".", and two or more letters. |
| Login.ValidateEmailExamples | src/pages/login.js:18-21 | "a@b.co" passes, while a one-letter top-level part, an empty local part and an empty domain fail. |
| Login.HandleLogin | src/pages/login.js:23-69 | An invalid e-mail stops before sign-in. The page navigates exactly when sign-in succeeds and the stored role equals the selected one, to that role's dashboard. A stored role that differs signs the account out with the mismatch message, and a sign-in failure shows the service's message. A missing user document shows "No user data found. Please contact support.", and a failed read shows "Failed to log in. Error: " with its message; the account stays signed in in both cases. |
| Login.LoginAgreesWithShell | src/pages/login.js:57-59 | Where login sends a user is the shell's dashboard route for the stored role. |
| AdminDashboard.WithRole | src/pages/AdminDashboard.js:43-56 | The dealer list and the installer list are exactly the users with that role, in snapshot order. |
| AdminDashboard.DealersAndInstallersPartition | src/pages/AdminDashboard.js:43-56 | No user is in both lists, and together they hold at most all users. |
| AdminDashboard.Report | src/pages/AdminDashboard.js:59-70 | The report counts all orders, and those whose status is Completed, Pending and Approved. |
| AdminDashboard.UnlistedStatusOnlyInTotal | src/pages/AdminDashboard.js:59-70 | An order with any other status, or none, raises only the total. |
| AdminDashboard.Stats | src/pages/AdminDashboard.js:98-110 | The statistics count all quotations, and those whose review status is Approved and Pending. |
| AdminDashboard.NewSubmissionNotPending | src/pages/AdminDashboard.js:98-110 | A newly filed quotation, which has no status, raises the total and never the pending count. |
| AdminDashboard.Load | src/pages/AdminDashboard.js:19-82 | Without a user the page goes to login. A full fetch fills the quotations, the report and both lists. A failure part-way shows the error and no report. |
| AdminDashboard.ApproveInstaller | src/pages/AdminDashboard.js:84-95 | An accepted write marks the installers with that id "Approved" and changes nothing else. A rejected write changes nothing. |
| AdminDashboard.ApprovalMatchesStore | src/pages/AdminDashboard.js:84-95 | After an approval, the local copy of the installer equals its document in the store. |
| InstallerDashboard.MyProjects | src/pages/InstallerDashboard.js:30-37 | The list is exactly the projects assigned to the signed-in installer, in order. |
| InstallerDashboard.StatusCounts | src/pages/InstallerDashboard.js:40-44 | Every project's status key has a count, each count is the number of projects with that key, and keys without projects are absent. |
| InstallerDashboard.SummaryCoversProjects | src/pages/InstallerDashboard.js:143-149 | The summary lines are the status groups with their sizes, and together they cover every project once. |
| InstallerDashboard.ReportLine | src/pages/InstallerDashboard.js:157-159 | A report line shows the count for its key, or 0 when absent. |
| InstallerDashboard.ReportLineCountsProjects | src/pages/InstallerDashboard.js:157-159 | A report line equals the number of the installer's projects with that status. |
| InstallerDashboard.ShownStatus | src/pages/InstallerDashboard.js:95 | A project shows its status when it is non-empty, and "Pending" when it is missing or empty. |
| InstallerDashboard.MissingStatusShownAndCountedApart | src/pages/InstallerDashboard.js:40-44 | A project without a status shows "Pending" but is counted under "undefined". |
| InstallerDashboard.UpdateProjectStatusAsWritten | src/pages/InstallerDashboard.js:77-88 | As written, an accepted update changes the project's status and leaves the counts as they were. |
| InstallerDashboard.StaleCountsAsWritten | src/pages/InstallerDashboard.js:77-88 | As written, completing a project leaves the "Completed" report line at 0. |
| InstallerDashboard.UpdateProjectStatus | src/pages/InstallerDashboard.js:77-88 | Corrected update: the projects change as in the handler, and the counts stay those of the current projects. |
| InstallerDashboard.UpdateMovesOneCount | src/pages/InstallerDashboard.js:97-107 | With unique project ids, moving one project to a status raises that status's count by one and lowers its old status's count by one (no change when they are the same). Every other count stays. |
| InstallerDashboard.Load | src/pages/InstallerDashboard.js:19-66 | Without a user the page goes to login. A missing user document shows the no-data error and no projects. Otherwise the projects are the installer's own, the counts are theirs, and the error shows exactly when a later read fails. |
| RewardPage.Initial | src/pages/RewardPage.js:7-11 | The page starts loading with no rewards and no error, sorted by date, with no search. |
| RewardPage.Fetch | src/pages/RewardPage.js:17-40 | Loading ends. Without a signed-in user, or when the query fails, the page shows the load error and keeps its rewards. Otherwise it holds exactly the user's rewards, in query order. |
| RewardPage.SortedRewards | src/pages/RewardPage.js:50-57 | Sorting works on a copy holding the same rewards. |
| RewardPage.DateSortNewestFirst | src/pages/RewardPage.js:51-52 | Sorting by date puts newer rewards first. |
| RewardPage.StatusSortInOrder | src/pages/RewardPage.js:53-54 | Sorting by status puts the statuses in dictionary order. |
| RewardPage.OtherOptionKeepsOrder | src/pages/RewardPage.js:56 | Any other sort option keeps the fetched order. |
| RewardPage.StatusBeforeIsStrictWeakOrder | src/pages/RewardPage.js:54 | The status comparison is a consistent ordering, so the status sort is well defined. |
| RewardPage.FilteredRewards | src/pages/RewardPage.js:59-61 | The shown list is exactly the sorted rewards whose message contains the search ignoring the case of ASCII letters, in sorted order. |
| RewardPage.EmptySearchShowsAll | src/pages/RewardPage.js:59-61 | An empty search shows every reward. |
| RewardPage.Render | src/pages/RewardPage.js:82-93 | The page shows the loading text exactly while loading, then the error exactly when one is set. The empty state shows exactly when the search finds nothing. Otherwise the list is exactly the rewards the search keeps, in the chosen sort order. |
| RewardPage.SortDoesNotChangeWhatIsFound | src/pages/RewardPage.js:50-61 | The search finds the same rewards under every sort option. |
| RewardPage.EmptyStateIgnoresSortOption | src/pages/RewardPage.js:82-93 | Changing the sort option never switches the empty state on or off. |
| Grouping.GroupsInFirstAppearanceOrder | src/pages/NotificationsPage.js:98-103 | The groups come in order of their keys' first appearance: for two groups, some element of the earlier one comes before every element of the later one. |
| Grouping.GroupsCoverAll | src/pages/NotificationsPage.js:98-103 | Grouping lists every element exactly once. |
| Grouping.CountByAt | src/pages/InstallerDashboard.js:40-43 | The count kept for a key, or 0 when it is absent, is the number of elements with that key. |
| Seqs.SortBySorted | src/pages/RewardPage.js:50-57 | The sort leaves no element strictly ahead of an earlier one. |
| Seqs.SortByStableOn | src/pages/NotificationsPage.js:33 | The sort is stable: elements none of which must precede another come out in their input order. |
| Seqs.PageIsSlice | src/pages/Quotations.js:53-55 | A page is the list's `slice` from its first position to the next page's first, with both bounds clamped to the length. |

## Left out

- **Rendering and styles.** Markup, CSS classes other than the read/unread one, icons, the popup layout and `console` output are not modelled.
- **Browser form validation.** The login and sign-up pages submit through a `<form onSubmit>` (src/pages/login.js:74, src/pages/signup.js:150). There the browser enforces `required` inputs and the `type="email"` check before the handler runs, and that step is not modelled. The quotation popups on the product page and the detail page have no form: their buttons submit through `onClick` (src/pages/ProductPage.js:382, src/pages/ProductDetails.js:213). Their `required` fields are therefore not enforced, and `ProductPage.SubmitProductForm` and `ProductDetails.SubmitQuotation` accept blank fields as typed, as the model does.
- **Not modelled: the DealerDashboard and ReferralPage screens.** They are only routed to here.
- **Not modelled: the orders page and the quotation management page's own components.** They are routed to, not modelled.
- **Firestore.** Real-time delivery, offline caching, query ordering and server timestamps are not modelled:
  - a snapshot listener's re-delivery is a new `Load`;
  - a query's result is given as a sequence in delivery order.
- **Concurrency.** Two referral validations racing, two clicks in flight, and a handler's React state updates landing after unmount are not modelled. Each handler runs to completion on the state it started from.
- **Floating point.** Amounts are exact reals. `Number(...)` of a typed text is taken as already parsed.
- **`totalEstimatedAmount`** in the admin statistics is left out. It sums a floating-point field path (`quotation.productName?.price`) that the quotations never have.
- **`Object.entries` key order.** The installer's status summary lists keys in first-appearance order. JavaScript lists integer-like keys first in numeric order, and such status keys are left out.
- **`localeCompare`** is taken as the code-unit dictionary order. Locale collation is not modelled.
- **Installer notifications.** The installer dashboard's notification fetch reads the collection `notifications`, while every writer uses `Notification`. The list is always empty and is not modelled.
- **The rejection notification** of `handleReject` is not part of the corrected `Quotations.Reject`. As written it can never be sent.
- **The local-storage list** of approved quotations is read on load but never used, and is left out.
- **A missing `createdAt`** in a reward would make the page throw when rendering. Every reward is taken to carry one.
- **`handleApproveInstaller` has no button.** It is modelled as the handler alone, because the source never wires it to a button.
- **ProductPage page-number clicks** set the page without a bound. `ProductPage.DisplayedProducts` states what any page number shows.
- **Pre-effect rendering.** Quotations and product pages that render before their effect runs are not modelled; the model takes the state after the effect.
- **Route paths** are taken as already percent-decoded. The router's decoding of escapes such as `%2F` is not modelled.
- **`Text.Lower`** folds only the ASCII letters A-Z, while JavaScript's `toLowerCase` folds every Unicode letter. The searches of `Quotations.HandleSearch`, `ProductPage.Search`, `Notifications.Visible` and `RewardPage.FilteredRewards` ignore case only for those letters, and so does route matching.
- **`App.UnreadCount`** counts the store's documents directly. The listener's cleanup and re-subscription on a role change are not modelled.
- **`Quotations.FindById`** models `find` on the shown list. The as-written handler would throw on a missing entry after its first write; the model returns the lookup-failure alert at the same point.
- **`Notifications.MarkAsRead`** keeps the source's mismatch: the store receives the text "true" and the local copy the boolean `true`. Both are stated, not reconciled.
- **`ProductPage.SubmitClicked`** states the order number, the write count and the "Unknown" case, not every field of the quotation. `ProductPage.SubmitProductForm` states those.

## Findings

| source | as written | input that shows it | evidently intended | confidence | as-written member | corrected member |
|---|---|---|---|---|---|---|
| src/pages/Quotations.js:137-162 | The rejection notification uses `orderNumber`, `productName` and `userId`, none of which is bound in `handleReject`. It throws after the status write, so the catch alerts an error and the list is never updated. | Any undecided quotation, with the store accepting the write: the store says "Rejected" while the card still offers Approve and Reject. | The quotation is found like in `handleApprove`, and the list marks it "Rejected" once the write succeeds. | not executed | Quotations.RejectAsWrittenLeavesQuotationOpen | Quotations.Reject |
| src/pages/Quotations.js:120-128 | Approval updates only the shown list, not the fetched one that every filter change starts from. | Approve quotation #123456 with payment "Pending", then choose the "Pending" payment filter: the quotation shows undecided with its buttons again. | The fetched list receives the same approval. | not executed | Quotations.ApprovalLostOnRefilterAsWritten | Quotations.ApprovalSurvivesRefiltering |
| src/pages/InstallerDashboard.js:77-88 | The status update changes the projects but not the per-status counts computed at load time. | One "On-Going" project set to "Completed": the report still shows "Completed Projects: 0". | The counts are recomputed from the updated projects. | not executed | InstallerDashboard.StaleCountsAsWritten | InstallerDashboard.UpdateProjectStatus |

Further behaviour the model states as the code has it, without calling it a defect:

- **Status-less quotations.** A quotation without a status reads "Pending" but is neither selected by the "Pending" status filter nor counted as pending by the admin statistics (`Quotations.PendingFilterSkipsUndecided`, `AdminDashboard.NewSubmissionNotPending`).
- **Unread notifications look read.** The text "false" is truthy, so they are styled as read (`Notifications.UnreadStyledAsRead`).
- **Unknown roles.** A signed-in user with an unknown role loops on "/login" with neither Log Out nor Login shown (`App.UnknownRoleLoopsOnLogin`, `App.UnknownRoleHasNoWayOut`).
- **Stale active tab.** After the last tab's product is submitted, the product page's active tab goes stale, and the next submission names "Unknown" (`ProductPage.StaleTabSubmitsUnknown`).

=== FILE: admin_dashboard.dfy ===
/** The administrator's dashboard: dealers and installers out of the
    `users` collection, the order report, the quotation statistics, and
    installer approval. */
module AdminDashboard {
  import opened Optional
  import opened Seqs
  import opened Store

  /** A `users` document with its id. */
  datatype Member = Member(id: string, user: UserDoc)

  function RoleIs(role: string): Member -> bool {
    (m: Member) => m.user.role == Some(role)
  }

  /** The members whose role is `role`, in snapshot order: the dealer list
      for "Dealer", the installer list for "Installer". */
  function WithRole(users: seq<Member>, role: string): (r: seq<Member>)
    ensures forall i :: 0 <= i < |r| ==> r[i] in users && r[i].user.role == Some(role)
    ensures forall i :: 0 <= i < |users| && users[i].user.role == Some(role) ==> users[i] in r
    ensures IsSubsequence(r, users)
  {
    FilterIsSubsequence(users, RoleIs(role));
    Filter(users, RoleIs(role))
  }

  /** Nobody is listed both as dealer and installer, and the two lists
      together never exceed the users read. */
  lemma DealersAndInstallersPartition(users: seq<Member>)
    ensures var dealers, installers := WithRole(users, "Dealer"), WithRole(users, "Installer");
            && (forall i, j :: 0 <= i < |dealers| && 0 <= j < |installers| ==> dealers[i] != installers[j])
            && |dealers| + |installers| <= |users|
  {
    CountDisjoint(users, RoleIs("Dealer"), RoleIs("Installer"));
  }

  // ---------------------------------------------------------------------
  // Orders report

  /** An `orders` document: only its status is read. */
  datatype Order = Order(id: string, status: Option<string>)

  datatype OrderReport = OrderReport(total: nat, completed: nat, pending: nat, approved: nat)

  function OrderStatusIs(status: string): Order -> bool {
    (o: Order) => o.status == Some(status)
  }

  /** The report: all orders, and those Completed, Pending and Approved. */
  function Report(orders: seq<Order>): (r: OrderReport)
    ensures r.total == |orders|
    ensures r.completed + r.pending + r.approved <= r.total
    ensures r.completed == Count(orders, OrderStatusIs("Completed"))
    ensures r.pending == Count(orders, OrderStatusIs("Pending"))
    ensures r.approved == Count(orders, OrderStatusIs("Approved"))
  {
    var c, p, a := OrderStatusIs("Completed"), OrderStatusIs("Pending"), OrderStatusIs("Approved");
    CountDisjoint(orders, c, p);
    CountDisjoint(orders, Either(c, p), a);
    OrderReport(|orders|, Count(orders, c), Count(orders, p), Count(orders, a))
  }

  /** Orders with any other status, or none, are counted only in the total. */
  lemma UnlistedStatusOnlyInTotal(orders: seq<Order>, o: Order)
    requires o.status !in {Some("Completed"), Some("Pending"), Some("Approved")}
    ensures var before, after := Report(orders), Report(orders + [o]);
            after.total == before.total + 1 && after.completed == before.completed &&
            after.pending == before.pending && after.approved == before.approved
  {
    FilterConcat(orders, [o], OrderStatusIs("Completed"));
    FilterConcat(orders, [o], OrderStatusIs("Pending"));
    FilterConcat(orders, [o], OrderStatusIs("Approved"));
  }

  // ---------------------------------------------------------------------
  // Quotation statistics

  datatype QuotationStats = QuotationStats(total: nat, approved: nat, pending: nat)

  function QuoteStatusIs(status: string): QuotationDoc -> bool {
    (q: QuotationDoc) => q.status == Some(status)
  }

  /** `calculateQuotationStats`: the count of quotations, and of those whose
      review status is Approved or Pending. */
  function Stats(quotations: seq<QuotationDoc>): (r: QuotationStats)
    ensures r.total == |quotations|
    ensures r.approved + r.pending <= r.total
    ensures r.approved == Count(quotations, QuoteStatusIs("Approved"))
    ensures r.pending == Count(quotations, QuoteStatusIs("Pending"))
  {
    CountDisjoint(quotations, QuoteStatusIs("Approved"), QuoteStatusIs("Pending"));
    QuotationStats(|quotations|, Count(quotations, QuoteStatusIs("Approved")), Count(quotations, QuoteStatusIs("Pending")))
  }

  /** A quotation without a review status (every new submission: the
      product pages set only the product's status) adds to the total and to
      neither Approved nor Pending. */
  lemma NewSubmissionNotPending(quotations: seq<QuotationDoc>, q: QuotationDoc)
    requires q.status.None?
    ensures var before, after := Stats(quotations), Stats(quotations + [q]);
            after.total == before.total + 1 && after.pending == before.pending && after.approved == before.approved
  {
    FilterConcat(quotations, [q], QuoteStatusIs("Approved"));
    FilterConcat(quotations, [q], QuoteStatusIs("Pending"));
  }

  // ---------------------------------------------------------------------
  // Loading

  /** The dashboard's state after loading. */
  datatype Dashboard = Dashboard(
    quotations: seq<QuotationDoc>,
    orders: seq<Order>,
    dealers: seq<Member>,
    installers: seq<Member>,
    report: Option<OrderReport>,
    error: string,
    toLogin: bool)

  const LoadError := "An error occurred while fetching data. Please try again later."

  /** `fetchAdminData`: four reads in turn (quotations, orders, users,
      users again); `fetched` of them succeed before one fails. Each list is
      set as soon as its read returns; the report only after the last. With
      no signed-in user the page goes to "/login" instead. */
  function Load(signedIn: bool, quotations: seq<QuotationDoc>, orders: seq<Order>, users: seq<Member>, fetched: nat): (r: Dashboard)
    ensures !signedIn ==> r.toLogin && r.report.None? && r.quotations == []
    ensures signedIn ==> !r.toLogin
    ensures signedIn && fetched >= 4 ==>
              r.error == "" && r.report == Some(Report(orders)) &&
              r.dealers == WithRole(users, "Dealer") && r.installers == WithRole(users, "Installer") && r.quotations == quotations
    ensures signedIn && fetched < 4 ==> r.error == LoadError && r.report.None? && r.installers == []
    ensures signedIn && fetched >= 1 ==> r.quotations == quotations
  {
    if !signedIn then Dashboard([], [], [], [], None, "", true)
    else
      var qs := if fetched >= 1 then quotations else [];
      var os := if fetched >= 2 then orders else [];
      var ds := if fetched >= 3 then WithRole(users, "Dealer") else [];
      if fetched >= 4 then Dashboard(qs, os, ds, WithRole(users, "Installer"), Some(Report(orders)), "", false)
      else Dashboard(qs, os, ds, [], None, LoadError, false)
  }

  // ---------------------------------------------------------------------
  // Installer approval

  function WithId(id: string): Member -> bool {
    (m: Member) => m.id == id
  }

  function Approved(m: Member): Member {
    m.(user := m.user.(status := Some("Approved")))
  }

  datatype Approval = Approval(writes: seq<Write>, installers: seq<Member>)

  /** `handleApproveInstaller(id)`: sets the stored status, then the local
      copy; a rejected write changes nothing. */
  function ApproveInstaller(installers: seq<Member>, id: string, accepted: nat): (r: Approval)
    ensures r.writes == Performed([ApproveUser(id)], accepted)
    ensures |r.installers| == |installers|
    ensures forall i :: 0 <= i < |installers| ==>
              if accepted >= 1 && installers[i].id == id
              then r.installers[i].id == id && r.installers[i].user == installers[i].user.(status := Some("Approved"))
              else r.installers[i] == installers[i]
  {
    if accepted >= 1 then Approval([ApproveUser(id)], MapWhere(installers, WithId(id), Approved))
    else Approval([], installers)
  }

  /** The local copy agrees with the store: the approved installer's
      document in `users` gets exactly the status shown. */
  lemma ApprovalMatchesStore(users: map<string, UserDoc>, installers: seq<Member>, k: nat)
    requires k < |installers| && installers[k].id in users && users[installers[k].id] == installers[k].user
    ensures var id := installers[k].id;
            var r := ApproveInstaller(installers, id, 1);
            ApplyAllToUsers(users, r.writes)[id] == r.installers[k].user
  {
    var id := installers[k].id;
    var r := ApproveInstaller(installers, id, 1);
    assert r.writes[1..] == [];
  }
}

=== FILE: app.dfy ===
/** The application shell: the role read at sign-in, the dashboard route
    of each role, the role-gated route table, and the navigation bar's
    unread badge and buttons. */
module App {
  import opened Optional
  import opened Text
  import opened Seqs
  import opened Store

  /** The three roles with a dashboard. */
  predicate IsKnownRole(role: Option<string>) {
    role == Some("Admin") || role == Some("Dealer") || role == Some("Installer")
  }

  /** `userRole ? … : …`: absent and empty roles are falsy. */
  predicate HasRole(role: Option<string>) {
    role.Some? && role.value != ""
  }

  /** `getDashboardRoute`: each known role's dashboard, "/login" otherwise. */
  function DashboardRoute(role: Option<string>): (r: string)
    ensures r == "/login" <==> !IsKnownRole(role)
    ensures role == Some("Admin") <==> r == "/admin-dashboard"
    ensures role == Some("Dealer") <==> r == "/dealer-dashboard"
    ensures role == Some("Installer") <==> r == "/installer-dashboard"
  {
    match role
    case Some("Admin") => "/admin-dashboard"
    case Some("Dealer") => "/dealer-dashboard"
    case Some("Installer") => "/installer-dashboard"
    case _ => "/login"
  }

  // ---------------------------------------------------------------------
  // Role from the authentication state

  /** The `users` document read for the signed-in account. */
  datatype DocLookup = Found(user: UserDoc) | Missing | LookupFailed

  datatype AuthEvent = SignedOut | SignedIn(lookup: DocLookup)

  /** The shell before the first authentication event, and after. */
  datatype Shell = Loading | Ready(role: Option<string>)

  /** `onAuthStateChanged`: signing out clears the role; a signed-in account
      takes its document's role, and keeps the previous role when the
      document is missing or cannot be read. */
  function OnAuthChange(s: Shell, e: AuthEvent): (r: Shell)
    ensures r.Ready?
    ensures e.SignedOut? ==> r.role.None?
    ensures e.SignedIn? && e.lookup.Found? ==> r.role == e.lookup.user.role
    ensures e.SignedIn? && !e.lookup.Found? ==> r.role == (if s.Ready? then s.role else None)
  {
    match e
    case SignedOut => Ready(None)
    case SignedIn(Found(user)) => Ready(user.role)
    case SignedIn(_) => Ready(if s.Ready? then s.role else None)
  }

  /** The shell after a run of authentication events, from the start. */
  function Replay(s: Shell, events: seq<AuthEvent>): Shell
    decreases |events|
  {
    if |events| == 0 then s else Replay(OnAuthChange(s, events[0]), events[1..])
  }

  /** An event that sets the role by itself: a sign-out, or a sign-in whose
      user document was read. */
  predicate Decides(e: AuthEvent) {
    e.SignedOut? || e.lookup.Found?
  }

  function DecidedRole(e: AuthEvent): Option<string>
    requires Decides(e)
  {
    if e.SignedOut? then None else e.lookup.user.role
  }

  /** The role set by the last deciding event, read from the end. */
  function LastDecidedRole(events: seq<AuthEvent>): Option<string>
    decreases |events|
  {
    if |events| == 0 then None
    else if Decides(events[|events| - 1]) then DecidedRole(events[|events| - 1])
    else LastDecidedRole(events[..|events| - 1])
  }

  lemma {:induction false} ReplaySnoc(s: Shell, events: seq<AuthEvent>, e: AuthEvent)
    ensures Replay(s, events + [e]) == OnAuthChange(Replay(s, events), e)
    decreases |events|
  {
    if |events| > 0 {
      assert (events + [e])[1..] == events[1..] + [e];
      ReplaySnoc(OnAuthChange(s, events[0]), events[1..], e);
    }
  }

  /** After at least one event the shell is ready, with the role of the
      last sign-out or successful document read (none if there was
      neither): failed reads never change the role. */
  lemma {:induction false} ReplayKeepsLastDecidedRole(events: seq<AuthEvent>)
    requires |events| > 0
    ensures Replay(Loading, events) == Ready(LastDecidedRole(events))
    decreases |events|
  {
    var init, e := events[..|events| - 1], events[|events| - 1];
    assert events == init + [e];
    ReplaySnoc(Loading, init, e);
    if |init| > 0 {
      ReplayKeepsLastDecidedRole(init);
    }
  }

  // ---------------------------------------------------------------------
  // Routes

  datatype Screen =
    | LoginPage | SignupPage
    | AdminDashboard | QuotationManagement
    | DealerDashboard | ReferralPage | ProductPage | ProductDetailsPage(productId: string) | OrdersPage | RewardsPage
    | InstallerDashboard
    | NotificationsPage
    | Redirect(to: string)

  /** `k` slashes. */
  function Slashes(k: nat): (r: string)
    ensures |r| == k && forall i :: 0 <= i < k ==> r[i] == '/'
  {
    seq(k, i => '/')
  }

  /** The path without its run of trailing slashes: every route pattern
      accepts any number of slashes at its end. */
  function StripTrailingSlashes(path: string): (r: string)
    ensures |r| <= |path| && r == path[..|r|]
    ensures forall i :: |r| <= i < |path| ==> path[i] == '/'
    ensures |r| == 0 || r[|r| - 1] != '/'
    decreases |path|
  {
    if |path| > 0 && path[|path| - 1] == '/' then StripTrailingSlashes(path[..|path| - 1]) else path
  }

  /** Appending slashes does not change what stripping them leaves. */
  lemma {:induction false} StripAfterSlashes(path: string, k: nat)
    ensures StripTrailingSlashes(path + Slashes(k)) == StripTrailingSlashes(path)
    decreases k
  {
    var q := path + Slashes(k);
    if k == 0 {
      assert q == path;
    } else {
      assert q[|q| - 1] == '/';
      assert q[..|q| - 1] == path + Slashes(k - 1);
      StripAfterSlashes(path, k - 1);
    }
  }

  /** The path without trailing slashes, in lower case (routes match
      without regard to case). */
  function Normalize(path: string): string {
    Lower(StripTrailingSlashes(path))
  }

  const DetailsPrefix := "/product-details/"

  /** The `:productId` segment of a product-details path, if it is one. */
  function DetailsParam(path: string): (r: Option<string>)
    ensures r.Some? ==> r.value != "" && forall i :: 0 <= i < |r.value| ==> r.value[i] != '/'
    ensures r.Some? ==> |path| > |DetailsPrefix| + |r.value| - 1 && Lower(path[..|DetailsPrefix|]) == DetailsPrefix &&
                        path[|DetailsPrefix|..|DetailsPrefix| + |r.value|] == r.value &&
                        forall i :: |DetailsPrefix| + |r.value| <= i < |path| ==> path[i] == '/'
  {
    var p := StripTrailingSlashes(path);
    if |p| > |DetailsPrefix| && Lower(p[..|DetailsPrefix|]) == DetailsPrefix &&
       forall i :: |DetailsPrefix| <= i < |p| ==> p[i] != '/'
    then
      var rest := p[|DetailsPrefix|..];
      assert forall i :: 0 <= i < |rest| ==> rest[i] == p[i + |DetailsPrefix|];
      Some(rest)
    else None
  }

  /** Every product-details path, in any letter case of the prefix and
      with any number of trailing slashes, yields its segment. */
  lemma DetailsParamOfDetailsPath(prefix: string, id: string, slashes: nat)
    requires |prefix| == |DetailsPrefix| && Lower(prefix) == DetailsPrefix
    requires id != "" && forall i :: 0 <= i < |id| ==> id[i] != '/'
    ensures DetailsParam(prefix + id + Slashes(slashes)) == Some(id)
  {
    var p := prefix + id;
    StripAfterSlashes(p, slashes);
    assert p[|p| - 1] == id[|id| - 1];
    assert p[..|DetailsPrefix|] == prefix && p[|DetailsPrefix|..] == id;
    assert forall i :: |DetailsPrefix| <= i < |p| ==> p[i] == id[i - |DetailsPrefix|];
  }

  /** Trailing slashes never change what a path renders. */
  lemma ResolveIgnoresTrailingSlashes(role: Option<string>, path: string, k: nat)
    ensures Resolve(role, path + Slashes(k)) == Resolve(role, path)
  {
    StripAfterSlashes(path, k);
  }

  /** A dealer at "/Products//" sees the product page. */
  lemma DealerProductsWithSlashes()
    ensures Resolve(Some("Dealer"), "/Products//") == ProductPage
  {
    var path := "/Products";
    assert Resolve(Some("Dealer"), path) == ProductPage by {
      assert StripTrailingSlashes(path) == path;
    }
    assert path + Slashes(2) == "/Products//";
    ResolveIgnoresTrailingSlashes(Some("Dealer"), path, 2);
  }

  function AdminRoute(p: string): Option<Screen> {
    if p == "/admin-dashboard" then Some(AdminDashboard)
    else if p == "/notifications" then Some(NotificationsPage)
    else if p == "/quotation-management" then Some(QuotationManagement)
    else None
  }

  function DealerRoute(p: string, path: string): Option<Screen> {
    if p == "/dealer-dashboard" then Some(DealerDashboard)
    else if p == "/notifications" then Some(NotificationsPage)
    else if p == "/referral" then Some(ReferralPage)
    else if p == "/products" then Some(ProductPage)
    else if p == "/orders" then Some(OrdersPage)
    else if p == "/reward" then Some(RewardsPage)
    else match DetailsParam(path)
      case Some(id) => Some(ProductDetailsPage(id))
      case None => None
  }

  function InstallerRoute(p: string): Option<Screen> {
    if p == "/installer-dashboard" then Some(InstallerDashboard)
    else if p == "/notifications" then Some(NotificationsPage)
    else None
  }

  /** What the router renders for `path`: the public pages (or, with a
      role, a redirect to its dashboard), the pages of the current role,
      and otherwise a redirect to the dashboard route. */
  function Resolve(role: Option<string>, path: string): (r: Screen)
    ensures HasRole(role) && Normalize(path) in {"/login", "/signup"} ==> r == Redirect(DashboardRoute(role))
    ensures !HasRole(role) && Normalize(path) == "/login" ==> r == LoginPage
    ensures !HasRole(role) && Normalize(path) == "/signup" ==> r == SignupPage
    ensures !IsKnownRole(role) && Normalize(path) !in {"/login", "/signup"} ==> r == Redirect(DashboardRoute(role))
    ensures role == Some("Admin") ==>
              (r == AdminDashboard <==> Normalize(path) == "/admin-dashboard") &&
              (r == NotificationsPage <==> Normalize(path) == "/notifications") &&
              (r == QuotationManagement <==> Normalize(path) == "/quotation-management") &&
              (r.Redirect? <==> Normalize(path) !in {"/admin-dashboard", "/notifications", "/quotation-management"})
    ensures role == Some("Dealer") ==>
              (r == DealerDashboard <==> Normalize(path) == "/dealer-dashboard") &&
              (r == NotificationsPage <==> Normalize(path) == "/notifications") &&
              (r == ReferralPage <==> Normalize(path) == "/referral") &&
              (r == ProductPage <==> Normalize(path) == "/products") &&
              (r == OrdersPage <==> Normalize(path) == "/orders") &&
              (r == RewardsPage <==> Normalize(path) == "/reward") &&
              (r.ProductDetailsPage? <==> DetailsParam(path).Some?) &&
              (r.ProductDetailsPage? ==> DetailsParam(path) == Some(r.productId)) &&
              (r.Redirect? <==> Normalize(path) !in {"/dealer-dashboard", "/notifications", "/referral", "/products", "/orders", "/reward"} &&
                                DetailsParam(path).None?)
    ensures role == Some("Installer") ==>
              (r == InstallerDashboard <==> Normalize(path) == "/installer-dashboard") &&
              (r == NotificationsPage <==> Normalize(path) == "/notifications") &&
              (r.Redirect? <==> Normalize(path) !in {"/installer-dashboard", "/notifications"})
    ensures r == LoginPage ==> !HasRole(role)
    ensures r == SignupPage ==> !HasRole(role)
    ensures (r.AdminDashboard? || r.QuotationManagement?) ==> role == Some("Admin")
    ensures (r.DealerDashboard? || r.ReferralPage? || r.ProductPage? || r.ProductDetailsPage? ||
             r.OrdersPage? || r.RewardsPage?) ==> role == Some("Dealer")
    ensures r.InstallerDashboard? ==> role == Some("Installer")
    ensures r.NotificationsPage? ==> IsKnownRole(role)
    ensures r.Redirect? ==> r.to == DashboardRoute(role)
  {
    var p := Normalize(path);
    assert DetailsParam(path).Some? ==> |p| > |DetailsPrefix|;
    if p == "/login" then (if HasRole(role) then Redirect(DashboardRoute(role)) else LoginPage)
    else if p == "/signup" then (if HasRole(role) then Redirect(DashboardRoute(role)) else SignupPage)
    else
      var own :=
        if role == Some("Admin") then AdminRoute(p)
        else if role == Some("Dealer") then DealerRoute(p, path)
        else if role == Some("Installer") then InstallerRoute(p)
        else None;
      match own
      case Some(screen) => screen
      case None => Redirect(DashboardRoute(role))
  }

  function RoleDashboard(role: Option<string>): Screen
    requires IsKnownRole(role)
  {
    if role == Some("Admin") then AdminDashboard
    else if role == Some("Dealer") then DealerDashboard
    else InstallerDashboard
  }

  /** Every known role's dashboard route renders that dashboard, so the
      redirects of the login page, the sign-up page and unknown paths end
      there after one step. */
  lemma DashboardRouteLands(role: Option<string>, path: string)
    requires IsKnownRole(role)
    ensures Resolve(role, DashboardRoute(role)) == RoleDashboard(role)
    ensures Resolve(role, path).Redirect? ==> Resolve(role, Resolve(role, path).to) == RoleDashboard(role)
  {
    LowerOfLowercase(DashboardRoute(role));
  }

  /** Without a role only the login and sign-up pages render; every other
      path redirects to "/login". */
  lemma SignedOutSeesOnlyPublicPages(path: string)
    ensures Resolve(None, path) in {LoginPage, SignupPage, Redirect("/login")}
    ensures Resolve(None, "/login") == LoginPage
  {
  }

  /** A role that is set but not one of the three redirects "/login" to
      itself: such an account reaches no page at all. */
  lemma UnknownRoleLoopsOnLogin(role: Option<string>, path: string)
    requires HasRole(role) && !IsKnownRole(role)
    ensures Resolve(role, "/login") == Redirect("/login")
    ensures Resolve(role, path) == Redirect("/login")
  {
  }

  /** A lower-case text is its own lower case. */
  lemma LowerOfLowercase(s: string)
    requires forall i :: 0 <= i < |s| ==> !IsUpper(s[i])
    ensures Lower(s) == s
  {
  }

  // ---------------------------------------------------------------------
  // Navigation bar

  function UnreadFor(uid: string): StoredNotification -> bool {
    (n: StoredNotification) => n.doc.userId == uid && n.doc.read == ReadText("false")
  }

  /** The badge's count: the user's notifications whose `read` is the text
      "false" (the query's two equality filters). */
  function UnreadCount(all: seq<StoredNotification>, uid: string): (n: nat)
    ensures n <= |all|
    ensures n == 0 <==> forall i :: 0 <= i < |all| ==> !(all[i].doc.userId == uid && all[i].doc.read == ReadText("false"))
    ensures n == |set i | 0 <= i < |all| && all[i].doc.userId == uid && all[i].doc.read == ReadText("false")|
  {
    var f := Filter(all, UnreadFor(uid));
    assert |f| > 0 ==> f[0] in all;
    CountIsIndexCount(all, UnreadFor(uid));
    assert Positions(all, UnreadFor(uid)) ==
           set i | 0 <= i < |all| && all[i].doc.userId == uid && all[i].doc.read == ReadText("false");
    |f|
  }

  function MarkedRead(n: StoredNotification): StoredNotification {
    n.(doc := n.doc.(read := ReadText("true")))
  }

  function HasId(id: string): StoredNotification -> bool {
    (n: StoredNotification) => n.id == id
  }

  /** The store after `updateDoc(…, { read: "true" })` on one id. */
  function StoreMarkRead(all: seq<StoredNotification>, id: string): (r: seq<StoredNotification>)
    ensures |r| == |all|
    ensures forall i :: 0 <= i < |all| ==> r[i].id == all[i].id && r[i].doc.userId == all[i].doc.userId
    ensures forall i :: 0 <= i < |all| ==>
              r[i].doc == if all[i].id == id then all[i].doc.(read := ReadText("true")) else all[i].doc
  {
    MapWhere(all, HasId(id), MarkedRead)
  }

  /** Marking a notification read lowers the badge by exactly the unread
      documents with that id. */
  lemma {:induction false} MarkReadLowersBadge(all: seq<StoredNotification>, uid: string, id: string)
    ensures UnreadCount(StoreMarkRead(all, id), uid) + Count(all, Both(HasId(id), UnreadFor(uid))) == UnreadCount(all, uid)
    decreases |all|
  {
    if |all| > 0 {
      MarkReadLowersBadge(all[1..], uid, id);
      assert StoreMarkRead(all, id)[1..] == StoreMarkRead(all[1..], id);
    }
  }

  /** Which controls the bar shows. */
  datatype NavControls = NavControls(bell: bool, badge: bool, logout: bool, loginSignup: bool)

  function Controls(role: Option<string>, unread: nat): (r: NavControls)
    ensures r.logout <==> IsKnownRole(role)
    ensures r.bell == r.logout
    ensures r.badge <==> r.bell && unread > 0
    ensures r.loginSignup <==> !HasRole(role)
    ensures r.logout ==> !r.loginSignup
  {
    var known := IsKnownRole(role);
    NavControls(known, known && unread > 0, known, !HasRole(role))
  }

  /** An account with an unknown role sees neither Log Out nor Login. */
  lemma UnknownRoleHasNoWayOut(role: Option<string>, unread: nat)
    requires HasRole(role) && !IsKnownRole(role)
    ensures var c := Controls(role, unread);
            !c.logout && !c.loginSignup
  {
  }
}

=== FILE: catalog.dfy ===
/** The static product catalog both product pages read. */
module Catalog {

  /** A feature value: a list, a nested object of key/value pairs, or a
      scalar (numbers written out as their text). */
  datatype FeatureValue =
    | ListValue(items: seq<string>)
    | ObjectValue(entries: seq<(string, string)>)
    | ScalarValue(text: string)

  /** A catalog entry; `features` keeps the key order of the catalog. */
  datatype Product = Product(id: int, name: string, category: string, features: seq<(string, FeatureValue)>)
}

=== FILE: grouping.dfy ===
/** `reduce` into an object of arrays keyed by a string: the grouping idiom
    the notification page uses for its date headings. Keys come out in
    order of first appearance, as an object's non-numeric keys do. */
module Grouping {
  import opened Seqs

  datatype Group<T> = Group(key: string, items: seq<T>)

  predicate DistinctKeys<T>(gs: seq<Group<T>>) {
    forall g, h :: 0 <= g < h < |gs| ==> gs[g].key != gs[h].key
  }

  predicate HasGroup<T>(gs: seq<Group<T>>, k: string) {
    exists g :: 0 <= g < |gs| && gs[g].key == k
  }

  function KeyIs<T>(k: string, key: T -> string): T -> bool {
    x => key(x) == k
  }

  /** One `reduce` step: `if (!groups[k]) groups[k] = []; groups[k].push(x)`. */
  function AddTo<T>(gs: seq<Group<T>>, k: string, x: T): (r: seq<Group<T>>)
    requires DistinctKeys(gs)
    ensures DistinctKeys(r)
    ensures HasGroup(r, k)
    ensures HasGroup(gs, k) ==> |r| == |gs|
    ensures !HasGroup(gs, k) ==> |r| == |gs| + 1 && r[|gs|] == Group(k, [x])
    ensures forall g :: 0 <= g < |gs| ==>
              && r[g].key == gs[g].key
              && r[g].items == (if gs[g].key == k then gs[g].items + [x] else gs[g].items)
  {
    if HasGroup(gs, k) then
      var r := seq(|gs|, g requires 0 <= g < |gs| => if gs[g].key == k then Group(k, gs[g].items + [x]) else gs[g]);
      var g :| 0 <= g < |gs| && gs[g].key == k;
      assert r[g].key == k;
      r
    else
      var r := gs + [Group(k, [x])];
      assert r[|gs|].key == k;
      r
  }

  /** The whole `reduce`, one group per key; the groups are the key filters
      (`GroupsAreKeyFilters`) in order of first appearance
      (`GroupsInFirstAppearanceOrder`). */
  function GroupBy<T>(s: seq<T>, key: T -> string): (r: seq<Group<T>>)
    ensures DistinctKeys(r)
    decreases |s|
  {
    if |s| == 0 then [] else AddTo(GroupBy(s[..|s| - 1], key), key(s[|s| - 1]), s[|s| - 1])
  }

  /** A group holds exactly the elements with its key, in list order. */
  ghost predicate IsKeyGroup<T>(s: seq<T>, key: T -> string, grp: Group<T>) {
    grp.items == Filter(s, KeyIs(grp.key, key)) && grp.items != []
  }

  lemma {:induction false} GroupsAreKeyFilters<T>(s: seq<T>, key: T -> string)
    ensures forall g :: 0 <= g < |GroupBy(s, key)| ==> IsKeyGroup(s, key, GroupBy(s, key)[g])
    decreases |s|
  {
    if |s| > 0 {
      var init := s[..|s| - 1];
      var x := s[|s| - 1];
      assert s == init + [x];
      var before := GroupBy(init, key);
      var r := AddTo(before, key(x), x);
      assert r == GroupBy(s, key);
      GroupsAreKeyFilters(init, key);
      forall g | 0 <= g < |r|
        ensures IsKeyGroup(s, key, r[g])
      {
        if g < |before| {
          StepKeepsGroup(init, x, key, before[g]);
        } else {
          assert !HasGroup(before, key(x));
          EveryKeyHasAGroup(init, key);
          StepOpensGroup(init, x, key);
        }
      }
    }
  }

  /** Some element keyed `k1` comes before every element keyed `k2`: `k1`
      appears first. */
  predicate AppearsBefore<T>(s: seq<T>, key: T -> string, k1: string, k2: string) {
    exists a :: 0 <= a < |s| && key(s[a]) == k1 &&
                forall b :: 0 <= b < |s| && key(s[b]) == k2 ==> a < b
  }

  /** The groups come in order of their keys' first appearance. */
  lemma {:induction false} GroupsInFirstAppearanceOrder<T>(s: seq<T>, key: T -> string)
    ensures forall g, h :: 0 <= g < h < |GroupBy(s, key)| ==>
              AppearsBefore(s, key, GroupBy(s, key)[g].key, GroupBy(s, key)[h].key)
    decreases |s|
  {
    if |s| > 0 {
      var init := s[..|s| - 1];
      var x := s[|s| - 1];
      assert s == init + [x];
      var before := GroupBy(init, key);
      assert GroupBy(s, key) == AddTo(before, key(x), x);
      assert forall g, h :: 0 <= g < h < |before| ==> AppearsBefore(init, key, before[g].key, before[h].key) by {
        GroupsInFirstAppearanceOrder(init, key);
      }
      assert forall g :: 0 <= g < |before| ==> IsKeyGroup(init, key, before[g]) by {
        GroupsAreKeyFilters(init, key);
      }
      assert forall i :: 0 <= i < |init| ==> HasGroup(before, key(init[i])) by {
        EveryKeyHasAGroup(init, key);
      }
      AddToKeepsOrder(init, x, key, before, s);
    }
  }

  /** One `reduce` step keeps the groups in first-appearance order. */
  lemma AddToKeepsOrder<T>(init: seq<T>, x: T, key: T -> string, before: seq<Group<T>>, s: seq<T>)
    requires s == init + [x]
    requires DistinctKeys(before)
    requires forall g, h :: 0 <= g < h < |before| ==> AppearsBefore(init, key, before[g].key, before[h].key)
    requires forall g :: 0 <= g < |before| ==> IsKeyGroup(init, key, before[g])
    requires forall i :: 0 <= i < |init| ==> HasGroup(before, key(init[i]))
    ensures var r := AddTo(before, key(x), x);
            forall g, h :: 0 <= g < h < |r| ==> AppearsBefore(s, key, r[g].key, r[h].key)
  {
    var r := AddTo(before, key(x), x);
    forall g, h | 0 <= g < h < |r|
      ensures AppearsBefore(s, key, r[g].key, r[h].key)
    {
      if h < |before| {
        OrderSurvivesAppend(init, x, key, before[g].key, before[h].key);
      } else {
        var a := GroupKeyOccurs(init, key, before[g]);
        NewKeyComesLast(init, x, key, before, a);
      }
    }
  }

  /** Appending an element keeps an existing first-appearance order. */
  lemma OrderSurvivesAppend<T>(init: seq<T>, x: T, key: T -> string, k1: string, k2: string)
    requires AppearsBefore(init, key, k1, k2)
    ensures AppearsBefore(init + [x], key, k1, k2)
  {
    var s := init + [x];
    var a :| 0 <= a < |init| && key(init[a]) == k1 &&
             forall b :: 0 <= b < |init| && key(init[b]) == k2 ==> a < b;
    assert s[a] == init[a];
    forall b | 0 <= b < |s| && key(s[b]) == k2
      ensures a < b
    {
      if b < |init| {
        assert s[b] == init[b];
      }
    }
  }

  /** A key seen for the first time in the appended element comes after
      every key already seen. */
  lemma NewKeyComesLast<T>(init: seq<T>, x: T, key: T -> string, before: seq<Group<T>>, a: nat)
    requires a < |init|
    requires forall i :: 0 <= i < |init| ==> HasGroup(before, key(init[i]))
    requires !HasGroup(before, key(x))
    ensures AppearsBefore(init + [x], key, key(init[a]), key(x))
  {
    var s := init + [x];
    assert s[a] == init[a];
    forall b | 0 <= b < |s| && key(s[b]) == key(x)
      ensures a < b
    {
      if b < |init| {
        assert false;
      }
    }
  }

  /** A group's key is the key of some element. */
  lemma GroupKeyOccurs<T>(s: seq<T>, key: T -> string, grp: Group<T>) returns (a: nat)
    requires IsKeyGroup(s, key, grp)
    ensures a < |s| && key(s[a]) == grp.key
  {
    var f := Filter(s, KeyIs(grp.key, key));
    assert f[0] in s;
    a :| 0 <= a < |s| && s[a] == f[0];
  }

  /** A group that existed gains the new element exactly when the keys agree. */
  lemma StepKeepsGroup<T>(init: seq<T>, x: T, key: T -> string, grp: Group<T>)
    requires IsKeyGroup(init, key, grp)
    ensures IsKeyGroup(init + [x], key, grp.(items := if grp.key == key(x) then grp.items + [x] else grp.items))
  {
    FilterConcat(init, [x], KeyIs(grp.key, key));
  }

  /** A group opened for an unseen key holds just the new element. */
  lemma StepOpensGroup<T>(init: seq<T>, x: T, key: T -> string)
    requires forall i :: 0 <= i < |init| ==> key(init[i]) != key(x)
    ensures IsKeyGroup(init + [x], key, Group(key(x), [x]))
  {
    var p := KeyIs(key(x), key);
    FilterConcat(init, [x], p);
    FilterCongruent(init, p, (y: T) => false);
    FilterNothing(init);
  }

  lemma {:induction false} FilterNothing<T>(s: seq<T>)
    ensures Filter(s, (y: T) => false) == []
    decreases |s|
  {
    if |s| > 0 {
      FilterNothing(s[1..]);
    }
  }

  /** Every element's key has a group. */
  lemma {:induction false} EveryKeyHasAGroup<T>(s: seq<T>, key: T -> string)
    ensures forall i :: 0 <= i < |s| ==> HasGroup(GroupBy(s, key), key(s[i]))
    decreases |s|
  {
    if |s| > 0 {
      var init := s[..|s| - 1];
      var x := s[|s| - 1];
      var before := GroupBy(init, key);
      var r := AddTo(before, key(x), x);
      assert r == GroupBy(s, key);
      EveryKeyHasAGroup(init, key);
      forall i | 0 <= i < |s|
        ensures HasGroup(r, key(s[i]))
      {
        if i < |init| {
          assert s[i] == init[i];
          assert HasGroup(before, key(init[i]));
          KeptGroup(before, key(x), x, key(init[i]));
        }
      }
    }
  }

  /** A key that had a group still has one after a step. */
  lemma KeptGroup<T>(gs: seq<Group<T>>, k: string, x: T, other: string)
    requires DistinctKeys(gs) && HasGroup(gs, other)
    ensures HasGroup(AddTo(gs, k, x), other)
  {
    var g :| 0 <= g < |gs| && gs[g].key == other;
    assert AddTo(gs, k, x)[g].key == other;
  }

  function TotalItems<T>(gs: seq<Group<T>>): nat
    decreases |gs|
  {
    if |gs| == 0 then 0 else |gs[0].items| + TotalItems(gs[1..])
  }

  lemma {:induction false} TotalItemsAppend<T>(gs: seq<Group<T>>, grp: Group<T>)
    ensures TotalItems(gs + [grp]) == TotalItems(gs) + |grp.items|
    decreases |gs|
  {
    if |gs| > 0 {
      assert (gs + [grp])[1..] == gs[1..] + [grp];
      TotalItemsAppend(gs[1..], grp);
    }
  }

  /** Growing one group by one item grows the total by one. */
  lemma {:induction false} TotalItemsGrowOne<T>(a: seq<Group<T>>, b: seq<Group<T>>, g: nat)
    requires |a| == |b| && g < |a|
    requires |b[g].items| == |a[g].items| + 1
    requires forall i :: 0 <= i < |a| && i != g ==> |b[i].items| == |a[i].items|
    ensures TotalItems(b) == TotalItems(a) + 1
    decreases |a|
  {
    if g > 0 {
      TotalItemsGrowOne(a[1..], b[1..], g - 1);
    } else {
      TotalItemsSameSizes(a[1..], b[1..]);
    }
  }

  lemma {:induction false} TotalItemsSameSizes<T>(a: seq<Group<T>>, b: seq<Group<T>>)
    requires |a| == |b|
    requires forall i :: 0 <= i < |a| ==> |b[i].items| == |a[i].items|
    ensures TotalItems(b) == TotalItems(a)
    decreases |a|
  {
    if |a| > 0 {
      TotalItemsSameSizes(a[1..], b[1..]);
    }
  }

  lemma {:induction false} AddToAddsOne<T>(gs: seq<Group<T>>, k: string, x: T)
    requires DistinctKeys(gs)
    ensures TotalItems(AddTo(gs, k, x)) == TotalItems(gs) + 1
  {
    var r := AddTo(gs, k, x);
    if HasGroup(gs, k) {
      var g :| 0 <= g < |gs| && gs[g].key == k;
      TotalItemsGrowOne(gs, r, g);
    } else {
      assert r == gs + [Group(k, [x])];
      TotalItemsAppend(gs, Group(k, [x]));
    }
  }

  /** Every element is listed exactly once across the groups. */
  lemma {:induction false} GroupsCoverAll<T>(s: seq<T>, key: T -> string)
    ensures TotalItems(GroupBy(s, key)) == |s|
    decreases |s|
  {
    if |s| > 0 {
      var init := s[..|s| - 1];
      GroupsCoverAll(init, key);
      AddToAddsOne(GroupBy(init, key), key(s[|s| - 1]), s[|s| - 1]);
    }
  }

  /** `reduce((counts, x) => { counts[key(x)] = (counts[key(x)] || 0) + 1; … }, {})`. */
  function CountBy<T>(s: seq<T>, key: T -> string): (r: map<string, nat>)
    ensures forall k :: k in r ==> r[k] >= 1
    decreases |s|
  {
    if |s| == 0 then map[]
    else
      var c := CountBy(s[..|s| - 1], key);
      var k := key(s[|s| - 1]);
      c[k := (if k in c then c[k] else 0) + 1]
  }

  /** The count kept for `k` (0 when absent) is the number of elements with
      key `k`. */
  lemma {:induction false} CountByAt<T>(s: seq<T>, key: T -> string, k: string)
    ensures (if k in CountBy(s, key) then CountBy(s, key)[k] else 0) == Count(s, KeyIs(k, key))
    decreases |s|
  {
    if |s| > 0 {
      var init := s[..|s| - 1];
      var x := s[|s| - 1];
      assert s == init + [x];
      CountByAt(init, key, k);
      FilterConcat(init, [x], KeyIs(k, key));
    }
  }

  /** Every element's key has a count. */
  lemma {:induction false} CountByHasKeys<T>(s: seq<T>, key: T -> string)
    ensures forall i :: 0 <= i < |s| ==> key(s[i]) in CountBy(s, key)
    decreases |s|
  {
    if |s| > 0 {
      var init := s[..|s| - 1];
      CountByHasKeys(init, key);
      forall i | 0 <= i < |s|
        ensures key(s[i]) in CountBy(s, key)
      {
        if i < |init| {
          assert s[i] == init[i];
        }
      }
    }
  }

  /** The counts are the sizes of the groups: one count per group, none
      besides. */
  lemma CountsAreGroupSizes<T>(s: seq<T>, key: T -> string)
    ensures var counts, groups := CountBy(s, key), GroupBy(s, key);
            && (forall g :: 0 <= g < |groups| ==> groups[g].key in counts && counts[groups[g].key] == |groups[g].items|)
            && (forall k :: k in counts ==> HasGroup(groups, k))
  {
    var counts, groups := CountBy(s, key), GroupBy(s, key);
    GroupsAreKeyFilters(s, key);
    EveryKeyHasAGroup(s, key);
    forall g | 0 <= g < |groups|
      ensures groups[g].key in counts && counts[groups[g].key] == |groups[g].items|
    {
      assert IsKeyGroup(s, key, groups[g]);
      CountByAt(s, key, groups[g].key);
    }
    forall k | k in counts
      ensures HasGroup(groups, k)
    {
      CountByAt(s, key, k);
      var f := Filter(s, KeyIs(k, key));
      assert f[0] in s;
      var i :| 0 <= i < |s| && s[i] == f[0];
      assert HasGroup(groups, key(s[i]));
    }
  }
}

=== FILE: installer_dashboard.dfy ===
/** The installer's dashboard: the installer's own projects, the count of
    projects per status, the report lines, and status updates. */
module InstallerDashboard {
  import opened Optional
  import opened Seqs
  import opened Store
  import opened Grouping

  /** A `projects` document with its id. */
  datatype Project = Project(id: string, installerId: Option<string>, clientName: string, details: string, status: Option<string>)

  function AssignedTo(uid: string): Project -> bool {
    (p: Project) => p.installerId == Some(uid)
  }

  /** The projects whose `installerId` is the signed-in installer's id. */
  function MyProjects(all: seq<Project>, uid: string): (r: seq<Project>)
    ensures forall i :: 0 <= i < |r| ==> r[i] in all && r[i].installerId == Some(uid)
    ensures forall i :: 0 <= i < |all| && all[i].installerId == Some(uid) ==> all[i] in r
    ensures IsSubsequence(r, all)
  {
    FilterIsSubsequence(all, AssignedTo(uid));
    Filter(all, AssignedTo(uid))
  }

  /** The property name a project is counted under: its status, or
      "undefined" when it has none. */
  function StatusKey(p: Project): string {
    match p.status
    case Some(s) => s
    case None => "undefined"
  }

  function KeyOf(): Project -> string {
    (p: Project) => StatusKey(p)
  }

  function StatusKeyIs(k: string): Project -> bool {
    KeyIs(k, KeyOf())
  }

  /** `projectStatusCounts`: the number of the installer's projects under
      each status key. */
  function StatusCounts(projects: seq<Project>): (r: map<string, nat>)
    ensures forall i :: 0 <= i < |projects| ==> StatusKey(projects[i]) in r
    ensures forall k :: k in r ==> r[k] == Count(projects, StatusKeyIs(k)) && r[k] >= 1
    ensures forall k :: k !in r ==> Count(projects, StatusKeyIs(k)) == 0
  {
    var r := CountBy(projects, KeyOf());
    CountByHasKeys(projects, KeyOf());
    forall k
      ensures (if k in r then r[k] else 0) == Count(projects, StatusKeyIs(k))
    {
      CountByAt(projects, KeyOf(), k);
    }
    r
  }

  /** The status summary has one line per status group, each count is the
      size of its group, and the groups hold every project once. */
  lemma SummaryCoversProjects(projects: seq<Project>)
    ensures var counts, groups := StatusCounts(projects), GroupBy(projects, KeyOf());
            && (forall g :: 0 <= g < |groups| ==> groups[g].key in counts && counts[groups[g].key] == |groups[g].items|)
            && (forall k :: k in counts ==> HasGroup(groups, k))
            && TotalItems(groups) == |projects|
  {
    CountsAreGroupSizes(projects, KeyOf());
    GroupsCoverAll(projects, KeyOf());
  }

  /** `projectStatusCounts[k] || 0`: the Completed, On-Going and Stuck
      report lines. */
  function ReportLine(counts: map<string, nat>, k: string): (n: nat)
    ensures k in counts ==> n == counts[k]
    ensures k !in counts ==> n == 0
  {
    if k in counts then counts[k] else 0
  }

  /** Each report line is the number of projects with that status. */
  lemma ReportLineCountsProjects(projects: seq<Project>, k: string)
    ensures ReportLine(StatusCounts(projects), k) == Count(projects, StatusKeyIs(k))
  {
  }

  /** The status shown on a project card. */
  function ShownStatus(p: Project): (r: string)
    ensures p.status.Some? && p.status.value != "" ==> r == p.status.value
    ensures p.status.None? ==> r == "Pending"
    ensures p.status == Some("") ==> r == "Pending"
  {
    if p.status.Some? && p.status.value != "" then p.status.value else "Pending"
  }

  /** A project without a status is shown as Pending but counted under
      "undefined". */
  lemma MissingStatusShownAndCountedApart(p: Project)
    requires p.status.None?
    ensures ShownStatus(p) == "Pending" && StatusKey(p) == "undefined"
  {
  }

  // ---------------------------------------------------------------------
  // Status updates

  /** The four status buttons of a project card. */
  const StatusButtons: seq<string> := ["Installation Started", "On-Going", "Completed", "Stuck"]

  datatype Board = Board(projects: seq<Project>, counts: map<string, nat>)

  function WithProjectId(id: string): Project -> bool {
    (p: Project) => p.id == id
  }

  function WithStatus(status: string): Project -> Project {
    (p: Project) => p.(status := Some(status))
  }

  /** `updateProjectStatus` as written: the project list changes, the counts
      computed at load time do not. */
  function UpdateProjectStatusAsWritten(b: Board, id: string, status: string, accepted: nat): (r: (seq<Write>, Board))
    ensures r.0 == Performed([SetProjectStatus(id, status)], accepted)
    ensures r.1.counts == b.counts
    ensures accepted == 0 ==> r.1 == b
    ensures accepted >= 1 ==> r.1.projects == MapWhere(b.projects, WithProjectId(id), WithStatus(status))
  {
    if accepted >= 1 then ([SetProjectStatus(id, status)], b.(projects := MapWhere(b.projects, WithProjectId(id), WithStatus(status))))
    else ([], b)
  }

  /** After an update the summary and report still show the old status. */
  lemma StaleCountsAsWritten()
    ensures var p := Project("p1", Some("u"), "", "", Some("On-Going"));
            var b := Board([p], StatusCounts([p]));
            var after := UpdateProjectStatusAsWritten(b, "p1", "Completed", 1).1;
            after.projects[0].status == Some("Completed") &&
            ReportLine(after.counts, "Completed") == 0 &&
            ReportLine(StatusCounts(after.projects), "Completed") == 1
  {
    var p := Project("p1", Some("u"), "", "", Some("On-Going"));
    var after := UpdateProjectStatusAsWritten(Board([p], StatusCounts([p])), "p1", "Completed", 1).1;
    assert after.projects == [p.(status := Some("Completed"))];
    assert "Completed" !in StatusCounts([p]) by {
      assert Filter([p], StatusKeyIs("Completed")) == [];
    }
  }

  /** `updateProjectStatus` with the counts kept in step with the list: the
      same list as written, and the counts recomputed from it. */
  function UpdateProjectStatus(b: Board, id: string, status: string, accepted: nat): (r: (seq<Write>, Board))
    requires b.counts == StatusCounts(b.projects)
    ensures r.0 == Performed([SetProjectStatus(id, status)], accepted)
    ensures r.1.counts == StatusCounts(r.1.projects)
    ensures r.1.projects == UpdateProjectStatusAsWritten(b, id, status, accepted).1.projects
  {
    if accepted >= 1 then
      var ps := MapWhere(b.projects, WithProjectId(id), WithStatus(status));
      ([SetProjectStatus(id, status)], Board(ps, StatusCounts(ps)))
    else ([], b)
  }

  /** Moving a project from one status to another moves one unit of count
      from its old report line to the new one; every other line stays. */
  lemma {:induction false} UpdateMovesOneCount(projects: seq<Project>, k: nat, status: string, key: string)
    requires k < |projects|
    requires forall i :: 0 <= i < |projects| && i != k ==> projects[i].id != projects[k].id
    ensures var after := MapWhere(projects, WithProjectId(projects[k].id), WithStatus(status));
            Count(after, StatusKeyIs(key)) + (if StatusKey(projects[k]) == key then 1 else 0) ==
              Count(projects, StatusKeyIs(key)) + (if key == status then 1 else 0)
    decreases |projects|
  {
    var id := projects[k].id;
    var after := MapWhere(projects, WithProjectId(id), WithStatus(status));
    assert projects == projects[..k] + [projects[k]] + projects[k + 1..];
    assert after == projects[..k] + [projects[k].(status := Some(status))] + projects[k + 1..];
    FilterConcat(projects[..k] + [projects[k]], projects[k + 1..], StatusKeyIs(key));
    FilterConcat(projects[..k], [projects[k]], StatusKeyIs(key));
    FilterConcat(projects[..k] + [projects[k].(status := Some(status))], projects[k + 1..], StatusKeyIs(key));
    FilterConcat(projects[..k], [projects[k].(status := Some(status))], StatusKeyIs(key));
  }

  // ---------------------------------------------------------------------
  // Loading

  datatype Dashboard = Dashboard(name: string, projects: seq<Project>, counts: map<string, nat>, error: string, toLogin: bool)

  const LoadError := "An error occurred while fetching data. Please try again later."
  const NoUserData := "No user data found."

  /** `fetchInstallerData`: the user document, then the projects, then the
      notifications; `fetched` reads succeed before one fails. */
  function Load(uid: Option<string>, user: Option<UserDoc>, all: seq<Project>, fetched: nat): (r: Dashboard)
    ensures uid.None? ==> r.toLogin && r.projects == []
    ensures uid.Some? && fetched >= 1 && user.None? ==> r.error == NoUserData && r.projects == []
    ensures uid.Some? && fetched >= 2 && user.Some? ==>
              r.projects == MyProjects(all, uid.value) && r.counts == StatusCounts(r.projects) && r.name == user.value.name
    ensures uid.Some? && user.Some? ==> (r.error == "" <==> fetched >= 3)
    ensures uid.Some? && fetched == 0 ==> r.error == LoadError
  {
    match uid
    case None => Dashboard("", [], map[], "", true)
    case Some(id) =>
      if fetched == 0 then Dashboard("", [], map[], LoadError, false)
      else match user
        case None => Dashboard("", [], map[], NoUserData, false)
        case Some(u) =>
          if fetched == 1 then Dashboard(u.name, [], map[], LoadError, false)
          else
            var mine := MyProjects(all, id);
            Dashboard(u.name, mine, StatusCounts(mine), if fetched >= 3 then "" else LoadError, false)
  }
}

=== FILE: login.dfy ===
/** The login page: the e-mail format check, and the sign-in flow with its
    role check and redirect. */
module Login {
  import opened Optional
  import opened Text
  import opened Store
  import App

  // ---------------------------------------------------------------------
  // E-mail format: ^[a-zA-Z0-9._%+-]+@[a-zA-Z0-9.-]+\.[a-zA-Z]{2,}$

  predicate LocalChar(c: char) {
    IsLetter(c) || IsDigit(c) || c == '.' || c == '_' || c == '%' || c == '+' || c == '-'
  }

  predicate DomainChar(c: char) {
    IsLetter(c) || IsDigit(c) || c == '.' || c == '-'
  }

  /** The pattern's shape: a local part, "@", a domain, ".", and a top-level
      part of two or more letters, the "@" at `at` and that "." at `dot`. */
  ghost predicate SplitsAsEmail(s: string, at: int, dot: int) {
    && 0 < at && at + 1 < dot && dot + 3 <= |s|
    && s[at] == '@' && s[dot] == '.'
    && (forall i :: 0 <= i < at ==> LocalChar(s[i]))
    && (forall i :: at < i < dot ==> DomainChar(s[i]))
    && (forall i :: dot < i < |s| ==> IsLetter(s[i]))
  }

  /** The regular expression matches `s`. */
  ghost predicate MatchesEmailPattern(s: string) {
    exists at, dot :: SplitsAsEmail(s, at, dot)
  }

  /** The index of the first `c` in `s`. */
  function IndexOf(s: string, c: char): (r: Option<nat>)
    ensures r.None? <==> forall i :: 0 <= i < |s| ==> s[i] != c
    ensures r.Some? ==> r.value < |s| && s[r.value] == c && forall i :: 0 <= i < r.value ==> s[i] != c
    decreases |s|
  {
    if |s| == 0 then None
    else if s[0] == c then Some(0)
    else match IndexOf(s[1..], c)
      case None => None
      case Some(k) => Some(k + 1)
  }

  /** The index of the last `c` in `s`. */
  function LastIndexOf(s: string, c: char): (r: Option<nat>)
    ensures r.None? <==> forall i :: 0 <= i < |s| ==> s[i] != c
    ensures r.Some? ==> r.value < |s| && s[r.value] == c && forall i :: r.value < i < |s| ==> s[i] != c
    decreases |s|
  {
    if |s| == 0 then None
    else if s[|s| - 1] == c then Some(|s| - 1)
    else LastIndexOf(s[..|s| - 1], c)
  }

  /** `validateEmail`, as a scan: the first "@" splits off a local part; the
      last "." of the rest splits off the top-level part. */
  function ValidateEmail(s: string): bool {
    match IndexOf(s, '@')
    case None => false
    case Some(at) =>
      match LastIndexOf(s, '.')
      case None => false
      case Some(dot) =>
        && 0 < at && at + 1 < dot && dot + 3 <= |s|
        && (forall i :: 0 <= i < at ==> LocalChar(s[i]))
        && (forall i :: at < i < dot ==> DomainChar(s[i]))
        && (forall i :: dot < i < |s| ==> IsLetter(s[i]))
  }

  /** The scan accepts exactly the strings the regular expression matches. */
  lemma ValidateEmailIff(s: string)
    ensures ValidateEmail(s) <==> MatchesEmailPattern(s)
  {
    if ValidateEmail(s) {
      var at := IndexOf(s, '@').value;
      var dot := LastIndexOf(s, '.').value;
      assert SplitsAsEmail(s, at, dot);
    }
    if MatchesEmailPattern(s) {
      var at, dot :| SplitsAsEmail(s, at, dot);
      var a := IndexOf(s, '@');
      var d := LastIndexOf(s, '.');
      assert a == Some(at) by {
        assert forall i :: 0 <= i < at ==> s[i] != '@' by {
          forall i | 0 <= i < at ensures s[i] != '@' { assert LocalChar(s[i]); }
        }
      }
      assert d == Some(dot) by {
        assert forall i :: dot < i < |s| ==> s[i] != '.' by {
          forall i | dot < i < |s| ensures s[i] != '.' { assert IsLetter(s[i]); }
        }
      }
    }
  }

  lemma ValidateEmailExamples()
    ensures ValidateEmail("a@b.co")
    ensures !ValidateEmail("a@b.c")
    ensures !ValidateEmail("@b.co")
    ensures !ValidateEmail("a@.co")
  {
    assert IndexOf("a@b.co", '@') == Some(1);
    assert LastIndexOf("a@b.co", '.') == Some(3);
    assert IndexOf("a@b.c", '@') == Some(1);
    assert LastIndexOf("a@b.c", '.') == Some(3);
    assert IndexOf("@b.co", '@') == Some(0);
    assert IndexOf("a@.co", '@') == Some(1);
    assert LastIndexOf("a@.co", '.') == Some(2);
  }

  // ---------------------------------------------------------------------
  // Sign-in

  /** The authentication service's answer to the sign-in. */
  datatype SignInReply = SignInOk(uid: string) | SignInFailed(message: string)

  /** The user document read after signing in. */
  datatype UserLookup = UserFound(user: UserDoc) | UserMissing | UserLookupFailed(message: string)

  /** What a login attempt leaves: the error shown, whether the account is
      still signed in, where the page navigated, and whether the sign-in
      service was asked at all. */
  datatype LoginOutcome = LoginOutcome(error: string, signedIn: bool, navigateTo: Option<string>, attempted: bool)

  const InvalidEmail := "Please enter a valid email."
  const RoleMismatch := "The role you selected does not match your credentials."
  const NoUserData := "No user data found. Please contact support."

  function FailedLogin(message: string): string {
    "Failed to log in. Error: " + message
  }

  /** Where a matching role is sent: Admin and Dealer to their dashboards,
      anything else to the installer dashboard. */
  function LoginRedirect(role: string): string {
    if role == "Admin" then "/admin-dashboard"
    else if role == "Dealer" then "/dealer-dashboard"
    else "/installer-dashboard"
  }

  /** `handleLogin`: check the e-mail's form before asking the service; on
      success read the user's document; a stored role that differs from the
      selected one signs the account out again. */
  function HandleLogin(email: string, selectedRole: string, signIn: SignInReply, lookup: UserLookup): (r: LoginOutcome)
    ensures !ValidateEmail(email) ==> r == LoginOutcome(InvalidEmail, false, None, false)
    ensures r.attempted <==> ValidateEmail(email)
    ensures r.navigateTo.Some? <==>
              && ValidateEmail(email) && signIn.SignInOk? && lookup.UserFound?
              && lookup.user.role == Some(selectedRole)
    ensures r.navigateTo.Some? ==> r.signedIn && r.error == "" && r.navigateTo.value == LoginRedirect(selectedRole)
    ensures r.signedIn <==> ValidateEmail(email) && signIn.SignInOk? &&
                            !(lookup.UserFound? && lookup.user.role != Some(selectedRole))
    ensures ValidateEmail(email) && signIn.SignInFailed? ==> r.error == FailedLogin(signIn.message)
    ensures ValidateEmail(email) && signIn.SignInOk? && lookup.UserFound? && lookup.user.role != Some(selectedRole) ==>
              r.error == RoleMismatch
    ensures ValidateEmail(email) && signIn.SignInOk? && lookup.UserMissing? ==> r.error == NoUserData
    ensures ValidateEmail(email) && signIn.SignInOk? && lookup.UserLookupFailed? ==>
              r.error == FailedLogin(lookup.message)
  {
    if !ValidateEmail(email) then LoginOutcome(InvalidEmail, false, None, false)
    else match signIn
      case SignInFailed(message) => LoginOutcome(FailedLogin(message), false, None, true)
      case SignInOk(_) =>
        match lookup
        case UserLookupFailed(message) => LoginOutcome(FailedLogin(message), true, None, true)
        case UserMissing => LoginOutcome(NoUserData, true, None, true)
        case UserFound(user) =>
          if user.role != Some(selectedRole) then LoginOutcome(RoleMismatch, false, None, true)
          else LoginOutcome("", true, Some(LoginRedirect(selectedRole)), true)
  }

  /** For the three roles the form offers, the login page and the shell send
      an account to the same dashboard. */
  lemma LoginAgreesWithShell(email: string, selectedRole: string, signIn: SignInReply, lookup: UserLookup)
    requires selectedRole in {"Admin", "Dealer", "Installer"}
    ensures var r := HandleLogin(email, selectedRole, signIn, lookup);
            r.navigateTo.Some? ==> r.navigateTo.value == App.DashboardRoute(lookup.user.role)
  {
  }
}

=== FILE: notifications.dfy ===
/** The notifications page: the signed-in user's notifications newest
    first, the type filter and message search, five per page with a
    clamped page change, grouping by calendar day, and the read/delete
    actions. */
module Notifications {
  import opened Optional
  import opened Text
  import opened Seqs
  import opened Store
  import opened Grouping

  /** Notifications per page. */
  const PerPage: nat := 5

  /** The sort key: `b.createdAt - a.createdAt` treats a missing date as 0. */
  function CreatedKey(n: StoredNotification): int {
    n.doc.createdAt.GetOr(0)
  }

  /** The comparator's "strictly ahead": newer first. */
  function Newer(): (StoredNotification, StoredNotification) -> bool {
    (a: StoredNotification, b: StoredNotification) => CreatedKey(a) > CreatedKey(b)
  }

  function ForUser(uid: string): StoredNotification -> bool {
    (n: StoredNotification) => n.doc.userId == uid
  }

  /** The snapshot listener's list: the user's documents, newest first,
      ties in the order the snapshot delivered them. */
  function Load(snapshot: seq<StoredNotification>, uid: string): (r: seq<StoredNotification>)
    ensures multiset(r) == multiset(Filter(snapshot, ForUser(uid)))
    ensures forall i :: 0 <= i < |r| ==> r[i].doc.userId == uid
  {
    var mine := Filter(snapshot, ForUser(uid));
    var r := SortBy(mine, Newer());
    forall i | 0 <= i < |r|
      ensures r[i].doc.userId == uid
    {
      assert r[i] in multiset(mine);
    }
    r
  }

  lemma NewerIsStrictWeakOrder()
    ensures StrictWeakOrder(Newer())
  {
  }

  /** The loaded list is ordered newest first. */
  lemma LoadNewestFirst(snapshot: seq<StoredNotification>, uid: string)
    ensures var r := Load(snapshot, uid);
            forall i, j :: 0 <= i < j < |r| ==> CreatedKey(r[i]) >= CreatedKey(r[j])
  {
    NewerIsStrictWeakOrder();
    SortBySorted(Filter(snapshot, ForUser(uid)), Newer());
  }

  function DatedAt(t: int): StoredNotification -> bool {
    (n: StoredNotification) => CreatedKey(n) == t
  }

  /** The sort is stable: notifications of any one date keep the order the
      snapshot gave them. */
  lemma LoadKeepsSnapshotOrderOfEqualDates(snapshot: seq<StoredNotification>, uid: string, t: int)
    ensures Filter(Load(snapshot, uid), DatedAt(t)) == Filter(Filter(snapshot, ForUser(uid)), DatedAt(t))
  {
    SortByStableOn(Filter(snapshot, ForUser(uid)), Newer(), DatedAt(t));
  }

  // ---------------------------------------------------------------------
  // Filter, search, pages

  function Matches(filter: string, search: string): StoredNotification -> bool {
    (n: StoredNotification) =>
      (filter == "all" || n.doc.kind == filter) && IncludesIgnoringCase(n.doc.message, search)
  }

  /** `filteredNotifications`: the type filter ("all" passes everything)
      and a case-insensitive message search, order kept. */
  function Visible(list: seq<StoredNotification>, filter: string, search: string): (r: seq<StoredNotification>)
    ensures forall i :: 0 <= i < |r| ==>
              r[i] in list && (filter == "all" || r[i].doc.kind == filter) && IncludesIgnoringCase(r[i].doc.message, search)
    ensures forall i :: (0 <= i < |list| && (filter == "all" || list[i].doc.kind == filter) &&
                         IncludesIgnoringCase(list[i].doc.message, search)) ==> list[i] in r
    ensures IsSubsequence(r, list)
  {
    FilterIsSubsequence(list, Matches(filter, search));
    Filter(list, Matches(filter, search))
  }

  /** With the "all" filter and an empty search every notification is shown. */
  lemma NothingHiddenByDefault(list: seq<StoredNotification>)
    ensures Visible(list, "all", "") == list
  {
    forall i | 0 <= i < |list|
      ensures Matches("all", "")(list[i])
    {
      IncludesEmpty(Lower(list[i].doc.message));
    }
    FilterAllPass(list, Matches("all", ""));
  }

  function TotalPages(visible: seq<StoredNotification>): (n: nat)
    ensures n * PerPage >= |visible|
    ensures n == 0 || (n - 1) * PerPage < |visible|
  {
    PageCount(|visible|, PerPage)
  }

  function CurrentNotifications(visible: seq<StoredNotification>, page: nat): (r: seq<StoredNotification>)
    requires page >= 1
    ensures |r| == if (page - 1) * PerPage >= |visible| then 0
                   else if |visible| - (page - 1) * PerPage < PerPage then |visible| - (page - 1) * PerPage
                   else PerPage
    ensures forall k :: 0 <= k < |r| ==>
              (page - 1) * PerPage + k < |visible| && r[k] == visible[(page - 1) * PerPage + k]
    ensures r == Slice(visible, (page - 1) * PerPage, page * PerPage)
  {
    PageIsSlice(visible, page, PerPage);
    Page(visible, page, PerPage)
  }

  /** `handlePageChange`: moves only to a page that exists. */
  function HandlePageChange(current: nat, requested: int, total: nat): (r: nat)
    ensures r == current || 1 <= r <= total
    ensures r == requested <==> 1 <= requested <= total || requested == current
    ensures 1 <= requested <= total ==> r == requested
    ensures !(1 <= requested <= total) ==> r == current
  {
    if 0 < requested <= total then requested else current
  }

  /** From a page that shows something, the arrows and numbers only ever
      reach pages that show something. */
  lemma PageChangeKeepsAFullPage(visible: seq<StoredNotification>, current: nat, requested: int)
    requires 1 <= current && CurrentNotifications(visible, current) != []
    ensures var next := HandlePageChange(current, requested, TotalPages(visible));
            next >= 1 && CurrentNotifications(visible, next) != []
  {
    var next := HandlePageChange(current, requested, TotalPages(visible));
    PageEmptyIffPastEnd(visible, current, PerPage);
    PageEmptyIffPastEnd(visible, next, PerPage);
  }

  /** The page number survives a filter change, so a narrower filter can
      leave the page empty although notifications match: five alerts and
      one info fill two pages under "all", but the info alone fills only
      the first. */
  lemma NarrowerFilterCanEmptyThePage(a: StoredNotification, b: StoredNotification)
    requires a.doc.kind == "alert" && a.doc.message == ""
    requires b.doc.kind == "info" && b.doc.message == ""
    ensures var list := [a, a, a, a, a, b];
            CurrentNotifications(Visible(list, "all", ""), 2) == [b] &&
            Visible(list, "info", "") == [b] &&
            CurrentNotifications(Visible(list, "info", ""), 2) == []
  {
    var list := [a, a, a, a, a, b];
    NothingHiddenByDefault(list);
    IncludesEmpty(Lower(b.doc.message));
    assert !Matches("info", "")(a) && Matches("info", "")(b);
    assert list[1..] == [a, a, a, a, b] && list[2..] == [a, a, a, b] && list[3..] == [a, a, b];
    assert list[4..] == [a, b] && list[5..] == [b];
    var m := Matches("info", "");
    assert Filter([b], m) == [b];
    assert Filter([a, b], m) == [b];
    assert Filter([a, a, b], m) == [b];
    assert Filter([a, a, a, b], m) == [b];
    assert Filter([a, a, a, a, b], m) == [b];
  }

  // ---------------------------------------------------------------------
  // Grouping by day

  /** The heading a notification is listed under: its date's
      `toDateString()` (`dayOf`), or "No Date". */
  function DayKey(n: StoredNotification, dayOf: int -> string): string {
    match n.doc.createdAt
    case Some(t) => dayOf(t)
    case None => "No Date"
  }

  function Heading(dayOf: int -> string): StoredNotification -> string {
    (n: StoredNotification) => DayKey(n, dayOf)
  }

  /** `groupedNotifications`: the page's notifications under their date
      headings, headings in order of first appearance: for any two headings,
      some notification under the earlier one comes before every
      notification under the later one. */
  function GroupByDay(current: seq<StoredNotification>, dayOf: int -> string): (r: seq<Group<StoredNotification>>)
    ensures DistinctKeys(r)
    ensures forall g :: 0 <= g < |r| ==> IsKeyGroup(current, Heading(dayOf), r[g])
    ensures forall i :: 0 <= i < |current| ==> HasGroup(r, DayKey(current[i], dayOf))
    ensures TotalItems(r) == |current|
    ensures forall g, h :: 0 <= g < h < |r| ==> AppearsBefore(current, Heading(dayOf), r[g].key, r[h].key)
  {
    GroupsInFirstAppearanceOrder(current, Heading(dayOf));
    GroupsAreKeyFilters(current, Heading(dayOf));
    EveryKeyHasAGroup(current, Heading(dayOf));
    GroupsCoverAll(current, Heading(dayOf));
    GroupBy(current, Heading(dayOf))
  }

  /** "No notifications found." is shown exactly when the page is empty. */
  lemma NoGroupsIffEmptyPage(current: seq<StoredNotification>, dayOf: int -> string)
    ensures GroupByDay(current, dayOf) == [] <==> current == []
  {
    if current != [] {
      assert HasGroup(GroupByDay(current, dayOf), DayKey(current[0], dayOf));
    }
  }

  // ---------------------------------------------------------------------
  // Read and delete

  /** The "Mark as Read" button is shown only for the stored text "false". */
  predicate MarkReadOffered(n: StoredNotification) {
    n.doc.read == ReadText("false")
  }

  /** `notification.read ? "read" : "unread"`: the truthiness of the field. */
  predicate StyledAsRead(n: StoredNotification) {
    match n.doc.read
    case ReadText(t) => t != ""
    case ReadFlag(b) => b
  }

  /** The string "false" is truthy: an unread notification is styled as
      read while its button still offers to mark it read. */
  lemma UnreadStyledAsRead(n: StoredNotification)
    requires MarkReadOffered(n)
    ensures StyledAsRead(n)
  {
  }

  function HasId(id: string): StoredNotification -> bool {
    (n: StoredNotification) => n.id == id
  }

  function SetReadFlag(n: StoredNotification): StoredNotification {
    n.(doc := n.doc.(read := ReadFlag(true)))
  }

  datatype Action = Action(writes: seq<Write>, list: seq<StoredNotification>)

  /** `markAsRead(id)`: stores the text "true", then marks the local copy
      with the boolean `true`; a rejected write changes nothing. */
  function MarkAsRead(list: seq<StoredNotification>, id: string, accepted: nat): (r: Action)
    ensures r.writes == Performed([MarkNotificationRead(id)], accepted)
    ensures |r.list| == |list|
    ensures forall i :: 0 <= i < |list| ==>
              if accepted >= 1 && list[i].id == id
              then r.list[i].doc == list[i].doc.(read := ReadFlag(true)) && r.list[i].id == id && !MarkReadOffered(r.list[i])
              else r.list[i] == list[i]
  {
    if accepted >= 1 then Action([MarkNotificationRead(id)], MapWhere(list, HasId(id), SetReadFlag))
    else Action([], list)
  }

  /** Marking the same notification read twice is the same as once. */
  lemma MarkAsReadIdempotent(list: seq<StoredNotification>, id: string)
    ensures MarkAsRead(MarkAsRead(list, id, 1).list, id, 1).list == MarkAsRead(list, id, 1).list
  {
  }

  function HasOtherId(id: string): StoredNotification -> bool {
    (n: StoredNotification) => n.id != id
  }

  /** `deleteNotification(id)`: deletes the document, then drops it from the
      local list; a rejected delete changes nothing. */
  function Delete(list: seq<StoredNotification>, id: string, accepted: nat): (r: Action)
    ensures r.writes == Performed([DeleteNotification(id)], accepted)
    ensures accepted == 0 ==> r.list == list
    ensures accepted >= 1 ==>
              (forall i :: 0 <= i < |r.list| ==> r.list[i].id != id && r.list[i] in list) &&
              (forall i :: 0 <= i < |list| && list[i].id != id ==> list[i] in r.list) &&
              IsSubsequence(r.list, list)
  {
    if accepted >= 1 then
      FilterIsSubsequence(list, HasOtherId(id));
      Action([DeleteNotification(id)], Filter(list, HasOtherId(id)))
    else Action([], list)
  }

  /** Deleting removes exactly the notifications with that id. */
  lemma DeleteCount(list: seq<StoredNotification>, id: string)
    ensures |Delete(list, id, 1).list| + Count(list, HasId(id)) == |list|
  {
    FilterCongruent(list, HasOtherId(id), Not(HasId(id)));
    FilterSplitsCount(list, HasId(id));
  }
}

=== FILE: optional.dfy ===
/** A value that may be absent: a missing document field, a `find` that
    matched nothing, a `null` React state. */
module Optional {

  datatype Option<+T> = None | Some(value: T) {

    /** The value, or `default` when absent (the `x || default` idiom when
        only absence is falsy). */
    function GetOr(default: T): T {
      match this
      case Some(v) => v
      case None => default
    }
  }
}

=== FILE: product_details.dfy ===
/** The product detail page: the product named by the route parameter,
    its feature list as rendered, and the single-product quotation form. */
module ProductDetails {
  import opened Optional
  import opened Text
  import opened Store
  import opened Catalog
  import ProductPage
  import Quotations
  import AdminDashboard

  /** The first product whose id equals `id`. */
  function FirstWithId(products: seq<Product>, id: int): (r: Option<Product>)
    ensures r.Some? ==> r.value in products && r.value.id == id
    ensures r.None? <==> forall i :: 0 <= i < |products| ==> products[i].id != id
    ensures forall i :: (0 <= i < |products| && products[i].id == id &&
                         forall j :: 0 <= j < i ==> products[j].id != id) ==> r == Some(products[i])
    decreases |products|
  {
    if |products| == 0 then None
    else if products[0].id == id then Some(products[0])
    else
      var r := FirstWithId(products[1..], id);
      assert forall i :: 0 <= i < |products[1..]| ==> products[1..][i] == products[i + 1];
      r
  }

  /** `products.find(p => p.id === parseInt(productId, 10))`; `None` is the
      "Product not found" page (a parameter that is not a number matches
      nothing). */
  function FindProduct(products: seq<Product>, param: string): (r: Option<Product>)
    ensures ParseInt(param).None? ==> r.None?
    ensures r.Some? ==> r.value in products && ParseInt(param) == Some(r.value.id)
    ensures ParseInt(param).Some? && (exists i :: 0 <= i < |products| && products[i].id == ParseInt(param).value) ==> r.Some?
  {
    match ParseInt(param)
    case None => None
    case Some(id) => FirstWithId(products, id)
  }

  /** The link `/product-details/<id>` of a listed product leads back to
      that product, when catalog ids are distinct and not negative. */
  lemma DetailLinkFindsProduct(products: seq<Product>, k: nat)
    requires k < |products| && products[k].id >= 0
    requires forall i, j :: 0 <= i < j < |products| ==> products[i].id != products[j].id
    ensures FindProduct(products, NatToString(products[k].id as nat)) == Some(products[k])
  {
    var s := NatToString(products[k].id as nat);
    assert s + "" == s;
    ParseIntOfNatToString(products[k].id as nat, "");
  }

  // ---------------------------------------------------------------------
  // Feature list

  /** `key.replace(/([A-Z])/g, " $1")`: a space before every capital. */
  function FeatureLabel(key: string): (r: string)
    ensures |r| >= |key|
    ensures forall i :: 0 <= i < |r| && IsUpper(r[i]) ==> i > 0 && r[i - 1] == ' '
    ensures |r| > 0 ==> !IsUpper(r[0])
    decreases |key|
  {
    if |key| == 0 then ""
    else
      var rest := FeatureLabel(key[1..]);
      var head := if IsUpper(key[0]) then [' ', key[0]] else [key[0]];
      assert forall i :: |head| <= i < |head + rest| ==> (head + rest)[i] == rest[i - |head|];
      head + rest
  }

  /** Drops the space the label put in front of each capital. */
  function Unlabel(s: string): string
    decreases |s|
  {
    if |s| == 0 then ""
    else if |s| >= 2 && s[0] == ' ' && IsUpper(s[1]) then [s[1]] + Unlabel(s[2..])
    else [s[0]] + Unlabel(s[1..])
  }

  /** The label loses nothing: the catalog key can be read back from it. */
  lemma {:induction false} UnlabelFeatureLabel(key: string)
    ensures Unlabel(FeatureLabel(key)) == key
    decreases |key|
  {
    if |key| > 0 {
      UnlabelFeatureLabel(key[1..]);
      var rest := FeatureLabel(key[1..]);
      if IsUpper(key[0]) {
        assert ([' ', key[0]] + rest)[2..] == rest;
      } else {
        assert ([key[0]] + rest)[1..] == rest;
      }
    }
  }

  /** A key without capitals is shown as it is. */
  lemma {:induction false} FeatureLabelWithoutCapitals(key: string)
    requires forall i :: 0 <= i < |key| ==> !IsUpper(key[i])
    ensures FeatureLabel(key) == key
    decreases |key|
  {
    if |key| > 0 {
      FeatureLabelWithoutCapitals(key[1..]);
    }
  }

  /** `xs.join(sep)`. */
  function Join(xs: seq<string>, sep: string): string
    decreases |xs|
  {
    if |xs| == 0 then ""
    else if |xs| == 1 then xs[0]
    else xs[0] + sep + Join(xs[1..], sep)
  }

  function TotalLength(xs: seq<string>): nat
    decreases |xs|
  {
    if |xs| == 0 then 0 else |xs[0]| + TotalLength(xs[1..])
  }

  /** The joined text holds every item and one separator between each pair. */
  lemma {:induction false} JoinLength(xs: seq<string>, sep: string)
    requires |xs| >= 1
    ensures |Join(xs, sep)| == TotalLength(xs) + (|xs| - 1) * |sep|
    decreases |xs|
  {
    if |xs| > 1 {
      JoinLength(xs[1..], sep);
    }
  }

  /** Where item `k` starts in `xs` joined by `sep`: every earlier item
      and its separator come before it. */
  function Offset(xs: seq<string>, sep: string, k: nat): nat
    requires k <= |xs|
  {
    if k == 0 then 0 else Offset(xs, sep, k - 1) + |xs[k - 1]| + |sep|
  }

  /** Item `k` of `xs` sits at its offset in `r`. */
  ghost predicate ItemAt(r: string, xs: seq<string>, sep: string, k: nat)
    requires k < |xs|
  {
    Offset(xs, sep, k) + |xs[k]| <= |r| && r[Offset(xs, sep, k)..Offset(xs, sep, k) + |xs[k]|] == xs[k]
  }

  /** The separator fills the gap just before item `k`. */
  ghost predicate SeparatorBefore(r: string, xs: seq<string>, sep: string, k: nat)
    requires 1 <= k < |xs|
  {
    |sep| <= Offset(xs, sep, k) <= |r| && r[Offset(xs, sep, k) - |sep|..Offset(xs, sep, k)] == sep
  }

  /** `r` is `xs` laid end to end with `sep` between neighbours: item `k`
      sits at its offset, a separator fills each gap, and nothing follows
      the last item. */
  ghost predicate ShowsJoined(r: string, xs: seq<string>, sep: string) {
    && (|xs| == 0 ==> r == "")
    && (|xs| >= 1 ==> |r| == Offset(xs, sep, |xs| - 1) + |xs[|xs| - 1]|)
    && (forall k :: 0 <= k < |xs| ==> ItemAt(r, xs, sep, k))
    && (forall k :: 1 <= k < |xs| ==> SeparatorBefore(r, xs, sep, k))
  }

  /** Offsets past the first item are the tail's offsets, shifted by the
      first item and its separator. */
  lemma {:induction false} OffsetShift(xs: seq<string>, sep: string, k: nat)
    requires 1 <= k <= |xs|
    ensures Offset(xs, sep, k) == |xs[0]| + |sep| + Offset(xs[1..], sep, k - 1)
    decreases k
  {
    if k > 1 {
      OffsetShift(xs, sep, k - 1);
      assert xs[1..][k - 2] == xs[k - 1];
    }
  }

  /** A slice of a suffix is the matching slice of the whole. */
  lemma SliceOfSuffix(r: string, d: nat, a: nat, b: nat)
    requires d <= |r| && a <= b <= |r| - d
    ensures r[d..][a..b] == r[d + a..d + b]
  {
  }

  /** An item of the tail, placed after the first item and a separator. */
  lemma ItemAtShifted(xs: seq<string>, sep: string, k: nat)
    requires 1 <= k < |xs| && |xs| >= 2
    requires ItemAt(Join(xs[1..], sep), xs[1..], sep, k - 1)
    ensures ItemAt(Join(xs, sep), xs, sep, k)
  {
    var j := Join(xs[1..], sep);
    var r := Join(xs, sep);
    var d := |xs[0]| + |sep|;
    assert r == xs[0] + sep + j;
    assert r[d..] == j;
    OffsetShift(xs, sep, k);
    var o := Offset(xs[1..], sep, k - 1);
    assert xs[1..][k - 1] == xs[k];
    SliceOfSuffix(r, d, o, o + |xs[k]|);
  }

  /** A separator of the tail, placed after the first item and a separator. */
  lemma SeparatorBeforeShifted(xs: seq<string>, sep: string, k: nat)
    requires 2 <= k < |xs|
    requires SeparatorBefore(Join(xs[1..], sep), xs[1..], sep, k - 1)
    ensures SeparatorBefore(Join(xs, sep), xs, sep, k)
  {
    var j := Join(xs[1..], sep);
    var r := Join(xs, sep);
    var d := |xs[0]| + |sep|;
    assert r == xs[0] + sep + j;
    assert r[d..] == j;
    OffsetShift(xs, sep, k);
    var o := Offset(xs[1..], sep, k - 1);
    SliceOfSuffix(r, d, o - |sep|, o);
  }

  /** `Join` lays out its items as `ShowsJoined` describes. */
  lemma {:induction false} JoinShowsItems(xs: seq<string>, sep: string)
    ensures ShowsJoined(Join(xs, sep), xs, sep)
    decreases |xs|
  {
    if |xs| == 1 {
      assert ItemAt(Join(xs, sep), xs, sep, 0);
    } else if |xs| >= 2 {
      var t := xs[1..];
      var r := Join(xs, sep);
      JoinShowsItems(t, sep);
      assert r == xs[0] + sep + Join(t, sep);
      assert ItemAt(r, xs, sep, 0) by {
        assert r[..|xs[0]|] == xs[0];
      }
      assert SeparatorBefore(r, xs, sep, 1) by {
        OffsetShift(xs, sep, 1);
        assert r[|xs[0]|..|xs[0]| + |sep|] == sep;
      }
      forall k | 1 <= k < |xs|
        ensures ItemAt(r, xs, sep, k)
      {
        ItemAtShifted(xs, sep, k);
      }
      forall k | 2 <= k < |xs|
        ensures SeparatorBefore(r, xs, sep, k)
      {
        SeparatorBeforeShifted(xs, sep, k);
      }
      OffsetShift(xs, sep, |xs| - 1);
    }
  }

  function EntryText(entry: (string, string)): string {
    entry.0 + ": " + entry.1
  }

  /** `Object.entries(value).map(([k, v]) => `${k}: ${v}`)`. */
  function EntryTexts(entries: seq<(string, string)>): (r: seq<string>)
    ensures |r| == |entries|
    ensures forall i :: 0 <= i < |entries| ==> r[i] == entries[i].0 + ": " + entries[i].1
  {
    seq(|entries|, i requires 0 <= i < |entries| => EntryText(entries[i]))
  }

  /** How a feature value is shown: list items and `key: value` pairs
      joined by ", ", anything else as its text. */
  function FeatureText(v: FeatureValue): (r: string)
    ensures v.ScalarValue? ==> r == v.text
    ensures v.ListValue? ==> ShowsJoined(r, v.items, ", ")
    ensures v.ListValue? && |v.items| >= 1 ==>
              |r| == TotalLength(v.items) + (|v.items| - 1) * 2 && StartsWith(r, v.items[0])
    ensures v.ListValue? && |v.items| == 0 ==> r == ""
    ensures v.ObjectValue? ==> ShowsJoined(r, EntryTexts(v.entries), ", ")
    ensures v.ObjectValue? && |v.entries| == 1 ==> r == v.entries[0].0 + ": " + v.entries[0].1
  {
    match v
    case ListValue(items) =>
      JoinShowsItems(items, ", ");
      if |items| >= 1 then JoinLength(items, ", "); Join(items, ", ") else ""
    case ObjectValue(entries) =>
      JoinShowsItems(EntryTexts(entries), ", ");
      Join(EntryTexts(entries), ", ")
    case ScalarValue(text) => text
  }

  /** The feature list: one (label, text) line per catalog key, in order. */
  function FeatureLines(p: Product): (r: seq<(string, string)>)
    ensures |r| == |p.features|
    ensures forall i :: 0 <= i < |r| ==>
              Unlabel(r[i].0) == p.features[i].0 && r[i].1 == FeatureText(p.features[i].1)
  {
    forall i | 0 <= i < |p.features| {
      UnlabelFeatureLabel(p.features[i].0);
    }
    seq(|p.features|, i requires 0 <= i < |p.features| =>
      (FeatureLabel(p.features[i].0), FeatureText(p.features[i].1)))
  }

  // ---------------------------------------------------------------------
  // Quotation form

  /** The form of the detail page and whether its popup is open. */
  datatype DetailForm = DetailForm(fields: ProductPage.QuoteForm, showPopup: bool)

  const BlankForm: ProductPage.QuoteForm := ProductPage.QuoteForm("", "", "", "", "", "", "", "")

  datatype Outcome = Outcome(writes: seq<Write>, orderNumber: nat, form: DetailForm, message: string)

  function DetailQuotation(p: Product, f: ProductPage.QuoteForm, uid: Option<string>, orderNumber: nat, isoNow: string): QuotationDoc {
    QuotationDoc(
      f.clientName, f.clientPhone, f.clientEmail, f.clientCity, f.postalCode,
      QuotedProduct(p.name, f.height, f.width, f.additionalReq, None),
      ProductPage.SubmitterId(uid), orderNumber, isoNow,
      None, None, None, None, None)
  }

  /** `handleSubmitQuotation`: a single quotation document under the decimal
      text of a fresh six-digit order number, with the form's fields as
      typed and no status; on success every field is cleared and the popup
      closes, on failure nothing changes. */
  function SubmitQuotation(p: Product, form: DetailForm, uid: Option<string>, random: real, isoNow: string, accepted: nat): (r: Outcome)
    requires 0.0 <= random < 1.0
    ensures 100000 <= r.orderNumber <= 999999
    ensures |r.writes| == if accepted == 0 then 0 else 1
    ensures accepted >= 1 ==>
              && r.writes[0].SetQuotation?
              && r.writes[0].key == NatToString(r.orderNumber) && |r.writes[0].key| == 6
              && r.writes[0].quotation.product.productName == p.name
              && r.writes[0].quotation.product.status.None?
              && r.writes[0].quotation.clientName == form.fields.clientName
              && r.writes[0].quotation.userId == ProductPage.SubmitterId(uid)
              && r.form == DetailForm(BlankForm, false)
              && r.message == "Quotation submitted successfully! Order Number: " + r.writes[0].key
    ensures accepted == 0 ==> r.form == form && r.message == "Failed to submit quotation. Please try again."
  {
    var orderNumber := SixDigit(random);
    SixDigitWidth(orderNumber);
    var plan := [SetQuotation(NatToString(orderNumber), DetailQuotation(p, form.fields, uid, orderNumber, isoNow))];
    if Succeeds(plan, accepted) then
      Outcome(plan, orderNumber, DetailForm(BlankForm, false),
              "Quotation submitted successfully! Order Number: " + NatToString(orderNumber))
    else
      Outcome(Performed(plan, accepted), orderNumber, form, "Failed to submit quotation. Please try again.")
  }

  /** A detail-page quotation carries neither a product status nor a review
      status. On the review screen its missing payment status reads
      "Pending", so the "Pending" payment filter lists it, while the
      "Pending" review-status filter and the admin statistics' pending count
      both skip it. */
  lemma DetailQuotationHasNoStatus(p: Product, form: DetailForm, uid: Option<string>, random: real,
                                   isoNow: string, key: string, earlier: seq<QuotationDoc>)
    requires 0.0 <= random < 1.0
    ensures var d := SubmitQuotation(p, form, uid, random, isoNow, 1).writes[0].quotation;
            && d.product.status.None? && d.status.None?
            && Quotations.Passes(Quotations.Load(key, d), "Pending", "", "")
            && !Quotations.Passes(Quotations.Load(key, d), "", "Pending", "")
            && AdminDashboard.Stats(earlier + [d]).pending == AdminDashboard.Stats(earlier).pending
  {
    var d := SubmitQuotation(p, form, uid, random, isoNow, 1).writes[0].quotation;
    assert d.paymentStatus.None?;
    AdminDashboard.NewSubmissionNotPending(earlier, d);
  }
}

=== FILE: product_page.dfy ===
/** The dealer's product page: catalog search, category filter, the
    category list, pagination, the quotation cart with its per-product form
    state, and the submission of one cart item as a quotation. */
module ProductPage {
  import opened Optional
  import opened Text
  import opened Seqs
  import opened Store
  import opened Catalog

  /** Products per page. */
  const PageSize: nat := 8

  /** The catalog part of the page: the filtered products and the current page. */
  datatype Listing = Listing(filtered: seq<Product>, page: nat)

  function NameHas(query: string): Product -> bool {
    (p: Product) => Includes(Lower(p.name), query)
  }

  /** `handleSearch`: products whose name contains the query, ignoring
      case, in catalog order; back to page 1. */
  function Search(products: seq<Product>, typed: string): (r: Listing)
    ensures r.page == 1
    ensures forall i :: 0 <= i < |r.filtered| ==> r.filtered[i] in products && IncludesIgnoringCase(r.filtered[i].name, typed)
    ensures forall i :: 0 <= i < |products| && IncludesIgnoringCase(products[i].name, typed) ==> products[i] in r.filtered
    ensures IsSubsequence(r.filtered, products)
  {
    FilterIsSubsequence(products, NameHas(Lower(typed)));
    Listing(Filter(products, NameHas(Lower(typed))), 1)
  }

  /** An empty search shows the whole catalog. */
  lemma EmptySearchShowsAll(products: seq<Product>)
    ensures Search(products, "").filtered == products
  {
    FilterAllPass(products, NameHas(Lower("")));
  }

  function CategoryIs(category: string): Product -> bool {
    (p: Product) => p.category == category
  }

  /** `filterByCategory`: "All" shows the catalog, any other value exactly
      the products of that category; back to page 1. */
  function FilterByCategory(products: seq<Product>, category: string): (r: Listing)
    ensures r.page == 1
    ensures category == "All" ==> r.filtered == products
    ensures category != "All" ==>
              (forall i :: 0 <= i < |r.filtered| ==> r.filtered[i] in products && r.filtered[i].category == category) &&
              (forall i :: 0 <= i < |products| && products[i].category == category ==> products[i] in r.filtered)
    ensures IsSubsequence(r.filtered, products)
  {
    if category == "All" then
      SubsequenceReflexive(products);
      Listing(products, 1)
    else
      FilterIsSubsequence(products, CategoryIs(category));
      Listing(Filter(products, CategoryIs(category)), 1)
  }

  /** `Array.from(new Set(products.map(p => p.category)))`: every category
      once, in order of first appearance. */
  function Categories(products: seq<Product>): (r: seq<string>)
    ensures Distinct(r)
    ensures forall i :: 0 <= i < |products| ==> products[i].category in r
    ensures forall k :: 0 <= k < |r| ==> exists i :: 0 <= i < |products| && products[i].category == r[k]
    decreases |products|
  {
    if |products| == 0 then []
    else
      var init := products[..|products| - 1];
      var last := products[|products| - 1].category;
      var c := Categories(init);
      assert forall i :: 0 <= i < |init| ==> init[i] == products[i];
      if last in c then c else c + [last]
  }

  /** The products on page `page`. */
  function DisplayedProducts(filtered: seq<Product>, page: nat): (r: seq<Product>)
    requires page >= 1
    ensures |r| == if (page - 1) * PageSize >= |filtered| then 0
                   else if |filtered| - (page - 1) * PageSize < PageSize then |filtered| - (page - 1) * PageSize
                   else PageSize
    ensures forall k :: 0 <= k < |r| ==>
              (page - 1) * PageSize + k < |filtered| && r[k] == filtered[(page - 1) * PageSize + k]
    ensures r == Slice(filtered, (page - 1) * PageSize, page * PageSize)
  {
    PageIsSlice(filtered, page, PageSize);
    Page(filtered, page, PageSize)
  }

  function TotalPages(filtered: seq<Product>): (n: nat)
    ensures n * PageSize >= |filtered|
    ensures n == 0 || (n - 1) * PageSize < |filtered|
  {
    PageCount(|filtered|, PageSize)
  }

  // ---------------------------------------------------------------------
  // Cart and per-product form state

  /** Per-product form fields, keyed by product id, then by field name. */
  type FormData = map<int, map<string, string>>

  /** `addToCart`: appended at the end; the same product may appear twice. */
  function AddToCart(cart: seq<Product>, p: Product): (r: seq<Product>)
    ensures |r| == |cart| + 1 && r[..|cart|] == cart && r[|cart|] == p
  {
    cart + [p]
  }

  function IdIsNot(id: int): Product -> bool {
    (p: Product) => p.id != id
  }

  /** `removeFromCart`: every cart item with that id goes, the others stay
      in order, and only that id's form data is dropped. */
  function RemoveFromCart(cart: seq<Product>, formData: FormData, productId: int): (r: (seq<Product>, FormData))
    ensures forall i :: 0 <= i < |r.0| ==> r.0[i].id != productId && r.0[i] in cart
    ensures forall i :: 0 <= i < |cart| && cart[i].id != productId ==> cart[i] in r.0
    ensures IsSubsequence(r.0, cart)
    ensures r.1.Keys == formData.Keys - {productId}
    ensures forall k :: k in r.1 ==> r.1[k] == formData[k]
    ensures forall p :: multiset(r.0)[p] == if p.id == productId then 0 else multiset(cart)[p]
  {
    FilterIsSubsequence(cart, IdIsNot(productId));
    var kept := Filter(cart, IdIsNot(productId));
    assert forall p :: multiset(kept)[p] == if p.id == productId then 0 else multiset(cart)[p] by {
      forall p ensures multiset(kept)[p] == if p.id == productId then 0 else multiset(cart)[p] {
        FilterMultiplicity(cart, IdIsNot(productId), p);
      }
    }
    (kept, formData - {productId})
  }

  /** Removing a product just added leaves the cart as removing it before
      the addition would. */
  lemma RemoveUndoesAdd(cart: seq<Product>, formData: FormData, p: Product)
    ensures RemoveFromCart(AddToCart(cart, p), formData, p.id).0 == RemoveFromCart(cart, formData, p.id).0
  {
    FilterConcat(cart, [p], IdIsNot(p.id));
  }

  /** `handleFormChange`: sets one field of one product; every other
      product and every other field keeps its value. */
  function FormChange(formData: FormData, productId: int, field: string, value: string): (r: FormData)
    ensures r.Keys == formData.Keys + {productId}
    ensures field in r[productId] && r[productId][field] == value
    ensures forall f :: f in r[productId] && f != field ==> productId in formData && f in formData[productId] && r[productId][f] == formData[productId][f]
    ensures forall f :: productId in formData && f in formData[productId] ==> f in r[productId]
    ensures forall k :: k in formData && k != productId ==> r[k] == formData[k]
  {
    var fields := if productId in formData then formData[productId] else map[];
    formData[productId := fields[field := value]]
  }

  // ---------------------------------------------------------------------
  // Submission

  /** The shared quotation form fields. */
  datatype QuoteForm = QuoteForm(
    clientName: string,
    clientPhone: string,
    clientEmail: string,
    clientCity: string,
    postalCode: string,
    height: string,
    width: string,
    additionalReq: string)

  /** The quotation part of the page's state. */
  datatype Basket = Basket(cart: seq<Product>, formData: FormData, showPopup: bool, activeTab: nat, form: QuoteForm)

  /** `cart.find(item => item.id === productId)?.name || "Unknown"`. */
  function CartProductName(cart: seq<Product>, productId: Option<int>): (name: string)
    ensures name != ""
    ensures (exists i :: 0 <= i < |cart| && productId == Some(cart[i].id) && cart[i].name != "" &&
               name == cart[i].name) || name == "Unknown"
    ensures forall i :: (0 <= i < |cart| && productId == Some(cart[i].id) &&
                         forall j :: 0 <= j < i ==> productId != Some(cart[j].id)) ==>
              name == (if cart[i].name != "" then cart[i].name else "Unknown")
    ensures (forall i :: 0 <= i < |cart| ==> productId != Some(cart[i].id)) ==> name == "Unknown"
    decreases |cart|
  {
    if |cart| == 0 then "Unknown"
    else if productId == Some(cart[0].id) then (if cart[0].name != "" then cart[0].name else "Unknown")
    else
      var rest := CartProductName(cart[1..], productId);
      assert forall i :: 0 <= i < |cart[1..]| ==> cart[1..][i] == cart[i + 1];
      rest
  }

  /** A product added to a cart that lacked its id is the one the
      submission names, or "Unknown" when its name is empty. */
  lemma AddedProductIsNamed(cart: seq<Product>, p: Product)
    requires forall i :: 0 <= i < |cart| ==> cart[i].id != p.id
    ensures CartProductName(AddToCart(cart, p), Some(p.id)) == (if p.name != "" then p.name else "Unknown")
  {
    var added := AddToCart(cart, p);
    assert forall j :: 0 <= j < |cart| ==> added[j] == cart[j];
  }

  /** Adding a product does not change the name found for an id the cart
      already holds: the first entry with it still decides. */
  lemma {:induction false} AddKeepsFirstEntryName(cart: seq<Product>, p: Product, id: int)
    requires exists i :: 0 <= i < |cart| && cart[i].id == id
    ensures CartProductName(AddToCart(cart, p), Some(id)) == CartProductName(cart, Some(id))
    decreases |cart|
  {
    var added := AddToCart(cart, p);
    assert added[0] == cart[0];
    if cart[0].id != id {
      var i :| 0 <= i < |cart| && cart[i].id == id;
      assert cart[1..][i - 1] == cart[i];
      assert added[1..] == AddToCart(cart[1..], p);
      AddKeepsFirstEntryName(cart[1..], p, id);
    }
  }

  /** `auth.currentUser?.uid || "Anonymous"`. */
  function SubmitterId(uid: Option<string>): (r: string)
    ensures r != ""
    ensures uid.Some? && uid.value != "" ==> r == uid.value
    ensures uid.None? ==> r == "Anonymous"
  {
    if uid.Some? && uid.value != "" then uid.value else "Anonymous"
  }

  function QuotationFor(b: Basket, productId: Option<int>, uid: Option<string>, orderNumber: nat, isoNow: string): QuotationDoc {
    QuotationDoc(
      if b.form.clientName != "" then b.form.clientName else "Unknown",
      b.form.clientPhone, b.form.clientEmail, b.form.clientCity, b.form.postalCode,
      QuotedProduct(CartProductName(b.cart, productId), b.form.height, b.form.width, b.form.additionalReq, Some("Pending")),
      SubmitterId(uid), orderNumber, isoNow,
      None, None, None, None, None)
  }

  function SubmittedNotification(productName: string, userId: string, orderNumber: nat, now: int): NotificationDoc {
    NotificationDoc(
      userId,
      "Your Quotation #" + NatToString(orderNumber) + " for " + productName + " has been submitted to admin for review.",
      Some(now), ReadText("false"), "alert", Some(orderNumber))
  }

  /** What a submission did: the writes that took effect, the order number
      drawn and the page state it leaves. */
  datatype Submission = Submission(writes: seq<Write>, orderNumber: nat, basket: Basket)

  /** `handleSubmitProductForm(productId)`: draws the order number, writes
      the quotation under its decimal text, then the submission
      notification; only when both are accepted does it drop the product
      from the cart and the form data (and close the popup when the cart
      held a single item). */
  function SubmitProductForm(b: Basket, productId: Option<int>, uid: Option<string>, random: real,
                             now: int, isoNow: string, accepted: nat): (r: Submission)
    requires 0.0 <= random < 1.0
    ensures 100000 <= r.orderNumber <= 999999
    ensures |r.writes| == if accepted < 2 then accepted else 2
    ensures accepted >= 1 ==>
              var w := r.writes[0];
              && w.SetQuotation?
              && w.key == NatToString(r.orderNumber) && |w.key| == 6
              && w.quotation.orderNumber == r.orderNumber
              && w.quotation.product.status == Some("Pending")
              && w.quotation.status.None?
              && w.quotation.userId == SubmitterId(uid)
              && w.quotation.product.productName == CartProductName(b.cart, productId)
    ensures accepted >= 2 ==>
              r.writes[1].AddNotification? &&
              r.writes[1].notification.orderNumber == Some(r.orderNumber) &&
              r.writes[1].notification.userId == SubmitterId(uid)
    ensures accepted < 2 ==> r.basket == b
    ensures accepted >= 2 ==>
              && r.basket.form == b.form && r.basket.activeTab == b.activeTab
              && (forall i :: 0 <= i < |r.basket.cart| ==> Some(r.basket.cart[i].id) != productId && r.basket.cart[i] in b.cart)
              && (forall i :: 0 <= i < |b.cart| && Some(b.cart[i].id) != productId ==> b.cart[i] in r.basket.cart)
              && (productId.Some? ==> r.basket.formData.Keys == b.formData.Keys - {productId.value})
              && (forall k :: k in r.basket.formData ==> k in b.formData && r.basket.formData[k] == b.formData[k])
              && (productId.Some? ==> (r.basket.cart, r.basket.formData) == RemoveFromCart(b.cart, b.formData, productId.value))
              && (productId.None? ==> r.basket.cart == b.cart && r.basket.formData == b.formData)
              && r.basket.showPopup == (b.showPopup && |b.cart| != 1)
  {
    var orderNumber := SixDigit(random);
    SixDigitWidth(orderNumber);
    var doc := QuotationFor(b, productId, uid, orderNumber, isoNow);
    var plan := [SetQuotation(NatToString(orderNumber), doc),
                 AddNotification(SubmittedNotification(doc.product.productName, doc.userId, orderNumber, now))];
    if !Succeeds(plan, accepted) then Submission(Performed(plan, accepted), orderNumber, b)
    else
      var remaining := if productId.Some? then RemoveFromCart(b.cart, b.formData, productId.value) else (b.cart, b.formData);
      Submission(plan, orderNumber,
                 b.(cart := remaining.0, formData := remaining.1, showPopup := b.showPopup && |b.cart| != 1))
  }

  /** The Submit button sends the active tab's product, or nothing when the
      active tab is past the end of the cart. */
  function SubmitClicked(b: Basket, uid: Option<string>, random: real, now: int, isoNow: string, accepted: nat): (r: Submission)
    requires 0.0 <= random < 1.0
    ensures 100000 <= r.orderNumber <= 999999
    ensures |r.writes| == if accepted < 2 then accepted else 2
    ensures accepted >= 1 ==> r.writes[0].SetQuotation?
    ensures accepted >= 1 && b.activeTab >= |b.cart| ==>
              r.writes[0].quotation.product.productName == "Unknown"
  {
    var productId := if b.activeTab < |b.cart| then Some(b.cart[b.activeTab].id) else None;
    SubmitProductForm(b, productId, uid, random, now, isoNow, accepted)
  }

  /** Submitting the last tab's product leaves the active tab past the end
      of the cart, so the next submission files a quotation for "Unknown". */
  lemma StaleTabSubmitsUnknown(a: Product, c: Product, form: QuoteForm, random: real)
    requires 0.0 <= random < 1.0 && a.id != c.id
    ensures var b := Basket([a, c], map[], true, 1, form);
            var after := SubmitClicked(b, None, random, 0, "", 2).basket;
            after.cart == [a] &&
            SubmitClicked(after, None, random, 0, "", 2).writes[0].quotation.product.productName == "Unknown"
  {
    var b := Basket([a, c], map[], true, 1, form);
    assert b.cart[b.activeTab] == c;
    var after := SubmitClicked(b, None, random, 0, "", 2).basket;
    assert Filter([a, c], IdIsNot(c.id)) == [a] by {
      assert Filter([c], IdIsNot(c.id)) == [];
      assert [a, c][1..] == [c];
    }
    assert after.cart == [a];
  }
}

=== FILE: quotations.dfy ===
/** The administrator's quotation review page: loading, the three filters,
    the order-number search, pagination, the commission formula and the
    Approve / Reject decisions. */
module Quotations {
  import opened Optional
  import opened Text
  import opened Seqs
  import opened Store

  /** Quotations per page. */
  const PageSize: nat := 4

  /** A price or percentage as the page holds it: absent or emptied
      (`Blank`), typed into a number input (`Entered`: the text of a valid
      number, truthy even when it reads "0"), or loaded from the store as a
      number (`Saved`: falsy when 0). */
  datatype Amount = Blank | Entered(value: real) | Saved(value: real) {
    predicate Truthy() {
      match this
      case Blank => false
      case Entered(_) => true
      case Saved(v) => v != 0.0
    }
  }

  /** A quotation in the page's lists. */
  datatype Quotation = Quotation(
    id: string,
    orderNumber: nat,
    clientName: string,
    product: QuotedProduct,
    userId: string,
    status: Option<string>,
    paymentStatus: string,
    estimatePrice: Amount,
    commissionPercentage: Amount,
    commissionValue: Option<real>)

  function AmountOf(stored: Option<real>): Amount {
    if stored.Some? then Saved(stored.value) else Blank
  }

  /** One fetched document: the stored payment status wins when the field
      is present, otherwise "Pending". */
  function Load(id: string, d: QuotationDoc): (q: Quotation)
    ensures q.id == id && q.orderNumber == d.orderNumber && q.status == d.status
    ensures q.userId == d.userId && q.product == d.product
    ensures d.paymentStatus.Some? ==> q.paymentStatus == d.paymentStatus.value
    ensures d.paymentStatus.None? ==> q.paymentStatus == "Pending"
    ensures q.estimatePrice.Blank? <==> d.estimatePrice.None?
  {
    Quotation(id, d.orderNumber, d.clientName, d.product, d.userId, d.status,
              d.paymentStatus.GetOr("Pending"), AmountOf(d.estimatePrice),
              AmountOf(d.commissionPercentage), d.commissionValue)
  }

  function LoadAll(docs: seq<(string, QuotationDoc)>): (qs: seq<Quotation>)
    ensures |qs| == |docs|
    ensures forall i :: 0 <= i < |docs| ==> qs[i] == Load(docs[i].0, docs[i].1)
  {
    seq(|docs|, i requires 0 <= i < |docs| => Load(docs[i].0, docs[i].1))
  }

  // ---------------------------------------------------------------------
  // Filters and search

  function PaymentIs(f: string): Quotation -> bool {
    (q: Quotation) => q.paymentStatus == f
  }

  /** `quotation.status === f`: a quotation without a status never matches. */
  function StatusIs(f: string): Quotation -> bool {
    (q: Quotation) => q.status == Some(f)
  }

  /** `String(orderNumber).toLowerCase().includes(needle)`. */
  function OrderNumberHas(needle: string): Quotation -> bool {
    (q: Quotation) => Includes(Lower(NatToString(q.orderNumber)), needle)
  }

  /** A filter stage that is skipped when its field is empty. */
  function Stage(s: seq<Quotation>, field: string, p: Quotation -> bool): seq<Quotation> {
    if field != "" then Filter(s, p) else s
  }

  /** `applyFilters`: payment status, then status, then order-number search. */
  function ApplyFilters(all: seq<Quotation>, paymentFilter: string, statusFilter: string,
                        searchQuery: string): (r: seq<Quotation>)
    ensures forall i :: 0 <= i < |r| ==>
              r[i] in all && Passes(r[i], paymentFilter, statusFilter, searchQuery)
    ensures forall i :: 0 <= i < |all| && Passes(all[i], paymentFilter, statusFilter, searchQuery) ==>
              all[i] in r
  {
    var a := Stage(all, paymentFilter, PaymentIs(paymentFilter));
    var b := Stage(a, statusFilter, StatusIs(statusFilter));
    Stage(b, searchQuery, OrderNumberHas(Lower(searchQuery)))
  }

  /** A quotation satisfies every active filter; an empty field imposes
      nothing. */
  predicate Passes(q: Quotation, paymentFilter: string, statusFilter: string, searchQuery: string) {
    && (paymentFilter == "" || q.paymentStatus == paymentFilter)
    && (statusFilter == "" || q.status == Some(statusFilter))
    && (searchQuery == "" || IncludesIgnoringCase(NatToString(q.orderNumber), searchQuery))
  }

  function PassesAll(paymentFilter: string, statusFilter: string, searchQuery: string): Quotation -> bool {
    (q: Quotation) => Passes(q, paymentFilter, statusFilter, searchQuery)
  }

  function Guarded(field: string, p: Quotation -> bool): Quotation -> bool {
    (q: Quotation) => field == "" || p(q)
  }

  lemma StageIsFilter(s: seq<Quotation>, field: string, p: Quotation -> bool)
    ensures Stage(s, field, p) == Filter(s, Guarded(field, p))
  {
    if field == "" {
      FilterAllPass(s, Guarded(field, p));
    } else {
      FilterCongruent(s, p, Guarded(field, p));
    }
  }

  /** The three stages are one filter by "passes every active filter", so
      the result is exactly the passing quotations in their original order. */
  lemma ApplyFiltersIsOneFilter(all: seq<Quotation>, paymentFilter: string, statusFilter: string,
                                searchQuery: string)
    ensures ApplyFilters(all, paymentFilter, statusFilter, searchQuery) ==
            Filter(all, PassesAll(paymentFilter, statusFilter, searchQuery))
    ensures IsSubsequence(ApplyFilters(all, paymentFilter, statusFilter, searchQuery), all)
  {
    var g1 := Guarded(paymentFilter, PaymentIs(paymentFilter));
    var g2 := Guarded(statusFilter, StatusIs(statusFilter));
    var g3 := Guarded(searchQuery, OrderNumberHas(Lower(searchQuery)));
    var a := Stage(all, paymentFilter, PaymentIs(paymentFilter));
    var b := Stage(a, statusFilter, StatusIs(statusFilter));
    StageIsFilter(all, paymentFilter, PaymentIs(paymentFilter));
    StageIsFilter(a, statusFilter, StatusIs(statusFilter));
    StageIsFilter(b, searchQuery, OrderNumberHas(Lower(searchQuery)));
    FilterTwice(all, g1, g2);
    FilterTwice(all, Both(g1, g2), g3);
    var lowered := Lower(searchQuery);
    assert lowered == "" <==> searchQuery == "";
    FilterCongruent(all, Both(Both(g1, g2), g3), PassesAll(paymentFilter, statusFilter, searchQuery));
    FilterIsSubsequence(all, PassesAll(paymentFilter, statusFilter, searchQuery));
  }

  /** `handleSearch`: the typed text is lower-cased and matched against each
      order number; an empty query restores the full list. */
  function HandleSearch(all: seq<Quotation>, typed: string): (r: seq<Quotation>)
    ensures typed == "" ==> r == all
    ensures forall i :: 0 <= i < |r| ==>
              r[i] in all && IncludesIgnoringCase(NatToString(r[i].orderNumber), typed)
    ensures forall i :: 0 <= i < |all| && IncludesIgnoringCase(NatToString(all[i].orderNumber), typed) ==>
              all[i] in r
  {
    var query := Lower(typed);
    if query == "" then all else Filter(all, OrderNumberHas(query))
  }

  /** With no other filter set, the filter effect that follows the search
      (fed the lower-cased query) recomputes the same list. */
  lemma SearchAgreesWithFilters(all: seq<Quotation>, typed: string)
    ensures HandleSearch(all, typed) == ApplyFilters(all, "", "", Lower(typed))
  {
    LowerIdempotent(typed);
  }

  // ---------------------------------------------------------------------
  // Pagination

  /** The quotations shown on page `page`. */
  function CurrentQuotations(shown: seq<Quotation>, page: nat): (r: seq<Quotation>)
    requires page >= 1
    ensures |r| == if (page - 1) * PageSize >= |shown| then 0
                   else if |shown| - (page - 1) * PageSize < PageSize then |shown| - (page - 1) * PageSize
                   else PageSize
    ensures forall k :: 0 <= k < |r| ==>
              (page - 1) * PageSize + k < |shown| && r[k] == shown[(page - 1) * PageSize + k]
    ensures r == Slice(shown, (page - 1) * PageSize, page * PageSize)
  {
    PageIsSlice(shown, page, PageSize);
    Page(shown, page, PageSize)
  }

  function TotalPages(shown: seq<Quotation>): (n: nat)
    ensures n * PageSize >= |shown|
    ensures n == 0 || (n - 1) * PageSize < |shown|
  {
    PageCount(|shown|, PageSize)
  }

  // ---------------------------------------------------------------------
  // Commission and decisions

  /** `calculateCommission`: the percentage of the estimate. */
  function Commission(estimatePrice: real, commissionPercentage: real): (c: real)
    ensures c * 100.0 == estimatePrice * commissionPercentage
    ensures estimatePrice >= 0.0 && 0.0 <= commissionPercentage <= 100.0 ==> 0.0 <= c <= estimatePrice
  {
    (estimatePrice * commissionPercentage) / 100.0
  }

  lemma CommissionExample()
    ensures Commission(1000.0, 10.0) == 100.0
  {
  }

  /** Approve and Reject are offered only while the quotation is undecided. */
  predicate Offered(q: Quotation) {
    q.status != Some("Approved") && q.status != Some("Rejected")
  }

  /** The status text the card shows (`status || "Pending"`). */
  function DisplayedStatus(q: Quotation): string {
    if q.status.Some? && q.status.value != "" then q.status.value else "Pending"
  }

  /** A newly submitted quotation has no status: it reads "Pending" on its
      card, yet the "Pending" status filter does not select it. */
  lemma PendingFilterSkipsUndecided(q: Quotation)
    requires q.status.None?
    ensures DisplayedStatus(q) == "Pending" && Offered(q)
    ensures !Passes(q, "", "Pending", "")
  {
  }

  /** Why a review handler alerted. */
  datatype Alert = NoAlert | FillAllFields | StoreError

  /** What a review handler did: the writes that took effect, the list it
      leaves, and whether it replaced the list (`setQuotations`). */
  datatype Review = Review(writes: seq<Write>, quotations: seq<Quotation>, listUpdated: bool, alert: Alert)

  /** The guard of `handleApprove`: every input truthy. */
  predicate ApproveInputsPresent(estimatePrice: Amount, commissionPercentage: Amount, paymentStatus: string) {
    estimatePrice.Truthy() && commissionPercentage.Truthy() && paymentStatus != ""
  }

  function HasId(id: string): Quotation -> bool {
    (q: Quotation) => q.id == id
  }

  /** `quotations.find(q => q.id === id)`. */
  function FindById(qs: seq<Quotation>, id: string): (r: Option<Quotation>)
    ensures r.None? <==> forall i :: 0 <= i < |qs| ==> qs[i].id != id
    ensures r.Some? ==> exists i :: 0 <= i < |qs| && qs[i] == r.value && qs[i].id == id &&
                                    forall j :: 0 <= j < i ==> qs[j].id != id
    decreases |qs|
  {
    if |qs| == 0 then None
    else if qs[0].id == id then Some(qs[0])
    else
      var r := FindById(qs[1..], id);
      if r.Some? then
        ghost var i :| 0 <= i < |qs[1..]| && qs[1..][i] == r.value && qs[1..][i].id == id &&
                       forall j :: 0 <= j < i ==> qs[1..][j].id != id;
        assert qs[i + 1] == r.value;
        r
      else r
  }

  /** `product?.productName || "Unknown Product"`. */
  function ProductLabel(q: Quotation): string {
    if q.product.productName != "" then q.product.productName else "Unknown Product"
  }

  function ApprovalNotification(q: Quotation, now: int): NotificationDoc {
    NotificationDoc(
      q.userId,
      "Your Quotation #" + NatToString(q.orderNumber) + " for " + ProductLabel(q) + " has been approved.",
      Some(now), ReadText("false"), "alert", Some(q.orderNumber))
  }

  function WithApproval(q: Quotation, price: real, percentage: real, paymentStatus: string): Quotation {
    q.(status := Some("Approved"), estimatePrice := Saved(price), commissionPercentage := Saved(percentage),
       commissionValue := Some(Commission(price, percentage)), paymentStatus := paymentStatus)
  }

  function ApprovalOf(price: real, percentage: real, paymentStatus: string): Quotation -> Quotation {
    (q: Quotation) => WithApproval(q, price, percentage, paymentStatus)
  }

  /** `after` is `before` approved with these inputs, nothing else changed. */
  predicate ApprovedFrom(before: Quotation, after: Quotation, price: real, percentage: real, paymentStatus: string) {
    && after.status == Some("Approved")
    && after.estimatePrice == Saved(price)
    && after.commissionPercentage == Saved(percentage)
    && after.commissionValue.Some? && after.commissionValue.value * 100.0 == price * percentage
    && after.paymentStatus == paymentStatus
    && after.(status := before.status, estimatePrice := before.estimatePrice,
              commissionPercentage := before.commissionPercentage,
              commissionValue := before.commissionValue, paymentStatus := before.paymentStatus) == before
  }

  /** `handleApprove`. Missing inputs: an alert and nothing else. Otherwise
      the status write, then (the quotation looked up in the list) one
      approval notification to its owner, then the local update of every
      entry with that id; a rejected write or a failed lookup stops the
      handler with an alert and the list untouched. */
  function Approve(qs: seq<Quotation>, id: string, estimatePrice: Amount, commissionPercentage: Amount,
                   paymentStatus: string, now: int, accepted: nat): (r: Review)
    ensures !ApproveInputsPresent(estimatePrice, commissionPercentage, paymentStatus) ==>
              r == Review([], qs, false, FillAllFields)
    ensures ApproveInputsPresent(estimatePrice, commissionPercentage, paymentStatus) && accepted >= 1 ==>
              |r.writes| >= 1 &&
              r.writes[0].ApproveQuotation? && r.writes[0].id == id &&
              r.writes[0].estimatePrice == estimatePrice.value &&
              r.writes[0].commissionPercentage == commissionPercentage.value &&
              r.writes[0].commissionValue * 100.0 == estimatePrice.value * commissionPercentage.value &&
              r.writes[0].paymentStatus == paymentStatus
    ensures accepted == 0 ==> r.writes == []
    ensures |r.writes| <= 2
    ensures ApproveInputsPresent(estimatePrice, commissionPercentage, paymentStatus) ==>
              |r.writes| == if accepted == 0 then 0
                            else if accepted == 1 || (forall i :: 0 <= i < |qs| ==> qs[i].id != id) then 1
                            else 2
    ensures |r.writes| == 2 ==>
              && r.writes[1].AddNotification?
              && (exists i :: 0 <= i < |qs| && qs[i].id == id &&
                              (forall j :: 0 <= j < i ==> qs[j].id != id) &&
                              r.writes[1].notification.userId == qs[i].userId &&
                              r.writes[1].notification.orderNumber == Some(qs[i].orderNumber) &&
                              r.writes[1].notification.message ==
                                "Your Quotation #" + NatToString(qs[i].orderNumber) + " for " +
                                (if qs[i].product.productName != "" then qs[i].product.productName else "Unknown Product") +
                                " has been approved.")
              && r.writes[1].notification.createdAt == Some(now)
              && r.writes[1].notification.kind == "alert"
              && r.writes[1].notification.read == ReadText("false")
    ensures r.listUpdated <==>
              ApproveInputsPresent(estimatePrice, commissionPercentage, paymentStatus) && accepted >= 2 &&
              exists i :: 0 <= i < |qs| && qs[i].id == id
    ensures r.listUpdated <==> r.alert == NoAlert
    ensures !r.listUpdated ==> r.quotations == qs
    ensures |r.quotations| == |qs|
    ensures forall i :: 0 <= i < |qs| && qs[i].id != id ==> r.quotations[i] == qs[i]
    ensures r.listUpdated ==>
              forall i :: 0 <= i < |qs| && qs[i].id == id ==>
                ApprovedFrom(qs[i], r.quotations[i], estimatePrice.value, commissionPercentage.value, paymentStatus)
  {
    if !ApproveInputsPresent(estimatePrice, commissionPercentage, paymentStatus) then
      Review([], qs, false, FillAllFields)
    else
      var price, percentage := estimatePrice.value, commissionPercentage.value;
      var statusWrite := ApproveQuotation(id, price, percentage, Commission(price, percentage), paymentStatus);
      if accepted == 0 then Review([], qs, false, StoreError)
      else
        match FindById(qs, id)
        case None => Review([statusWrite], qs, false, StoreError)
        case Some(q) =>
          if accepted == 1 then Review([statusWrite], qs, false, StoreError)
          else
            Review([statusWrite, AddNotification(ApprovalNotification(q, now))],
                   MapWhere(qs, HasId(id), ApprovalOf(price, percentage, paymentStatus)), true, NoAlert)
  }

  /** `handleReject` as it is meant to work: the status write, then the
      local update of every entry with that id to "Rejected". */
  function Reject(qs: seq<Quotation>, id: string, accepted: nat): (r: Review)
    ensures accepted == 0 ==> r == Review([], qs, false, StoreError)
    ensures accepted >= 1 ==> r.writes == [RejectQuotation(id)] && r.listUpdated && r.alert == NoAlert
    ensures |r.quotations| == |qs|
    ensures forall i :: 0 <= i < |qs| && qs[i].id != id ==> r.quotations[i] == qs[i]
    ensures r.listUpdated ==>
              forall i :: 0 <= i < |qs| && qs[i].id == id ==> r.quotations[i] == qs[i].(status := Some("Rejected"))
  {
    if accepted == 0 then Review([], qs, false, StoreError)
    else Review([RejectQuotation(id)], MapWhere(qs, HasId(id), Rejection()), true, NoAlert)
  }

  function Rejection(): Quotation -> Quotation {
    (q: Quotation) => q.(status := Some("Rejected"))
  }

  /** `handleReject` as written: after the status write, building the
      rejection notification reads names that are not bound in the handler,
      so it throws; the catch alerts and the list is never updated. */
  function RejectAsWritten(qs: seq<Quotation>, id: string, accepted: nat): (r: Review)
    ensures r.writes == Performed([RejectQuotation(id)], accepted)
    ensures !r.listUpdated && r.quotations == qs && r.alert == StoreError
  {
    if accepted == 0 then Review([], qs, false, StoreError)
    else Review([RejectQuotation(id)], qs, false, StoreError)
  }

  /** As written, a rejection the store accepted leaves the quotation
      undecided on the page, still offering Approve and Reject. */
  lemma RejectAsWrittenLeavesQuotationOpen(qs: seq<Quotation>, i: nat, accepted: nat)
    requires i < |qs| && Offered(qs[i]) && accepted >= 1
    ensures RejectAsWritten(qs, qs[i].id, accepted).writes == [RejectQuotation(qs[i].id)]
    ensures Offered(RejectAsWritten(qs, qs[i].id, accepted).quotations[i])
    ensures !Offered(Reject(qs, qs[i].id, accepted).quotations[i])
  {
  }

  // ---------------------------------------------------------------------
  // The page state

  /** The page's state: the fetched list, the shown (filtered) list, the
      current page and the three filter fields. */
  datatype View = View(
    all: seq<Quotation>,
    shown: seq<Quotation>,
    page: nat,
    paymentFilter: string,
    statusFilter: string,
    searchQuery: string)

  /** After the fetch: both lists hold every document, page 1, no filter. */
  function Opened(docs: seq<(string, QuotationDoc)>): (v: View)
    ensures v.all == v.shown == LoadAll(docs) && v.page == 1
    ensures v.paymentFilter == v.statusFilter == v.searchQuery == ""
  {
    var qs := LoadAll(docs);
    View(qs, qs, 1, "", "", "")
  }

  /** The filter effect; any new list resets the page to 1. */
  function Refiltered(v: View): (r: View)
    ensures r.page == 1 && r.all == v.all
    ensures r.shown == ApplyFilters(v.all, v.paymentFilter, v.statusFilter, v.searchQuery)
  {
    v.(shown := ApplyFilters(v.all, v.paymentFilter, v.statusFilter, v.searchQuery), page := 1)
  }

  function SetPaymentFilter(v: View, f: string): View {
    Refiltered(v.(paymentFilter := f))
  }

  function SetStatusFilter(v: View, f: string): View {
    Refiltered(v.(statusFilter := f))
  }

  /** Typing in the search box: `handleSearch` stores the lower-cased query
      and its own list; when the stored query changed, the filter effect
      then recomputes the list with every filter. */
  function Search(v: View, typed: string): (r: View)
    ensures r.page == 1 && r.searchQuery == Lower(typed) && r.all == v.all
    ensures Lower(typed) != v.searchQuery ==>
              r.shown == ApplyFilters(v.all, v.paymentFilter, v.statusFilter, Lower(typed))
  {
    var query := Lower(typed);
    if query == v.searchQuery then v.(shown := HandleSearch(v.all, typed), page := 1)
    else Refiltered(v.(searchQuery := query))
  }

  /** What an input on a quotation card changes. */
  datatype Edit = EstimateTyped(amount: Amount) | PercentageTyped(amount: Amount) | PaymentChosen(status: string)

  function Edited(e: Edit): Quotation -> Quotation {
    (q: Quotation) => match e
         case EstimateTyped(a) => q.(estimatePrice := a)
         case PercentageTyped(a) => q.(commissionPercentage := a)
         case PaymentChosen(s) => q.(paymentStatus := s)
  }

  /** An input's `onChange`: only the shown list's entries with that id
      change, and only in the edited field. */
  function EditShown(v: View, id: string, e: Edit): (r: View)
    ensures r.page == 1 && r.all == v.all && |r.shown| == |v.shown|
    ensures forall i :: 0 <= i < |v.shown| && v.shown[i].id != id ==> r.shown[i] == v.shown[i]
    ensures forall i :: 0 <= i < |v.shown| && v.shown[i].id == id ==>
              r.shown[i].status == v.shown[i].status && r.shown[i].orderNumber == v.shown[i].orderNumber
    ensures forall i :: 0 <= i < |v.shown| && v.shown[i].id == id ==>
              && (e.EstimateTyped? ==> r.shown[i].estimatePrice == e.amount)
              && (e.PercentageTyped? ==> r.shown[i].commissionPercentage == e.amount)
              && (e.PaymentChosen? ==> r.shown[i].paymentStatus == e.status)
  {
    v.(shown := MapWhere(v.shown, HasId(id), Edited(e)), page := 1)
  }

  /** A handler's effect on the page: the new state, the writes that took
      effect, and the alert. */
  datatype Step = Step(view: View, writes: seq<Write>, alert: Alert)

  /** Approving from the page as written: only the shown list learns of the
      decision; the fetched list keeps the undecided quotation. */
  function ApproveStepAsWritten(v: View, id: string, estimatePrice: Amount, commissionPercentage: Amount,
                                paymentStatus: string, now: int, accepted: nat): (s: Step)
    ensures s.view.all == v.all
  {
    var r := Approve(v.shown, id, estimatePrice, commissionPercentage, paymentStatus, now, accepted);
    Step(if r.listUpdated then v.(shown := r.quotations, page := 1) else v, r.writes, r.alert)
  }

  /** Approving from the page: the decision reaches the shown list and the
      fetched list alike, so later filtering cannot undo it. */
  function ApproveStep(v: View, id: string, estimatePrice: Amount, commissionPercentage: Amount,
                       paymentStatus: string, now: int, accepted: nat): (s: Step)
    ensures var r := Approve(v.shown, id, estimatePrice, commissionPercentage, paymentStatus, now, accepted);
            s.writes == r.writes && s.alert == r.alert &&
            (r.listUpdated ==> s.view.shown == r.quotations && s.view.page == 1) &&
            (!r.listUpdated ==> s.view == v)
    ensures |s.view.all| == |v.all|
    ensures forall i :: 0 <= i < |v.all| && v.all[i].id != id ==> s.view.all[i] == v.all[i]
    ensures s.view != v ==>
              forall i :: 0 <= i < |v.all| && v.all[i].id == id ==>
                ApprovedFrom(v.all[i], s.view.all[i], estimatePrice.value, commissionPercentage.value, paymentStatus)
  {
    var r := Approve(v.shown, id, estimatePrice, commissionPercentage, paymentStatus, now, accepted);
    if r.listUpdated then
      var f := ApprovalOf(estimatePrice.value, commissionPercentage.value, paymentStatus);
      Step(v.(shown := r.quotations, all := MapWhere(v.all, HasId(id), f), page := 1), r.writes, r.alert)
    else Step(v, r.writes, r.alert)
  }

  /** Rejecting from the page: the decision reaches both lists. */
  function RejectStep(v: View, id: string, accepted: nat): (s: Step)
    ensures accepted == 0 ==> s == Step(v, [], StoreError)
    ensures accepted >= 1 ==> s.writes == [RejectQuotation(id)] && s.view.page == 1
    ensures |s.view.all| == |v.all| && |s.view.shown| == |v.shown|
    ensures forall i :: 0 <= i < |v.all| && v.all[i].id != id ==> s.view.all[i] == v.all[i]
    ensures accepted >= 1 ==>
              forall i :: 0 <= i < |v.all| && v.all[i].id == id ==> s.view.all[i] == v.all[i].(status := Some("Rejected"))
  {
    var r := Reject(v.shown, id, accepted);
    if r.listUpdated then
      Step(v.(shown := r.quotations, all := MapWhere(v.all, HasId(id), Rejection()), page := 1), r.writes, r.alert)
    else Step(v, r.writes, r.alert)
  }

  /** The Approve button of a card: rendered only while the quotation is
      undecided, and fed the card's own inputs. */
  function ClickApprove(v: View, q: Quotation, now: int, accepted: nat): (s: Step)
    ensures !Offered(q) ==> s == Step(v, [], NoAlert)
    ensures Offered(q) ==>
              (s.writes != [] <==> ApproveInputsPresent(q.estimatePrice, q.commissionPercentage, q.paymentStatus) && accepted >= 1)
    ensures s.writes != [] ==> s.writes[0].ApproveQuotation? && s.writes[0].id == q.id
  {
    if Offered(q) then ApproveStep(v, q.id, q.estimatePrice, q.commissionPercentage, q.paymentStatus, now, accepted)
    else Step(v, [], NoAlert)
  }

  /** The Reject button of a card, rendered only while undecided. */
  function ClickReject(v: View, q: Quotation, accepted: nat): (s: Step)
    ensures !Offered(q) ==> s == Step(v, [], NoAlert)
    ensures Offered(q) && accepted >= 1 ==> s.writes == [RejectQuotation(q.id)]
    ensures accepted == 0 ==> s.view == v && s.writes == []
  {
    if Offered(q) then RejectStep(v, q.id, accepted) else Step(v, [], NoAlert)
  }

  /** Once approved from the page, a quotation shows as decided under every
      later choice of filters, so its buttons never come back. */
  lemma ApprovalSurvivesRefiltering(v: View, id: string, estimatePrice: Amount, commissionPercentage: Amount,
                                    paymentStatus: string, now: int, accepted: nat,
                                    paymentFilter: string, statusFilter: string, searchQuery: string)
    requires ApproveStep(v, id, estimatePrice, commissionPercentage, paymentStatus, now, accepted).view != v
    ensures var w := ApproveStep(v, id, estimatePrice, commissionPercentage, paymentStatus, now, accepted).view;
            var shown := ApplyFilters(w.all, paymentFilter, statusFilter, searchQuery);
            forall k :: 0 <= k < |shown| && shown[k].id == id ==> !Offered(shown[k])
  {
    var w := ApproveStep(v, id, estimatePrice, commissionPercentage, paymentStatus, now, accepted).view;
    var shown := ApplyFilters(w.all, paymentFilter, statusFilter, searchQuery);
    forall k | 0 <= k < |shown| && shown[k].id == id
      ensures !Offered(shown[k])
    {
      assert shown[k] in w.all;
      var i :| 0 <= i < |w.all| && w.all[i] == shown[k];
      assert ApprovedFrom(v.all[i], w.all[i], estimatePrice.value, commissionPercentage.value, paymentStatus);
    }
  }

  /** A single undecided quotation with both amounts typed in. */
  function SampleQuotation(): Quotation {
    Quotation("123456", 123456, "Client", QuotedProduct("Awning-X", "10", "5", "", Some("Pending")),
              "dealer-1", None, "Pending", Entered(1000.0), Entered(10.0), None)
  }

  /** As written, approving and then choosing the "Pending" payment filter
      brings the quotation back undecided, with Approve and Reject offered
      again. */
  lemma ApprovalLostOnRefilterAsWritten()
    ensures var q := SampleQuotation();
            var v := View([q], [q], 1, "", "", "");
            var s := ApproveStepAsWritten(v, q.id, q.estimatePrice, q.commissionPercentage, q.paymentStatus, 0, 2);
            var w := SetPaymentFilter(s.view, "Pending");
            s.alert == NoAlert && !Offered(s.view.shown[0]) &&
            w.shown == [q] && Offered(w.shown[0])
  {
    var q := SampleQuotation();
    var v := View([q], [q], 1, "", "", "");
    assert FindById([q], q.id) == Some(q);
    var s := ApproveStepAsWritten(v, q.id, q.estimatePrice, q.commissionPercentage, q.paymentStatus, 0, 2);
    assert s.view.shown[0] == WithApproval(q, 1000.0, 10.0, "Pending");
    var w := SetPaymentFilter(s.view, "Pending");
    assert Filter([q], PaymentIs("Pending")) == [q];
  }
}

=== FILE: reward_page.dfy ===
/** The rewards page: the signed-in user's rewards, sorted on a copy by
    date (newest first) or by status, filtered by a case-insensitive
    message search, and the loading / error / empty / list choice. */
module RewardPage {
  import opened Optional
  import opened Text
  import opened Seqs
  import opened Store

  const LoadFailed: string := "Failed to load rewards. Please try again."

  /** The page's state. */
  datatype Page = Page(
    rewards: seq<RewardDoc>,
    loading: bool,
    error: Option<string>,
    searchTerm: string,
    sortOption: string)

  /** The state on mount: loading, nothing fetched, sorted by date. */
  function Initial(): (p: Page)
    ensures p.loading && p.rewards == [] && p.error == None
    ensures p.searchTerm == "" && p.sortOption == "date"
  {
    Page([], true, None, "", "date")
  }

  function OwnedBy(uid: string): RewardDoc -> bool {
    (d: RewardDoc) => d.userId == uid
  }

  /** One fetch. `uid` is the signed-in user's id (absent when nobody is
      signed in), `collection` the `Rewards` documents in the order the
      query returns them, `queryFails` whether the query is rejected.
      Without a user the thrown error is caught like a failed query. */
  function Fetch(p: Page, uid: Option<string>, collection: seq<RewardDoc>, queryFails: bool): (r: Page)
    ensures !r.loading
    ensures r.searchTerm == p.searchTerm && r.sortOption == p.sortOption
    ensures r.error == None <==> uid.Some? && uid.value != "" && !queryFails
    ensures r.error != None ==> r.error == Some(LoadFailed) && r.rewards == p.rewards
    ensures r.error == None ==>
      && IsSubsequence(r.rewards, collection)
      && (forall i :: 0 <= i < |r.rewards| ==> r.rewards[i].userId == uid.value)
      && (forall i :: 0 <= i < |collection| && collection[i].userId == uid.value ==> collection[i] in r.rewards)
  {
    if uid.None? || uid.value == "" || queryFails then
      p.(loading := false, error := Some(LoadFailed))
    else
      FilterIsSubsequence(collection, OwnedBy(uid.value));
      p.(loading := false, error := None, rewards := Filter(collection, OwnedBy(uid.value)))
  }

  /** `a` before `b` under `localeCompare`, taken as the code-unit
      dictionary order: a proper prefix comes first, otherwise the first
      differing character decides. */
  predicate LexLess(a: string, b: string)
    decreases |a|
  {
    if |a| == 0 then |b| > 0
    else if |b| == 0 then false
    else if a[0] != b[0] then a[0] < b[0]
    else LexLess(a[1..], b[1..])
  }

  lemma {:induction false} LexAsymmetric(a: string, b: string)
    ensures LexLess(a, b) ==> !LexLess(b, a)
    decreases |a|
  {
    if |a| > 0 && |b| > 0 && a[0] == b[0] {
      LexAsymmetric(a[1..], b[1..]);
    }
  }

  lemma {:induction false} LexTotal(a: string, b: string)
    ensures a != b ==> LexLess(a, b) || LexLess(b, a)
    decreases |a|
  {
    if |a| > 0 && |b| > 0 && a[0] == b[0] {
      LexTotal(a[1..], b[1..]);
      if a != b {
        assert a == [a[0]] + a[1..] && b == [b[0]] + b[1..];
      }
    }
  }

  lemma {:induction false} LexTransitive(a: string, b: string, c: string)
    ensures LexLess(a, b) && LexLess(b, c) ==> LexLess(a, c)
    decreases |a|
  {
    if |a| > 0 && |b| > 0 && |c| > 0 && a[0] == b[0] && b[0] == c[0] {
      LexTransitive(a[1..], b[1..], c[1..]);
    }
  }

  /** The comparators' "strictly ahead" relations. */
  function NewerReward(): (RewardDoc, RewardDoc) -> bool {
    (a: RewardDoc, b: RewardDoc) => a.createdAtSeconds > b.createdAtSeconds
  }

  function StatusBefore(): (RewardDoc, RewardDoc) -> bool {
    (a: RewardDoc, b: RewardDoc) => LexLess(a.status, b.status)
  }

  /** Any other option: the comparator returns 0 for every pair. */
  function NeverBefore(): (RewardDoc, RewardDoc) -> bool {
    (a: RewardDoc, b: RewardDoc) => false
  }

  function Comparator(sortOption: string): (RewardDoc, RewardDoc) -> bool {
    if sortOption == "date" then NewerReward()
    else if sortOption == "status" then StatusBefore()
    else NeverBefore()
  }

  /** The list as displayed before searching: a sorted copy. */
  function SortedRewards(rewards: seq<RewardDoc>, sortOption: string): (r: seq<RewardDoc>)
    ensures multiset(r) == multiset(rewards)
  {
    SortBy(rewards, Comparator(sortOption))
  }

  lemma NewerRewardIsStrictWeakOrder()
    ensures StrictWeakOrder(NewerReward())
  {
  }

  lemma {:induction false} StatusBeforeIsStrictWeakOrder()
    ensures StrictWeakOrder(StatusBefore())
  {
    forall a: RewardDoc, b: RewardDoc
      ensures StatusBefore()(a, b) ==> !StatusBefore()(b, a)
    {
      LexAsymmetric(a.status, b.status);
    }
    forall a: RewardDoc, b: RewardDoc, c: RewardDoc
      ensures !StatusBefore()(a, b) && !StatusBefore()(b, c) ==> !StatusBefore()(a, c)
    {
      LexTotal(a.status, b.status);
      LexTotal(b.status, c.status);
      LexTransitive(c.status, b.status, a.status);
    }
  }

  /** Sorting by date puts the newest rewards first. */
  lemma {:induction false} DateSortNewestFirst(rewards: seq<RewardDoc>)
    ensures forall i, j :: 0 <= i < j < |SortedRewards(rewards, "date")| ==>
      SortedRewards(rewards, "date")[i].createdAtSeconds >= SortedRewards(rewards, "date")[j].createdAtSeconds
  {
    NewerRewardIsStrictWeakOrder();
    SortBySorted(rewards, NewerReward());
  }

  /** Sorting by status puts the statuses in dictionary order. */
  lemma {:induction false} StatusSortInOrder(rewards: seq<RewardDoc>)
    ensures forall i, j :: 0 <= i < j < |SortedRewards(rewards, "status")| ==>
      !LexLess(SortedRewards(rewards, "status")[j].status, SortedRewards(rewards, "status")[i].status)
  {
    StatusBeforeIsStrictWeakOrder();
    SortBySorted(rewards, StatusBefore());
  }

  /** Any other option leaves the fetched order alone. */
  lemma {:induction false} OtherOptionKeepsOrder(rewards: seq<RewardDoc>, sortOption: string)
    requires sortOption != "date" && sortOption != "status"
    ensures SortedRewards(rewards, sortOption) == rewards
  {
    SortByUnordered(rewards, NeverBefore());
  }

  function MessageMatches(searchTerm: string): RewardDoc -> bool {
    (d: RewardDoc) => IncludesIgnoringCase(d.message, searchTerm)
  }

  /** The rewards shown: the sorted list, keeping those whose message
      contains the search term in any letter case. */
  function FilteredRewards(sorted: seq<RewardDoc>, searchTerm: string): (r: seq<RewardDoc>)
    ensures IsSubsequence(r, sorted)
    ensures forall i :: 0 <= i < |r| ==> IncludesIgnoringCase(r[i].message, searchTerm)
    ensures forall d :: d in sorted && IncludesIgnoringCase(d.message, searchTerm) ==> d in r
  {
    FilterIsSubsequence(sorted, MessageMatches(searchTerm));
    Filter(sorted, MessageMatches(searchTerm))
  }

  /** An empty search term shows every reward. */
  lemma EmptySearchShowsAll(sorted: seq<RewardDoc>)
    ensures FilteredRewards(sorted, "") == sorted
  {
    forall i | 0 <= i < |sorted|
      ensures MessageMatches("")(sorted[i])
    {
      IncludesEmpty(Lower(sorted[i].message));
    }
    FilterAllPass(sorted, MessageMatches(""));
  }

  /** What the page body shows. */
  datatype View = Loading | ErrorMessage(text: string) | EmptyState | List(items: seq<RewardDoc>)

  function Render(p: Page): (v: View)
    ensures v == Loading <==> p.loading
    ensures v.ErrorMessage? <==> !p.loading && p.error.Some?
    ensures v == EmptyState <==>
      !p.loading && p.error.None? && |FilteredRewards(SortedRewards(p.rewards, p.sortOption), p.searchTerm)| == 0
    ensures v.List? ==> |v.items| > 0 && multiset(v.items) <= multiset(p.rewards)
    ensures v.List? ==> v.items == FilteredRewards(SortedRewards(p.rewards, p.sortOption), p.searchTerm)
  {
    var shown := FilteredRewards(SortedRewards(p.rewards, p.sortOption), p.searchTerm);
    if p.loading then Loading
    else if p.error.Some? then ErrorMessage(p.error.value)
    else if |shown| == 0 then EmptyState
    else
      FilterSubMultiset(SortedRewards(p.rewards, p.sortOption), MessageMatches(p.searchTerm));
      List(shown)
  }

  /** The sort option never decides whether the empty state shows: the
      search keeps the same rewards under every order. */
  lemma {:induction false} SortDoesNotChangeWhatIsFound(rewards: seq<RewardDoc>, searchTerm: string, option: string)
    ensures multiset(FilteredRewards(SortedRewards(rewards, option), searchTerm))
         == multiset(Filter(rewards, MessageMatches(searchTerm)))
    ensures |FilteredRewards(SortedRewards(rewards, option), searchTerm)|
         == |Filter(rewards, MessageMatches(searchTerm))|
  {
    FilterSortBy(rewards, Comparator(option), MessageMatches(searchTerm));
  }

  lemma {:induction false} EmptyStateIgnoresSortOption(p: Page, option: string)
    ensures (Render(p) == EmptyState) == (Render(p.(sortOption := option)) == EmptyState)
  {
    SortDoesNotChangeWhatIsFound(p.rewards, p.searchTerm, p.sortOption);
    SortDoesNotChangeWhatIsFound(p.rewards, p.searchTerm, option);
  }
}

=== FILE: seqs.dfy ===
/** Sequence operations the pages use on their in-memory lists:
    `Array.prototype.filter`, `slice`-based pagination with `Math.ceil`
    page counts, per-id `map` updates, and the stable `sort`. */
module Seqs {

  /** `s.filter(p)`. */
  function Filter<T>(s: seq<T>, p: T -> bool): (r: seq<T>)
    ensures |r| <= |s|
    ensures forall i :: 0 <= i < |r| ==> p(r[i]) && r[i] in s
    ensures forall i :: 0 <= i < |s| && p(s[i]) ==> s[i] in r
    decreases |s|
  {
    if |s| == 0 then []
    else if p(s[0]) then [s[0]] + Filter(s[1..], p)
    else Filter(s[1..], p)
  }

  function Both<T>(p: T -> bool, q: T -> bool): T -> bool {
    x => p(x) && q(x)
  }

  function Not<T>(p: T -> bool): T -> bool {
    x => !p(x)
  }

  function Either<T>(p: T -> bool, q: T -> bool): T -> bool {
    x => p(x) || q(x)
  }

  /** `r` is `s` with some elements dropped, the rest kept in order. */
  predicate IsSubsequence<T(==)>(r: seq<T>, s: seq<T>)
    decreases |s|
  {
    if |r| == 0 then true
    else if |s| == 0 then false
    else if r[0] == s[0] then IsSubsequence(r[1..], s[1..])
    else IsSubsequence(r, s[1..])
  }

  /** Every sequence is a subsequence of itself. */
  lemma {:induction false} SubsequenceReflexive<T>(s: seq<T>)
    ensures IsSubsequence(s, s)
    decreases |s|
  {
    if |s| > 0 {
      SubsequenceReflexive(s[1..]);
    }
  }

  /** Filtering keeps the surviving elements in their original order. */
  lemma {:induction false} FilterIsSubsequence<T>(s: seq<T>, p: T -> bool)
    ensures IsSubsequence(Filter(s, p), s)
    decreases |s|
  {
    if |s| > 0 {
      FilterIsSubsequence(s[1..], p);
    }
  }

  /** Filtering distributes over concatenation: elements are neither
      reordered nor moved across the cut. */
  lemma {:induction false} FilterConcat<T>(a: seq<T>, b: seq<T>, p: T -> bool)
    ensures Filter(a + b, p) == Filter(a, p) + Filter(b, p)
    decreases |a|
  {
    if |a| > 0 {
      assert (a + b)[1..] == a[1..] + b;
      FilterConcat(a[1..], b, p);
    } else {
      assert a + b == b;
    }
  }

  /** Two filters in a row are one filter by the conjunction. */
  lemma {:induction false} FilterTwice<T>(s: seq<T>, p: T -> bool, q: T -> bool)
    ensures Filter(Filter(s, p), q) == Filter(s, Both(p, q))
    decreases |s|
  {
    if |s| > 0 {
      FilterTwice(s[1..], p, q);
    }
  }

  /** A filter every element passes returns the list itself. */
  lemma {:induction false} FilterAllPass<T>(s: seq<T>, p: T -> bool)
    requires forall i :: 0 <= i < |s| ==> p(s[i])
    ensures Filter(s, p) == s
    decreases |s|
  {
    if |s| > 0 {
      FilterAllPass(s[1..], p);
    }
  }

  /** Filters that agree on the list's elements give the same result. */
  lemma {:induction false} FilterCongruent<T>(s: seq<T>, p: T -> bool, q: T -> bool)
    requires forall i :: 0 <= i < |s| ==> p(s[i]) == q(s[i])
    ensures Filter(s, p) == Filter(s, q)
    decreases |s|
  {
    if |s| > 0 {
      FilterCongruent(s[1..], p, q);
    }
  }

  /** The elements a filter keeps and those it drops add up to the list. */
  lemma {:induction false} FilterSplitsCount<T>(s: seq<T>, p: T -> bool)
    ensures |Filter(s, p)| + |Filter(s, Not(p))| == |s|
    decreases |s|
  {
    if |s| > 0 {
      FilterSplitsCount(s[1..], p);
    }
  }

  /** The number of elements of `s` satisfying `p`. */
  function Count<T>(s: seq<T>, p: T -> bool): nat {
    |Filter(s, p)|
  }

  /** The positions of `s` holding an element that satisfies `p`. */
  function Positions<T>(s: seq<T>, p: T -> bool): set<int> {
    set i | 0 <= i < |s| && p(s[i])
  }

  /** Appending an element adds its position exactly when it satisfies `p`. */
  lemma PositionsSnoc<T>(init: seq<T>, x: T, p: T -> bool)
    ensures Positions(init + [x], p) == Positions(init, p) + (if p(x) then {|init|} else {})
  {
    var s := init + [x];
    assert forall i :: 0 <= i < |init| ==> s[i] == init[i];
    assert s[|init|] == x;
  }

  /** The count is the number of positions holding an element that
      satisfies `p`. */
  lemma {:induction false} CountIsIndexCount<T>(s: seq<T>, p: T -> bool)
    ensures Count(s, p) == |Positions(s, p)|
    decreases |s|
  {
    if |s| == 0 {
      assert Positions(s, p) == {};
    } else {
      var init, x := s[..|s| - 1], s[|s| - 1];
      assert s == init + [x];
      CountIsIndexCount(init, p);
      FilterConcat(init, [x], p);
      PositionsSnoc(init, x, p);
      assert |init| !in Positions(init, p);
    }
  }

  /** A filter keeps every copy of an element it accepts and none of one
      it rejects. */
  lemma {:induction false} FilterMultiplicity<T>(s: seq<T>, p: T -> bool, x: T)
    ensures multiset(Filter(s, p))[x] == if p(x) then multiset(s)[x] else 0
    decreases |s|
  {
    if |s| > 0 {
      FilterMultiplicity(s[1..], p, x);
      assert s == [s[0]] + s[1..];
    }
  }

  /** Elements satisfying a stronger predicate are never more numerous. */
  lemma {:induction false} CountMonotone<T>(s: seq<T>, p: T -> bool, q: T -> bool)
    requires forall i :: 0 <= i < |s| ==> p(s[i]) ==> q(s[i])
    ensures Count(s, p) <= Count(s, q)
    decreases |s|
  {
    if |s| > 0 {
      CountMonotone(s[1..], p, q);
    }
  }

  /** Elements of two disjoint kinds add up to those of either kind, so
      never to more than the whole list. */
  lemma {:induction false} CountDisjoint<T>(s: seq<T>, p: T -> bool, q: T -> bool)
    requires forall i :: 0 <= i < |s| ==> !(p(s[i]) && q(s[i]))
    ensures Count(s, p) + Count(s, q) == Count(s, Either(p, q))
    ensures Count(s, p) + Count(s, q) <= |s|
    decreases |s|
  {
    if |s| > 0 {
      CountDisjoint(s[1..], p, q);
    }
  }

  /** `s.map(x => hit(x) ? f(x) : x)`: the update-one-record idiom. */
  function MapWhere<T>(s: seq<T>, hit: T -> bool, f: T -> T): (r: seq<T>)
    ensures |r| == |s|
    ensures forall i :: 0 <= i < |s| ==> r[i] == (if hit(s[i]) then f(s[i]) else s[i])
  {
    seq(|s|, i requires 0 <= i < |s| => if hit(s[i]) then f(s[i]) else s[i])
  }

  /** Page `page` (1-based) of `size` elements: `s.slice((page - 1) * size, page * size)`. */
  function Page<T>(s: seq<T>, page: nat, size: nat): (r: seq<T>)
    requires page >= 1 && size >= 1
    ensures |r| <= size
    ensures forall k :: 0 <= k < |r| ==>
              (page - 1) * size + k < |s| && r[k] == s[(page - 1) * size + k]
    ensures |r| == if (page - 1) * size >= |s| then 0
                   else if |s| - (page - 1) * size < size then |s| - (page - 1) * size
                   else size
  {
    var start := (page - 1) * size;
    if start >= |s| then []
    else if start + size <= |s| then s[start..start + size]
    else s[start..]
  }

  /** `s.slice(begin, end)` for non-negative bounds, as section 23.1.3.28
      of ECMAScript 2024 defines it: both bounds are clamped to the
      length, and an end at or before the start gives nothing. */
  function Slice<T>(s: seq<T>, begin: nat, end: nat): seq<T> {
    var from := if begin < |s| then begin else |s|;
    var to := if end < |s| then end else |s|;
    if to <= from then [] else s[from..to]
  }

  /** A page is the slice from its first index to the next page's first. */
  lemma PageIsSlice<T>(s: seq<T>, page: nat, size: nat)
    requires page >= 1 && size >= 1
    ensures Page(s, page, size) == Slice(s, (page - 1) * size, page * size)
  {
  }

  /** `Math.ceil(n / size)`: the least number of pages that hold `n` items. */
  function PageCount(n: nat, size: nat): (r: nat)
    requires size >= 1
    ensures r * size >= n
    ensures r == 0 || (r - 1) * size < n
  {
    var q := (n + size - 1) / size;
    var m := (n + size - 1) % size;
    assert q * size + m == n + size - 1;
    assert (q - 1) * size == q * size - size;
    q
  }

  /** Every element lies on exactly the page its index says, and that page
      exists. */
  lemma ElementOnItsPage<T>(s: seq<T>, size: nat, i: nat)
    requires size >= 1 && i < |s|
    ensures 1 <= i / size + 1 <= PageCount(|s|, size)
    ensures var page := Page(s, i / size + 1, size);
            i % size < |page| && page[i % size] == s[i]
  {
    var q, m := i / size, i % size;
    assert q * size + m == i;
    var c := PageCount(|s|, size);
    if q + 1 > c {
      assert q >= c;
      MulMonotone(c, q, size);
      assert false;
    }
    var page := Page(s, q + 1, size);
    assert (q + 1 - 1) * size == q * size;
  }

  lemma MulMonotone(a: nat, b: nat, k: nat)
    requires a <= b
    ensures a * k <= b * k
  {
  }

  /** Pages past the last one are empty; pages up to it are not. */
  lemma PageEmptyIffPastEnd<T>(s: seq<T>, page: nat, size: nat)
    requires page >= 1 && size >= 1
    ensures Page(s, page, size) == [] <==> page > PageCount(|s|, size)
  {
    var c := PageCount(|s|, size);
    if page > c {
      MulMonotone(c, page - 1, size);
    } else {
      MulMonotone(page - 1, c - 1, size);
    }
  }

  /** `x` may be placed ahead of `y` only when `y` does not strictly precede it. */
  function Insert<T>(x: T, ys: seq<T>, before: (T, T) -> bool): (r: seq<T>)
    ensures |r| == |ys| + 1
    ensures multiset(r) == multiset(ys) + multiset{x}
    decreases |ys|
  {
    if |ys| == 0 || !before(ys[0], x) then [x] + ys
    else
      assert ys == [ys[0]] + ys[1..];
      [ys[0]] + Insert(x, ys[1..], before)
  }

  /** A stable sort: `before(a, b)` means `a` must come strictly ahead of
      `b` (the comparator is negative for `(a, b)`). Elements neither of
      which must precede the other keep their input order. */
  function SortBy<T>(s: seq<T>, before: (T, T) -> bool): (r: seq<T>)
    ensures |r| == |s|
    ensures multiset(r) == multiset(s)
    decreases |s|
  {
    if |s| == 0 then []
    else
      assert s == [s[0]] + s[1..];
      Insert(s[0], SortBy(s[1..], before), before)
  }

  /** No element is strictly preceded by a later one. */
  ghost predicate SortedBy<T>(s: seq<T>, before: (T, T) -> bool) {
    forall i, j :: 0 <= i < j < |s| ==> !before(s[j], s[i])
  }

  /** `before` is a strict weak order: asymmetric, and "not before" is transitive. */
  ghost predicate StrictWeakOrder<T(!new)>(before: (T, T) -> bool) {
    && (forall a, b :: before(a, b) ==> !before(b, a))
    && (forall a, b, c :: !before(a, b) && !before(b, c) ==> !before(a, c))
  }

  lemma {:induction false} InsertSorted<T(!new)>(x: T, ys: seq<T>, before: (T, T) -> bool)
    requires StrictWeakOrder(before)
    requires SortedBy(ys, before)
    ensures SortedBy(Insert(x, ys, before), before)
    decreases |ys|
  {
    if |ys| == 0 || !before(ys[0], x) {
      var r := [x] + ys;
      forall i, j | 0 <= i < j < |r|
        ensures !before(r[j], r[i])
      {
        if i == 0 {
          if j > 1 {
            assert !before(ys[j - 1], ys[0]);
          }
        }
      }
    } else {
      InsertSorted(x, ys[1..], before);
      var tail := Insert(x, ys[1..], before);
      var r := [ys[0]] + tail;
      forall i, j | 0 <= i < j < |r|
        ensures !before(r[j], r[i])
      {
        if i == 0 {
          var e := tail[j - 1];
          assert e in multiset(tail);
          assert e in multiset(ys[1..]) + multiset{x};
          if e != x {
            assert e in ys[1..];
            var k :| 0 <= k < |ys[1..]| && ys[1..][k] == e;
            assert ys[k + 1] == e;
          }
        }
      }
    }
  }

  /** The sort orders its result. */
  lemma {:induction false} SortBySorted<T(!new)>(s: seq<T>, before: (T, T) -> bool)
    requires StrictWeakOrder(before)
    ensures SortedBy(SortBy(s, before), before)
    decreases |s|
  {
    if |s| > 0 {
      SortBySorted(s[1..], before);
      InsertSorted(s[0], SortBy(s[1..], before), before);
    }
  }

  /** When no element must precede another, the sort keeps the input order. */
  lemma {:induction false} SortByUnordered<T>(s: seq<T>, before: (T, T) -> bool)
    requires forall i, j :: 0 <= i < |s| && 0 <= j < |s| ==> !before(s[i], s[j])
    ensures SortBy(s, before) == s
    decreases |s|
  {
    if |s| > 0 {
      SortByUnordered(s[1..], before);
      assert s == [s[0]] + s[1..];
      if |s| > 1 {
        assert !before(s[1], s[0]);
      }
    }
  }

  /** Inserting and then filtering keeps the same elements as filtering
      the list with the new element in front. */
  lemma {:induction false} FilterInsert<T>(x: T, ys: seq<T>, before: (T, T) -> bool, p: T -> bool)
    ensures multiset(Filter(Insert(x, ys, before), p)) == multiset(Filter([x] + ys, p))
    decreases |ys|
  {
    if |ys| > 0 && before(ys[0], x) {
      FilterInsert(x, ys[1..], before, p);
      assert Insert(x, ys, before) == [ys[0]] + Insert(x, ys[1..], before);
      FilterConcat([ys[0]], Insert(x, ys[1..], before), p);
      FilterConcat([x], ys[1..], p);
      FilterConcat([x], ys, p);
      assert ys == [ys[0]] + ys[1..];
      FilterConcat([ys[0]], ys[1..], p);
    }
  }

  /** Sorting does not change which elements a filter keeps, only their
      order; in particular it keeps how many. */
  lemma {:induction false} FilterSortBy<T>(s: seq<T>, before: (T, T) -> bool, p: T -> bool)
    ensures multiset(Filter(SortBy(s, before), p)) == multiset(Filter(s, p))
    ensures |Filter(SortBy(s, before), p)| == |Filter(s, p)|
    decreases |s|
  {
    if |s| > 0 {
      FilterSortBy(s[1..], before, p);
      FilterInsert(s[0], SortBy(s[1..], before), before, p);
      FilterConcat([s[0]], SortBy(s[1..], before), p);
      assert s == [s[0]] + s[1..];
      FilterConcat([s[0]], s[1..], p);
    }
    assert |multiset(Filter(SortBy(s, before), p))| == |multiset(Filter(s, p))|;
  }

  /** Inserting an element of a class none of whose members precede each
      other puts it ahead of every other member of that class. */
  lemma {:induction false} FilterInsertInClass<T>(x: T, ys: seq<T>, before: (T, T) -> bool, q: T -> bool)
    requires q(x)
    requires forall a, b :: q(a) && q(b) ==> !before(a, b)
    ensures Filter(Insert(x, ys, before), q) == [x] + Filter(ys, q)
    decreases |ys|
  {
    if |ys| == 0 || !before(ys[0], x) {
      assert ([x] + ys)[1..] == ys;
    } else {
      FilterInsertInClass(x, ys[1..], before, q);
      assert ([ys[0]] + Insert(x, ys[1..], before))[1..] == Insert(x, ys[1..], before);
    }
  }

  /** Inserting an element outside a class leaves the class's members as
      they were. */
  lemma {:induction false} FilterInsertOutsideClass<T>(x: T, ys: seq<T>, before: (T, T) -> bool, q: T -> bool)
    requires !q(x)
    ensures Filter(Insert(x, ys, before), q) == Filter(ys, q)
    decreases |ys|
  {
    if |ys| == 0 || !before(ys[0], x) {
      assert ([x] + ys)[1..] == ys;
    } else {
      FilterInsertOutsideClass(x, ys[1..], before, q);
      assert ([ys[0]] + Insert(x, ys[1..], before))[1..] == Insert(x, ys[1..], before);
    }
  }

  /** Stability: the members of a class none of which must precede another
      come out of the sort in their input order. */
  lemma {:induction false} SortByStableOn<T>(s: seq<T>, before: (T, T) -> bool, q: T -> bool)
    requires forall a, b :: q(a) && q(b) ==> !before(a, b)
    ensures Filter(SortBy(s, before), q) == Filter(s, q)
    decreases |s|
  {
    if |s| > 0 {
      SortByStableOn(s[1..], before, q);
      if q(s[0]) {
        FilterInsertInClass(s[0], SortBy(s[1..], before), before, q);
      } else {
        FilterInsertOutsideClass(s[0], SortBy(s[1..], before), before, q);
      }
    }
  }

  /** A filter only drops elements. */
  lemma {:induction false} FilterSubMultiset<T>(s: seq<T>, p: T -> bool)
    ensures multiset(Filter(s, p)) <= multiset(s)
    decreases |s|
  {
    if |s| > 0 {
      FilterSubMultiset(s[1..], p);
      assert s == [s[0]] + s[1..];
      FilterConcat([s[0]], s[1..], p);
    }
  }
}

=== FILE: signup.dfy ===
/** The sign-up page: referral identifiers and coupon numbers, the
    referral-code lookup, the writes an account creation issues, and the
    error shown when it fails. */
module Signup {
  import opened Optional
  import opened Text
  import opened Store

  // ---------------------------------------------------------------------
  // Generated identifiers

  /** `generateReferralId`: `ref-<Date.now()>-<floor(random * 1000000)>`. */
  function ReferralId(now: nat, random: real): string
    requires 0.0 <= random < 1.0
  {
    "ref-" + NatToString(now) + "-" + NatToString(RandomBelow(random, 1000000))
  }

  /** Reads a referral id back into its clock value and random number. */
  function ReadReferralId(s: string): Option<(nat, nat)> {
    if |s| < 4 || s[..4] != "ref-" then None
    else
      var rest := s[4..];
      var t := LeadingDigits(rest);
      if |t| == 0 || |t| >= |rest| || rest[|t|] != '-' then None
      else
        var u := rest[|t| + 1..];
        if |u| == 0 || !AllDigits(u) then None
        else Some((DigitsValue(t), DigitsValue(u)))
  }

  /** A referral id carries the clock value and the random number it was
      made from. */
  lemma ReadReferralIdOfReferralId(now: nat, random: real)
    requires 0.0 <= random < 1.0
    ensures ReadReferralId(ReferralId(now, random)) == Some((now, RandomBelow(random, 1000000)))
  {
    var t := NatToString(now);
    var u := NatToString(RandomBelow(random, 1000000));
    var s := ReferralId(now, random);
    assert s == "ref-" + (t + ("-" + u));
    assert s[..4] == "ref-";
    var rest := s[4..];
    assert rest == t + ("-" + u);
    LeadingDigitsOfDigitsThen(t, "-" + u);
    assert rest[|t|] == '-';
    assert rest[|t| + 1..] == u;
    DigitsValueOfNatToString(now);
    DigitsValueOfNatToString(RandomBelow(random, 1000000));
  }

  /** Two sign-ups at different clock values never share a referral id. */
  lemma ReferralIdsDifferInTime(now1: nat, random1: real, now2: nat, random2: real)
    requires 0.0 <= random1 < 1.0 && 0.0 <= random2 < 1.0
    requires now1 != now2
    ensures ReferralId(now1, random1) != ReferralId(now2, random2)
  {
    ReadReferralIdOfReferralId(now1, random1);
    ReadReferralIdOfReferralId(now2, random2);
  }

  /** `generateCouponNumber`: `CPN-` and six decimal digits. */
  function CouponNumber(random: real): (r: string)
    requires 0.0 <= random < 1.0
    ensures |r| == 10 && r[..4] == "CPN-"
    ensures AllDigits(r[4..]) && r[4] != '0'
    ensures 100000 <= DigitsValue(r[4..]) <= 999999
  {
    var n := SixDigit(random);
    SixDigitWidth(n);
    DigitsValueOfNatToString(n);
    var r := "CPN-" + NatToString(n);
    assert r[4..] == NatToString(n);
    r
  }

  // ---------------------------------------------------------------------
  // Referral-code validation

  /** What the page keeps about the referring user. */
  datatype ReferralDetails = ReferralDetails(uid: string, name: string, email: string)

  /** The referral part of the page state after a validation. */
  datatype ReferralCheck = ReferralCheck(details: Option<ReferralDetails>, error: string, queried: bool)

  const InvalidReferral := "Invalid referral code. Please check and try again."
  const ReferralLookupFailed := "Failed to validate referral code. Please try again."

  function FirstWithReferralId(users: seq<UserDoc>, code: string): (r: Option<UserDoc>)
    ensures r.Some? ==> r.value in users && r.value.referralId == code
    ensures r.None? <==> forall i :: 0 <= i < |users| ==> users[i].referralId != code
    ensures forall i :: (0 <= i < |users| && users[i].referralId == code &&
                         forall j :: 0 <= j < i ==> users[j].referralId != code) ==> r == Some(users[i])
    ensures r.Some? ==> exists i :: 0 <= i < |users| && users[i] == r.value &&
                                    forall j :: 0 <= j < i ==> users[j].referralId != code
    decreases |users|
  {
    if |users| == 0 then None
    else if users[0].referralId == code then Some(users[0])
    else
      var r := FirstWithReferralId(users[1..], code);
      assert forall i :: 0 <= i < |users[1..]| ==> users[1..][i] == users[i + 1];
      assert r.Some? ==> exists i :: 0 <= i < |users| && users[i] == r.value &&
                                    forall j :: 0 <= j < i ==> users[j].referralId != code by {
        if r.Some? {
          var k :| 0 <= k < |users[1..]| && users[1..][k] == r.value &&
                   forall j :: 0 <= j < k ==> users[1..][j].referralId != code;
          assert users[k + 1] == r.value;
        }
      }
      r
  }

  /** `handleReferralCodeValidation(code)` against the `users` collection in
      query order (`lookupFails` when the query is rejected): an empty code
      clears the state without a lookup; otherwise the first user whose
      referral id equals the code, or the matching error. */
  function ValidateReferral(code: string, users: seq<UserDoc>, lookupFails: bool): (r: ReferralCheck)
    ensures code == "" ==> r == ReferralCheck(None, "", false)
    ensures code != "" ==> r.queried
    ensures code != "" && lookupFails ==> r.details.None? && r.error == ReferralLookupFailed
    ensures code != "" && !lookupFails ==>
              (r.details.Some? <==> exists i :: 0 <= i < |users| && users[i].referralId == code)
    ensures r.details.Some? ==>
              exists i :: 0 <= i < |users| && users[i].referralId == code &&
                (forall j :: 0 <= j < i ==> users[j].referralId != code) &&
                r.details.value == ReferralDetails(users[i].uid, users[i].name, users[i].email)
    ensures r.details.Some? <==> r.error == ""  && code != ""
    ensures code != "" && !lookupFails && r.details.None? ==> r.error == InvalidReferral
  {
    if code == "" then ReferralCheck(None, "", false)
    else if lookupFails then ReferralCheck(None, ReferralLookupFailed, true)
    else
      match FirstWithReferralId(users, code)
      case Some(u) => ReferralCheck(Some(ReferralDetails(u.uid, u.name, u.email)), "", true)
      case None => ReferralCheck(None, InvalidReferral, true)
  }

  /** Users after the first holder of the code do not change the answer,
      and neither do users before it who hold another code. */
  lemma ReferralIgnoresOtherHolders(code: string, before: seq<UserDoc>, holder: UserDoc, after: seq<UserDoc>)
    requires code != "" && holder.referralId == code
    requires forall j :: 0 <= j < |before| ==> before[j].referralId != code
    ensures ValidateReferral(code, before + [holder] + after, false) ==
            ReferralCheck(Some(ReferralDetails(holder.uid, holder.name, holder.email)), "", true)
  {
    var users := before + [holder] + after;
    assert users[|before|] == holder;
    assert forall j :: 0 <= j < |before| ==> users[j] == before[j];
  }

  // ---------------------------------------------------------------------
  // Account creation

  /** The two roles the sign-up form offers; Dealer is preselected. */
  datatype SignupRole = Dealer | Installer {
    function Name(): string {
      match this
      case Dealer => "Dealer"
      case Installer => "Installer"
    }
  }

  datatype SignupForm = SignupForm(name: string, email: string, password: string, role: SignupRole)

  /** The authentication service's answer to `createUserWithEmailAndPassword`. */
  datatype AuthReply = Created(uid: string) | AuthFailed(message: string)

  /** The client-side values a sign-up draws: the clock in milliseconds and
      three random values (referral id, two coupons). */
  datatype Draws = Draws(now: nat, forReferralId: real, forReferrerCoupon: real, forNewUserCoupon: real)

  predicate ValidDraws(d: Draws) {
    0.0 <= d.forReferralId < 1.0 && 0.0 <= d.forReferrerCoupon < 1.0 && 0.0 <= d.forNewUserCoupon < 1.0
  }

  datatype SignupOutcome = SignupOutcome(writes: seq<Write>, error: string, success: string, toLogin: bool)

  const EmailInUse := "This email is already in use. Please try logging in or use a different email."
  const CreateFailed := "Failed to create an account. Please try again."
  const AccountCreated := "Account created successfully! Redirecting..."

  /** The message shown for a failure whose text is `message`. */
  function SignupError(message: string): (r: string)
    ensures r == EmailInUse <==> Includes(message, "email-already")
    ensures r == EmailInUse || r == CreateFailed
  {
    if Includes(message, "email-already") then EmailInUse else CreateFailed
  }

  function NewUserDoc(uid: string, f: SignupForm, referralId: string): UserDoc {
    UserDoc(uid, f.email, f.name, Some(f.role.Name()), referralId, [], None)
  }

  /** The fixed parts of the messages a sign-up writes, around the new
      user's name. */
  const ReferrerRewardText := ".\n          Keep referring more users to earn additional rewards for their first orders!"
  const NewUserRewardText := "! You’ve earned a Silver-level commission on your first order. Complete your first order to activate your reward benefits!"
  const WelcomeText := "! Thank you for joining us and being a part of our growing network."

  function ReferrerReward(name: string): string {
    "You’ve earned a one-time reward for referring " + name + ReferrerRewardText
  }

  function NewUserReward(name: string): string {
    "Thank you for signing up using a referral code, " + name + NewUserRewardText
  }

  function Welcome(name: string): string {
    "Welcome to DXD Dealer-Installer Manager, " + name + WelcomeText
  }

  /** The writes of a sign-up for the new account `uid`, in issue order. */
  function SignupPlan(uid: string, f: SignupForm, referral: Option<ReferralDetails>, d: Draws): (plan: seq<Write>)
    requires ValidDraws(d)
    ensures |plan| == if referral.Some? then 6 else 2
    ensures plan[0] == SetUser(uid, NewUserDoc(uid, f, ReferralId(d.now, d.forReferralId)))
    ensures plan[|plan| - 1].AddNotification? && plan[|plan| - 1].notification.userId == uid &&
            plan[|plan| - 1].notification.kind == "info" && plan[|plan| - 1].notification.read == ReadText("false")
    ensures referral.Some? ==>
              && plan[1] == UnionReferral(referral.value.uid, uid)
              && plan[2].AddNotification? && plan[2].notification.userId == referral.value.uid
              && plan[2].notification.read == ReadText("false")
              && plan[3].AddReward? && plan[3].reward.userId == referral.value.uid
              && plan[4].AddReward? && plan[4].reward.userId == uid
              && plan[3].reward.status == "unclaimed" == plan[4].reward.status
              && plan[3].reward.kind == "Referral" == plan[4].reward.kind
  {
    var account := SetUser(uid, NewUserDoc(uid, f, ReferralId(d.now, d.forReferralId)));
    var welcome := AddNotification(NotificationDoc(uid, Welcome(f.name), Some(d.now), ReadText("false"), "info", None));
    match referral
    case None => [account, welcome]
    case Some(ref) =>
      var seconds := d.now / 1000;
      [account,
       UnionReferral(ref.uid, uid),
       AddNotification(NotificationDoc(ref.uid, f.name + " has joined using your referral code.",
                                       Some(d.now), ReadText("false"), "alert", None)),
       AddReward(RewardDoc(ref.uid, ReferrerReward(f.name), seconds, "unclaimed", "Referral", CouponNumber(d.forReferrerCoupon))),
       AddReward(RewardDoc(uid, NewUserReward(f.name), seconds, "unclaimed", "Referral", CouponNumber(d.forNewUserCoupon))),
       welcome]
  }

  /** `handleSignup`: creates the account, then issues the plan's writes in
      order; a failure at any point stops the handler and shows the mapped
      error (`storeError` is the text of the store's rejection). */
  function HandleSignup(f: SignupForm, referral: Option<ReferralDetails>, auth: AuthReply,
                        d: Draws, accepted: nat, storeError: string): (r: SignupOutcome)
    requires ValidDraws(d)
    ensures auth.AuthFailed? ==> r == SignupOutcome([], SignupError(auth.message), "", false)
    ensures auth.Created? ==> r.writes == Performed(SignupPlan(auth.uid, f, referral, d), accepted)
    ensures r.toLogin <==> auth.Created? && r.writes == SignupPlan(auth.uid, f, referral, d)
    ensures r.toLogin <==> r.success == AccountCreated
    ensures r.toLogin ==> r.error == ""
    ensures !r.toLogin ==> r.error in {EmailInUse, CreateFailed} && r.success == ""
  {
    match auth
    case AuthFailed(message) => SignupOutcome([], SignupError(message), "", false)
    case Created(uid) =>
      var plan := SignupPlan(uid, f, referral, d);
      if Succeeds(plan, accepted) then SignupOutcome(plan, "", AccountCreated, true)
      else SignupOutcome(Performed(plan, accepted), SignupError(storeError), "", false)
  }

  /** After a complete sign-up through a referral, the `users` collection
      holds the new account with no referrals and the referrer's list has
      gained the new account exactly once; nobody else changed. */
  lemma SignupRecordsReferral(users: map<string, UserDoc>, f: SignupForm, ref: ReferralDetails, uid: string, d: Draws)
    requires ValidDraws(d)
    requires ref.uid in users && ref.uid != uid
    ensures var after := ApplyAllToUsers(users, SignupPlan(uid, f, Some(ref), d));
            && after.Keys == users.Keys + {uid}
            && after[uid] == NewUserDoc(uid, f, ReferralId(d.now, d.forReferralId))
            && after[ref.uid].referrals == ArrayUnion(users[ref.uid].referrals, uid)
            && uid in after[ref.uid].referrals
            && (forall k :: k in users && k != uid && k != ref.uid ==> after[k] == users[k])
  {
    var plan := SignupPlan(uid, f, Some(ref), d);
    var u1 := ApplyToUsers(users, plan[0]);
    var u2 := ApplyToUsers(u1, plan[1]);
    assert plan[1..][1..] == plan[2..];
    OtherCollectionsLeaveUsers(u2, plan[2..]);
  }

  /** Writes to other collections leave `users` as it was. */
  lemma {:induction false} OtherCollectionsLeaveUsers(users: map<string, UserDoc>, ws: seq<Write>)
    requires forall i :: 0 <= i < |ws| ==> !(ws[i].SetUser? || ws[i].UnionReferral? || ws[i].ApproveUser?)
    ensures ApplyAllToUsers(users, ws) == users
    decreases |ws|
  {
    if |ws| > 0 {
      OtherCollectionsLeaveUsers(users, ws[1..]);
    }
  }
}

=== FILE: store.dfy ===
/** The document store as the pages see it: the documents of each
    collection they write, the writes they issue, and the client-generated
    identifiers put into those documents. A handler issues its writes one
    `await` at a time inside one `try`; the store is modelled by how many
    of them it accepts before it rejects one, after which the handler stops. */
module Store {
  import opened Optional
  import opened Text

  /** A notification's `read` marker: the writers store the strings "false"
      and "true"; the notification page puts the boolean `true` in its
      local copy. */
  datatype ReadMark = ReadText(text: string) | ReadFlag(flag: bool)

  /** A document of the `Notification` collection. `createdAt` is a
      millisecond clock value; old documents may lack it. */
  datatype NotificationDoc = NotificationDoc(
    userId: string,
    message: string,
    createdAt: Option<int>,
    read: ReadMark,
    kind: string,
    orderNumber: Option<nat>)

  /** A `Notification` document together with its document id. */
  datatype StoredNotification = StoredNotification(id: string, doc: NotificationDoc)

  /** A document of the `Rewards` collection; `createdAtSeconds` is the
      stored timestamp's `seconds`. */
  datatype RewardDoc = RewardDoc(
    userId: string,
    message: string,
    createdAtSeconds: int,
    status: string,
    kind: string,
    couponNumber: string)

  /** A document of the `users` collection. `role` and `status` may be
      absent (accounts created outside the signup page, installers not yet
      approved). */
  datatype UserDoc = UserDoc(
    uid: string,
    email: string,
    name: string,
    role: Option<string>,
    referralId: string,
    referrals: seq<string>,
    status: Option<string>)

  /** The embedded `product` of a quotation. */
  datatype QuotedProduct = QuotedProduct(
    productName: string,
    height: string,
    width: string,
    additionalRequirements: string,
    status: Option<string>)

  /** A document of the `Quotation_form` collection. The review fields are
      absent until an administrator decides. */
  datatype QuotationDoc = QuotationDoc(
    clientName: string,
    clientPhone: string,
    clientEmail: string,
    city: string,
    postalCode: string,
    product: QuotedProduct,
    userId: string,
    orderNumber: nat,
    timestamp: string,
    status: Option<string>,
    paymentStatus: Option<string>,
    estimatePrice: Option<real>,
    commissionPercentage: Option<real>,
    commissionValue: Option<real>)

  /** One store request. */
  datatype Write =
    | SetQuotation(key: string, quotation: QuotationDoc)
    | ApproveQuotation(id: string, estimatePrice: real, commissionPercentage: real,
                       commissionValue: real, paymentStatus: string)
    | RejectQuotation(id: string)
    | AddNotification(notification: NotificationDoc)
    | MarkNotificationRead(id: string)
    | DeleteNotification(id: string)
    | SetUser(uid: string, user: UserDoc)
    | UnionReferral(uid: string, referred: string)
    | AddReward(reward: RewardDoc)
    | ApproveUser(id: string)
    | SetProjectStatus(id: string, status: string)

  /** The writes of `plan` that take effect when the store accepts
      `accepted` requests before rejecting one: a prefix of the plan. */
  function Performed(plan: seq<Write>, accepted: nat): (r: seq<Write>)
    ensures r <= plan
    ensures |r| == if accepted < |plan| then accepted else |plan|
  {
    if accepted < |plan| then plan[..accepted] else plan
  }

  /** Every write of the plan was accepted. */
  predicate Succeeds(plan: seq<Write>, accepted: nat) {
    accepted >= |plan|
  }

  /** Firestore's `arrayUnion(x)` applied to an array field. */
  function ArrayUnion(xs: seq<string>, x: string): (r: seq<string>)
    ensures xs <= r
    ensures x in r
    ensures forall i :: 0 <= i < |r| ==> r[i] in xs || r[i] == x
    ensures x in xs ==> r == xs
    ensures Distinct(xs) ==> Distinct(r)
  {
    if x in xs then xs else xs + [x]
  }

  predicate Distinct(xs: seq<string>) {
    forall i, j :: 0 <= i < j < |xs| ==> xs[i] != xs[j]
  }

  /** Applying the same union twice changes nothing more. */
  lemma ArrayUnionIdempotent(xs: seq<string>, x: string)
    ensures ArrayUnion(ArrayUnion(xs, x), x) == ArrayUnion(xs, x)
  {
  }

  /** The `users` collection after a write; writes to other collections
      leave it alone, and an update of a missing user is a no-op here. */
  function ApplyToUsers(users: map<string, UserDoc>, w: Write): (r: map<string, UserDoc>)
    ensures r.Keys == users.Keys + (if w.SetUser? then {w.uid} else {})
  {
    match w
    case SetUser(uid, user) => users[uid := user]
    case UnionReferral(uid, referred) =>
      if uid in users then users[uid := users[uid].(referrals := ArrayUnion(users[uid].referrals, referred))]
      else users
    case ApproveUser(id) =>
      if id in users then users[id := users[id].(status := Some("Approved"))] else users
    case _ => users
  }

  function ApplyAllToUsers(users: map<string, UserDoc>, ws: seq<Write>): (r: map<string, UserDoc>)
    ensures users.Keys <= r.Keys
    decreases |ws|
  {
    if |ws| == 0 then users else ApplyAllToUsers(ApplyToUsers(users, ws[0]), ws[1..])
  }

  /** `Math.floor(Math.random() * n)` for a random value `r` in [0, 1). */
  function RandomBelow(r: real, n: nat): (k: nat)
    requires 0.0 <= r < 1.0 && n >= 1
    ensures k < n
  {
    var m := n as real;
    var x := r * m;
    assert m - x == (1.0 - r) * m;
    assert (1.0 - r) * m > 0.0;
    x.Floor
  }

  /** `Math.floor(100000 + Math.random() * 900000)`: a six-digit number. */
  function SixDigit(r: real): (k: nat)
    requires 0.0 <= r < 1.0
    ensures 100000 <= k <= 999999
  {
    var x := 100000.0 + r * 900000.0;
    assert 100000.0 <= x < 1000000.0;
    x.Floor
  }

  /** Every six-digit number is drawn by some random value. */
  lemma SixDigitOnto(k: nat)
    requires 100000 <= k <= 999999
    ensures SixDigit((k - 100000) as real / 900000.0) == k
  {
    var r := (k - 100000) as real / 900000.0;
    assert 100000.0 + r * 900000.0 == k as real;
  }
}

=== FILE: text.dfy ===
/** Strings as the dashboard treats them: ASCII case folding, `includes`,
    decimal rendering of numbers (`String(n)` and template literals) and
    `parseInt(s, 10)`. */
module Text {
  import opened Optional

  predicate IsUpper(c: char) { 'A' <= c <= 'Z' }
  predicate IsLowerLetter(c: char) { 'a' <= c <= 'z' }
  predicate IsLetter(c: char) { IsUpper(c) || IsLowerLetter(c) }
  predicate IsDigit(c: char) { '0' <= c <= '9' }

  predicate AllDigits(s: string) {
    forall i :: 0 <= i < |s| ==> IsDigit(s[i])
  }

  /** `toLowerCase` on one character; only ASCII letters are folded. */
  function LowerChar(c: char): (r: char)
    ensures !IsUpper(r)
    ensures IsDigit(c) ==> r == c
  {
    if IsUpper(c) then (c as int + 32) as char else c
  }

  function Lower(s: string): (r: string)
    ensures |r| == |s|
    ensures forall i :: 0 <= i < |s| ==> r[i] == LowerChar(s[i])
  {
    seq(|s|, i requires 0 <= i < |s| => LowerChar(s[i]))
  }

  lemma LowerIdempotent(s: string)
    ensures Lower(Lower(s)) == Lower(s)
  {
  }

  lemma LowerOfDigits(s: string)
    requires AllDigits(s)
    ensures Lower(s) == s
  {
  }

  predicate StartsWith(s: string, prefix: string) {
    |prefix| <= |s| && s[..|prefix|] == prefix
  }

  /** `hay.includes(needle)`: the needle occurs at some position of the hay. */
  predicate Includes(hay: string, needle: string)
    decreases |hay|
  {
    StartsWith(hay, needle) || (|hay| > 0 && Includes(hay[1..], needle))
  }

  /** `needle` occurs in `hay` at offset `i`. */
  ghost predicate OccursAt(hay: string, needle: string, i: int) {
    0 <= i && i + |needle| <= |hay| && hay[i..i + |needle|] == needle
  }

  /** The scanning definition agrees with "there is an offset at which the
      needle occurs". */
  lemma {:induction false} IncludesIff(hay: string, needle: string)
    ensures Includes(hay, needle) <==> exists i :: OccursAt(hay, needle, i)
    decreases |hay|
  {
    if StartsWith(hay, needle) {
      assert OccursAt(hay, needle, 0);
    }
    if |hay| > 0 {
      IncludesIff(hay[1..], needle);
      if Includes(hay[1..], needle) {
        var i :| OccursAt(hay[1..], needle, i);
        assert hay[i + 1..i + 1 + |needle|] == hay[1..][i..i + |needle|];
        assert OccursAt(hay, needle, i + 1);
      }
      if i :| OccursAt(hay, needle, i) {
        if i > 0 {
          assert hay[1..][i - 1..i - 1 + |needle|] == hay[i..i + |needle|];
          assert OccursAt(hay[1..], needle, i - 1);
        } else {
          assert StartsWith(hay, needle);
        }
      }
    } else {
      if i :| OccursAt(hay, needle, i) {
        assert StartsWith(hay, needle);
      }
    }
  }

  /** Every string includes the empty string. */
  lemma IncludesEmpty(hay: string)
    ensures Includes(hay, "")
  {
  }

  /** Case-insensitive `includes`, as `a.toLowerCase().includes(b.toLowerCase())`. */
  predicate IncludesIgnoringCase(hay: string, needle: string) {
    Includes(Lower(hay), Lower(needle))
  }

  function DigitChar(d: nat): (c: char)
    requires d < 10
    ensures IsDigit(c)
  {
    ('0' as int + d) as char
  }

  function DigitValue(c: char): (d: nat)
    requires IsDigit(c)
    ensures d < 10
  {
    c as int - '0' as int
  }

  /** `String(n)` for a non-negative integer: its decimal digits, no leading zero. */
  function NatToString(n: nat): (r: string)
    ensures |r| >= 1
    ensures AllDigits(r)
    ensures n >= 10 ==> r[0] != '0'
    decreases n
  {
    if n < 10 then [DigitChar(n)] else NatToString(n / 10) + [DigitChar(n % 10)]
  }

  /** The number a string of decimal digits denotes. */
  function DigitsValue(s: string): nat
    requires AllDigits(s)
    decreases |s|
  {
    if |s| == 0 then 0 else DigitsValue(s[..|s| - 1]) * 10 + DigitValue(s[|s| - 1])
  }

  /** Reading back the rendered digits gives the number. */
  lemma {:induction false} DigitsValueOfNatToString(n: nat)
    ensures DigitsValue(NatToString(n)) == n
    decreases n
  {
    var s := NatToString(n);
    if n >= 10 {
      DigitsValueOfNatToString(n / 10);
      assert s[..|s| - 1] == NatToString(n / 10);
    }
  }

  lemma WidthStep(n: nat)
    requires n >= 10
    ensures |NatToString(n)| == |NatToString(n / 10)| + 1
  {
  }

  /** Six-digit numbers render as exactly six characters. */
  lemma SixDigitWidth(n: nat)
    requires 100000 <= n <= 999999
    ensures |NatToString(n)| == 6
  {
    var n1, n2, n3, n4, n5 := n / 10, n / 100, n / 1000, n / 10000, n / 100000;
    assert n1 / 10 == n2 && n2 / 10 == n3 && n3 / 10 == n4 && n4 / 10 == n5;
    assert 1 <= n5 < 10 && n4 >= 10 && n3 >= 10 && n2 >= 10 && n1 >= 10;
    WidthStep(n);
    WidthStep(n1);
    WidthStep(n2);
    WidthStep(n3);
    WidthStep(n4);
  }

  /** The longest prefix of `s` made of decimal digits. */
  function LeadingDigits(s: string): (r: string)
    ensures r <= s
    ensures AllDigits(r)
    ensures |r| < |s| ==> !IsDigit(s[|r|])
    decreases |s|
  {
    if |s| > 0 && IsDigit(s[0]) then [s[0]] + LeadingDigits(s[1..]) else []
  }

  /** White space and line terminators as sections 12.2 and 12.3 of
      ECMAScript 2024 list them: the ASCII blanks, vertical tab, form feed,
      no-break space, the byte-order mark, the space separators of Unicode
      category Zs, and the line and paragraph separators. */
  predicate IsBlank(c: char) {
    || c == ' ' || c == '\t' || c == '\n' || c == '\r' || c == '\U{000B}' || c == '\U{000C}'
    || c == '\U{00A0}' || c == '\U{FEFF}' || c == '\U{1680}' || '\U{2000}' <= c <= '\U{200A}'
    || c == '\U{2028}' || c == '\U{2029}' || c == '\U{202F}' || c == '\U{205F}' || c == '\U{3000}'
  }

  function TrimStart(s: string): (r: string)
    ensures |r| <= |s|
    ensures |r| > 0 ==> !IsBlank(r[0])
    decreases |s|
  {
    if |s| > 0 && IsBlank(s[0]) then TrimStart(s[1..]) else s
  }

  /** `parseInt(s, 10)`: leading blanks skipped, an optional sign, then the
      longest run of digits; `None` stands for `NaN` (no digit at all). */
  function ParseInt(s: string): (r: Option<int>)
    ensures r.None? <==>
            var t := TrimStart(s);
            var body := if |t| > 0 && (t[0] == '-' || t[0] == '+') then t[1..] else t;
            |body| == 0 || !IsDigit(body[0])
  {
    var t := TrimStart(s);
    var negative := |t| > 0 && t[0] == '-';
    var body := if |t| > 0 && (t[0] == '-' || t[0] == '+') then t[1..] else t;
    var digits := LeadingDigits(body);
    var magnitude: int := if |digits| == 0 then 0 else DigitsValue(digits);
    if |digits| == 0 then None
    else Some(if negative then -magnitude else magnitude)
  }

  /** `parseInt` reads back what `String(n)` rendered, whatever follows a
      non-digit. */
  lemma ParseIntOfNatToString(n: nat, rest: string)
    requires |rest| == 0 || !IsDigit(rest[0])
    ensures ParseInt(NatToString(n) + rest) == Some(n)
  {
    var s := NatToString(n);
    var t := s + rest;
    assert TrimStart(t) == t;
    LeadingDigitsOfDigitsThen(s, rest);
    DigitsValueOfNatToString(n);
  }

  /** The leading digits of `digits + rest` are `digits` when `rest` does
      not start with a digit. */
  lemma {:induction false} LeadingDigitsOfDigitsThen(digits: string, rest: string)
    requires AllDigits(digits)
    requires |rest| == 0 || !IsDigit(rest[0])
    ensures LeadingDigits(digits + rest) == digits
    decreases |digits|
  {
    if |digits| > 0 {
      assert (digits + rest)[1..] == digits[1..] + rest;
      LeadingDigitsOfDigitsThen(digits[1..], rest);
    }
  }
}
